=== FILE: README.md ===
# multicamcomposepro, modelled in Dafny

multicamcomposepro photographs an object with a rig of USB cameras. It stores the shots in
a dataset tree, `data_warehouse/dataset/<object>/{train/good, test/good, test/<anomaly>}`.
It then multiplies the "good" training images with randomised OpenCV transforms.

The repository holds two diverging revisions of the same program:

- `src/multicamcomposepro/*` is the newer one;
- `multicamcomposepro/*` is the older one.

This project models each revision as written. It keeps them in separate modules:

| concern | newer revision | older revision |
|---|---|---|
| dataset tree | `Warehouse` | `LegacyWarehouse` (`Warehouse` in utils.py), `WarehouseBuilder` |
| camera identifier and configurator | `CameraConfig` | `LegacyIdentifier` |
| capture schedule | `Capture` | `LegacyCapture` |
| augmenter | `AugmentParams`, `Augment` | `LegacyAugment` |

Both camera managers share the angle table and its rearrangement (`CameraAngles`); the
two `sort_camera_angles` bodies are identical. `VideoCropper` is the rectangle-drag
state machine of `tests/mask_test.py`. `Pipeline` connects the newer revision's pieces:
the configuration file the identifier writes, the count and mapping the camera manager
reads back, and the tree the capture run writes into.

The infrastructure modules follow Python's own semantics:

- `Text`: `str.lower`, `int()`, `f"{n:03d}"`, `in` on strings.
- `Json`: insertion-ordered dicts and the JSON file as a map from top-level keys to values.
- `FileSystem`: the filesystem as a set of paths, `os.path.join` and `os.path.basename` on relative names, `os.makedirs` with permission denial.
- `Layout`: the shape of the dataset tree.
- `Imaging`: images as rows of pixels, with flip, saturation and clipping.
- `Sampling`: `random.uniform` and `random.randint` as functions of a unit draw.

Everything the program takes from outside is a parameter:

- the devices ("does camera i open", "does read j of this shot succeed");
- the keyboard (the identifiers typed, the keys pressed);
- the random draws, as unit reals in [0, 1);
- the directory listings and image reads;
- the pixel arithmetic of `warpAffine` and `GaussianBlur`, as a sampling function.

## Model

| member | source | states |
|---|---|---|
| Text.Pad3 | src/multicamcomposepro/camera.py:157 | `f"{n:03d}"` is all digits and reads back as n; below 1000 it is exactly three characters, from 1000 on it is the plain decimal |
| Text.Pad3Injective | src/multicamcomposepro/camera.py:157 | two capture counters with the same padded name are equal, so rounds never overwrite each other's files |
| Text.NatToString | src/multicamcomposepro/augment.py:58 | the decimal rendering of an index is a non-empty string of digits |
| Text.DecimalRoundTrip | src/multicamcomposepro/augment.py:58 | reading the rendered digits back gives the index |
| Text.NatToStringInjective | src/multicamcomposepro/augment.py:58 | different indices render differently |
| Text.ParseInt | src/multicamcomposepro/camera.py:89 | `int(identifier)` never yields a number from text without a digit, and yields a negative one only when the text holds a minus sign |
| Text.Strip | src/multicamcomposepro/camera.py:89 | the whitespace `int()` ignores is removed from both ends, the result keeps only characters of the text and begins and ends with a non-space |
| Text.ParseIgnoresSpace | src/multicamcomposepro/camera.py:89 | whitespace around the text, including the separators 0x1C to 0x1F and the Unicode spaces, does not change what `int()` returns |
| Text.ParseRendered | src/multicamcomposepro/camera.py:89 | `int()` accepts every rendered index and returns it |
| Text.ParseNegative | src/multicamcomposepro/camera.py:89 | `int()` of a minus sign followed by a rendered number returns its negation |
| Text.UnderscoreGroups | src/multicamcomposepro/camera.py:89 | a single underscore between digits is accepted: "1_0" reads as 10 |
| Text.UnderscoreMisplaced | src/multicamcomposepro/camera.py:89 | a leading, trailing or doubled underscore raises ValueError |
| Text.SeparatorIsSpace | src/multicamcomposepro/camera.py:89 | "5" followed by the separator 0x1C reads as 5 |
| Text.Lower | src/multicamcomposepro/utils.py:79 | `str.lower` maps exactly the ASCII capitals to small letters and keeps the length |
| Json.Get | src/multicamcomposepro/utils.py:80 | a dict lookup succeeds exactly when the key is present, and returns that key's value |
| Json.Put | src/multicamcomposepro/utils.py:85 | assigning a key overwrites an existing one in place or appends a new one; every other key reads as before |
| Json.PutSize | src/multicamcomposepro/utils.py:85 | assigning an existing key keeps the dict's size; a new key goes at the end |
| Json.PutUnique | src/multicamcomposepro/utils.py:85 | assignment never duplicates a key |
| Json.Len | src/multicamcomposepro/camera.py:64 | `len()` of a loaded value raises TypeError exactly on an integer, the only scalar modelled |
| Json.Contains | src/multicamcomposepro/utils.py:204-207 | `k in v` raises TypeError exactly on an integer; on an object it tests the keys and on a list its elements |
| Json.MergeWrite | src/multicamcomposepro/utils.py:87-95 | read-merge-write replaces one top-level key and keeps every other key of an existing file; without a file it writes that key alone |
| Json.ToFile | multicamcomposepro/camera_identifier.py:22-24 | dumping a dict gives a file with exactly its keys and values |
| FileSystem.SplitJoin | src/multicamcomposepro/utils.py:253-255 | joining the pieces of a name with "/" gives the name back, so the pieces are exactly its separator-free parts |
| FileSystem.KeepMembers | src/multicamcomposepro/utils.py:255 | the levels a joined name adds are exactly its pieces other than "" and "." |
| FileSystem.ComponentChars | src/multicamcomposepro/utils.py:270-271 | a character other than "/" and "." occurs in a name exactly when it occurs in a level the name adds |
| FileSystem.PlainComponents | src/multicamcomposepro/utils.py:255 | a one-level name adds exactly itself and is its own basename |
| FileSystem.EmptyAndDot | src/multicamcomposepro/utils.py:255 | joining "" or "." adds no level; their basenames are "" and "." |
| FileSystem.NestedComponents | src/multicamcomposepro/utils.py:270-271 | a name "a/b" adds two levels and its basename is "b" |
| FileSystem.LeafSuffix | src/multicamcomposepro/utils.py:236 | `os.path.basename` is the text after the last separator: a suffix of the name, preceded by "/" when shorter |
| FileSystem.Prefixes | src/multicamcomposepro/utils.py:235 | the directories `os.makedirs` needs are exactly the non-empty prefixes of the path |
| FileSystem.MakeDirs | src/multicamcomposepro/utils.py:235 | `os.makedirs` fails exactly when a missing prefix is denied; on success it adds the path and never a denied one, and keeps the tree closed under parents |
| FileSystem.RefusedLeafKeepsAncestors | src/multicamcomposepro/utils.py:235 | when only the path itself is refused, `os.makedirs` raises but the missing ancestors it created stay |
| FileSystem.CreateDirectory | src/multicamcomposepro/utils.py:232-238 | an absent path is created with its missing ancestors and its basename recorded; a permission error records nothing, and the ancestors created before the refused directory stay; an existing path changes nothing |
| FileSystem.CreateAll | src/multicamcomposepro/utils.py:257-272 | a run of `create_directory` calls only grows the tree, never creates a denied path, and records at most one name per call |
| FileSystem.CreateAllSettles | src/multicamcomposepro/utils.py:257-272 | after the run every listed path exists or is still blocked |
| FileSystem.CreateAllStable | src/multicamcomposepro/utils.py:232-238 | when every path already exists or is blocked, the run changes nothing and records nothing |
| FileSystem.CreateAllIdempotent | src/multicamcomposepro/utils.py:232-238 | repeating a run of `create_directory` calls creates and records nothing |
| FileSystem.CreateOneFresh | src/multicamcomposepro/utils.py:232-236 | a fresh path whose parent exists is added alone and its basename recorded |
| FileSystem.CreateAllFirstVisits | src/multicamcomposepro/utils.py:232-238 | with no refusal on the way and parents first, a run creates every listed path and records a basename at the first visit of each absent one only |
| FileSystem.CreateAllFresh | src/multicamcomposepro/utils.py:257-272 | fresh distinct paths listed parents first are all created, and their basenames are recorded in order |
| FileSystem.CreateOneOnly | src/multicamcomposepro/utils.py:235 | once the parent is settled, `makedirs` adds nothing but the path itself |
| FileSystem.CreateAllOnlyListed | src/multicamcomposepro/utils.py:257-272 | a run whose parents come first creates no directory outside the list |
| Layout.CleanFolderName | src/multicamcomposepro/utils.py:228-230 | every space becomes an underscore and every other character is kept |
| Layout.CleanHasNoSpace | src/multicamcomposepro/utils.py:228-230 | a cleaned name has no space |
| Layout.CleanKeepsSpaceless | src/multicamcomposepro/utils.py:228-230 | a name without spaces is left alone |
| Layout.CleanIdempotent | src/multicamcomposepro/utils.py:228-230 | cleaning twice is cleaning once |
| Layout.CleanExample | src/multicamcomposepro/utils.py:229 | "my folder" becomes "my_folder" |
| Layout.CleanAll | src/multicamcomposepro/utils.py:269-270 | the nested names are cleaned one by one, in order |
| Layout.AnomalyPaths | src/multicamcomposepro/utils.py:263 | each anomaly gets the folder `os.path.join(<object>, "test", anomaly)`, in list order |
| Layout.PlainLayout | src/multicamcomposepro/utils.py:253-271 | with one-level names the object folder is `data_warehouse/dataset/<object>` and each anomaly folder is `test/<anomaly>` under it |
| Layout.BuildPaths | src/multicamcomposepro/utils.py:257-272 | `build` visits 7 + len(anomalies) directories |
| Layout.LayoutShape | src/multicamcomposepro/utils.py:262-263 | `good` lies under both splits and anomalies only under `test`; nothing else is visited |
| Layout.BuildAncestorsFirst | src/multicamcomposepro/utils.py:257-272 | with one-level names every directory is visited after its parent |
| Layout.BuildPass | src/multicamcomposepro/utils.py:257-272 | a build only adds directories of the tree or their ancestors, never a refused one, records at most 7 + len(anomalies) names and keeps the tree closed under parents |
| Layout.PassIdempotent | src/multicamcomposepro/utils.py:232-238 | a second build over the result of a build creates and records nothing |
| Layout.PassOnlyTree | src/multicamcomposepro/utils.py:257-272 | every directory a build creates is a visited directory or an ancestor of one; with one-level names it is a visited one |
| Layout.PassSettles | src/multicamcomposepro/utils.py:257-272 | after a build every visited directory exists or was refused on the way |
| Layout.PlainTreeShape | src/multicamcomposepro/utils.py:257-272 | with one-level names the visited directories are exactly the seven fixed ones and `test/<a>` for each anomaly a |
| Layout.ObjectPass | src/multicamcomposepro/utils.py:257-260 | the first three `create_directory` calls create only prefixes of the object folder and record at most three names |
| Layout.ObjectPassFresh | src/multicamcomposepro/utils.py:257-260 | on a fresh tree they create and record base, dataset and the object, in that order |
| Layout.JoinSpaced | src/multicamcomposepro/utils.py:270-271 | joining a name with a space adds a level with a space |
| Layout.TreeSpaceless | src/multicamcomposepro/utils.py:269-271 | from names without spaces no visited directory has a space at any level |
| Layout.BuildPathsFresh | src/multicamcomposepro/utils.py:257-272 | with one-level names and distinct anomalies other than `good`, the visited directories are distinct and, on a fresh tree, all absent |
| Layout.BuildPathsDistinct | src/multicamcomposepro/utils.py:257-272 | with one-level names and distinct anomaly names none of which is `good`, no directory of the tree is visited twice |
| Layout.BuildBasenames | src/multicamcomposepro/utils.py:257-272 | with one-level names the basenames recorded are base, dataset, object, train, good, test, good, then the anomalies |
| Layout.BuildPathsUnderBase | src/multicamcomposepro/utils.py:253 | every visited directory lies under `data_warehouse` |
| Layout.FreshPass | src/multicamcomposepro/utils.py:257-272 | on a fresh tree with one-level names one pass creates exactly the tree and records its names in visiting order |
| Layout.FreshTreeExists | src/multicamcomposepro/utils.py:255-271 | after a fresh build with one-level names the object folder and every `test/<anomaly>` folder exist |
| Layout.EmptyObjectPass | src/multicamcomposepro/utils.py:255-258 | with object name "" the object folder is `dataset` itself: a fresh build puts train and test under `dataset` and records six names before the anomalies |
| Layout.LevellessObjectPass | src/multicamcomposepro/utils.py:255-272 | the same for every object name that adds no level, such as "." |
| Layout.SecondVisitRecordsNothing | src/multicamcomposepro/utils.py:234-236 | a directory visited a second time is not recorded again |
| Layout.TreeHoldsNames | src/multicamcomposepro/utils.py:255-271 | the object folder and every `test/<anomaly>` folder are in the tree |
| Warehouse.Init | src/multicamcomposepro/utils.py:221-226 | a new warehouse has empty records, an empty object name and no anomalies |
| Warehouse.Build | src/multicamcomposepro/utils.py:240-273 | `build` stores the cleaned object name and the raw anomaly list, appends at most 7 + len(anomalies) names, never touches the two other lists, and never creates a denied path |
| Warehouse.BuildWithoutAnomalies | src/multicamcomposepro/utils.py:240-266 | with `anomalies=None` base, dataset and the object folder are ensured, at most three names recorded, and then `["good"] + None` raises TypeError |
| Warehouse.BuildWithoutAnomaliesFresh | src/multicamcomposepro/utils.py:253-266 | on a fresh tree it creates and records exactly base, dataset and the object before raising TypeError |
| Warehouse.SummaryNothingCreated | src/multicamcomposepro/utils.py:275-291 | `__str__` is the "already exist! Nothing has been created." line exactly when nothing was recorded |
| Warehouse.BuildFresh | src/multicamcomposepro/utils.py:240-273 | on a fresh tree with cleaned names of one level each, `build` records exactly 7 + len(anomalies) names, in visiting order with cleaned names, and creates exactly the tree |
| Warehouse.BuildLevellessObject | src/multicamcomposepro/utils.py:253-272 | an object name adding no level ("" or ".") records six names before the anomalies, because the object folder is `dataset`, already present |
| Warehouse.BuildTwoAnomalies | src/multicamcomposepro/utils.py:240-273 | with two anomalies a fresh build records nine directories |
| Warehouse.BuildIdempotent | src/multicamcomposepro/utils.py:240-273 | building again with the same arguments changes neither the warehouse nor the tree |
| Warehouse.RebuildReportsNothing | src/multicamcomposepro/utils.py:275-291 | a fresh warehouse built over an existing tree reports that nothing was created |
| Warehouse.BuildCreatesOnlyTree | src/multicamcomposepro/utils.py:257-272 | every directory `build` creates is a visited directory or an ancestor of one; with one-level cleaned names it is one of the seven fixed folders or `test/<cleaned anomaly>` |
| LegacyWarehouse.Init | multicamcomposepro/utils.py:28-33 | a new warehouse has empty records and no anomalies |
| LegacyWarehouse.Build | multicamcomposepro/utils.py:54-83 | `build` stores the cleaned object name and the raw anomalies, appends at most 7 + len(anomalies) names, and continues past failures |
| LegacyWarehouse.SummaryNothingCreated | multicamcomposepro/utils.py:85-95 | `__str__` is the "already exist" line exactly when nothing was recorded |
| LegacyWarehouse.BuildFresh | multicamcomposepro/utils.py:54-83 | on a fresh tree with clean, one-level, distinct anomalies `build` records all 7 + len(anomalies) names in visiting order |
| LegacyWarehouse.DefaultsClean | multicamcomposepro/utils.py:54 | the default anomalies Default1..3 are distinct and need no cleaning |
| LegacyWarehouse.BuildIdempotent | multicamcomposepro/utils.py:54-83 | building again changes neither the warehouse nor the tree |
| LegacyWarehouse.RebuildReportsNothing | multicamcomposepro/utils.py:85-95 | a fresh warehouse built over an existing tree reports that nothing was created |
| WarehouseBuilder.Init | multicamcomposepro/create_warehouse_directories.py:10-17 | a new builder has empty records and no anomalies |
| WarehouseBuilder.Build | multicamcomposepro/create_warehouse_directories.py:33-61 | `build` leaves `anomalies` as it was, never appends the two other lists, appends at most 7 + len(anomalies) names, and prints the summary of what it recorded |
| WarehouseBuilder.SummaryNothingCreated | multicamcomposepro/create_warehouse_directories.py:63-85 | the summary prints "No folders created" exactly when nothing was recorded |
| WarehouseBuilder.BuildFresh | multicamcomposepro/create_warehouse_directories.py:33-61 | on a fresh tree with one-level names they are recorded verbatim, without cleaning, and the object and anomaly folders exist |
| WarehouseBuilder.RebuildPrintsNothingCreated | multicamcomposepro/create_warehouse_directories.py:33-85 | a second builder over an existing tree changes nothing and prints only the "No folders created" line |
| CameraAngles.InitialSlots | src/multicamcomposepro/camera.py:20-32 | the angle table has eleven named angles |
| CameraAngles.PyIndex | src/multicamcomposepro/camera.py:85 | a list index is accepted exactly in [-n, n), negative ones counting from the end; anything else raises IndexError |
| CameraAngles.Target | src/multicamcomposepro/camera.py:87 | only an integer index can be assigned through; any other JSON value raises TypeError |
| CameraAngles.ItemWrites | src/multicamcomposepro/camera.py:84-85 | every index in the skip list marks an in-range slot "skip" |
| CameraAngles.EntryWrites | src/multicamcomposepro/camera.py:82-89 | a "skip" entry writes only "skip" marks; any other entry writes exactly one angle of the table, to an in-range slot |
| CameraAngles.Writes | src/multicamcomposepro/camera.py:81-89 | the mapping's entries write only "skip" or table angles, only to in-range slots |
| CameraAngles.LastWriteUnwritten | src/multicamcomposepro/camera.py:80 | a slot no entry writes stays None |
| CameraAngles.LastWriteWins | src/multicamcomposepro/camera.py:81-89 | a slot holds what the last write to it put there |
| CameraAngles.WritesErrorPersists | src/multicamcomposepro/camera.py:81-89 | once an entry raises, the rest of the mapping does not matter |
| CameraAngles.SortCameraAngles | src/multicamcomposepro/camera.py:78-90 | without a mapping the table is unchanged; a non-object mapping raises AttributeError; otherwise the result is eleven slots, each the last write to it, or the first entry's error |
| CameraAngles.ApplyEntry | src/multicamcomposepro/camera.py:82-89 | one mapping entry updates the slots as its writes say, or raises their error |
| CameraAngles.ItemErrorPersists | src/multicamcomposepro/camera.py:84-85 | once a skip index raises, the later ones do not matter |
| CameraAngles.SortedSlotsFromTable | src/multicamcomposepro/camera.py:80-90 | every sorted slot is None, "skip" or an angle of the table |
| CameraAngles.LastWriteFrom | src/multicamcomposepro/camera.py:80-90 | a slot that is not None was written by some entry |
| CameraAngles.SingleEntryPlacesAngle | src/multicamcomposepro/camera.py:89 | a numeric id k mapped to index i puts angle k of the table at slot i |
| CameraConfig.OpenCount | src/multicamcomposepro/utils.py:39-46 | the number of cameras kept never exceeds the number probed |
| CameraConfig.CountCameras | src/multicamcomposepro/utils.py:39-46 | the probe loop lowers the count by one per index that does not open |
| CameraConfig.FullCount | src/multicamcomposepro/utils.py:39-46 | the count is the full range exactly when every index opens |
| CameraConfig.ContiguousCount | src/multicamcomposepro/utils.py:39-46 | when the open cameras are exactly the first c indices, the count is c |
| CameraConfig.OpenPrefix | src/multicamcomposepro/utils.py:39-49 | every index below the count opens exactly when the cameras that open are the first `count` indices |
| CameraConfig.IsSkipLower | src/multicamcomposepro/utils.py:79 | an id is a skip exactly when its lower-case form is "skip" |
| CameraConfig.SkipKey | src/multicamcomposepro/utils.py:79 | the bucket key "skip" is itself a skip id |
| CameraConfig.AddSkip | src/multicamcomposepro/utils.py:80-83 | a skip appends the index to the "skip" list, creating it when absent, and leaves every other key alone |
| CameraConfig.NamedMember | src/multicamcomposepro/utils.py:84-85 | the named keys are exactly the typed ids that are not skips |
| CameraConfig.IdentifySkip | src/multicamcomposepro/utils.py:79-83 | the "skip" key holds every skipped index in visiting order, and is absent when nothing was skipped |
| CameraConfig.IdentifyNamed | src/multicamcomposepro/utils.py:84-85 | a named id maps to the last index it was typed for, and is absent if never typed |
| CameraConfig.IdentifySpec | src/multicamcomposepro/utils.py:49-85 | the whole mapping, key by key: the skip bucket and every named id's last index |
| CameraConfig.IdentifyUnique | src/multicamcomposepro/utils.py:79-85 | the mapping never holds a key twice |
| CameraConfig.IdentifySize | src/multicamcomposepro/utils.py:79-85 | the mapping has one key per distinct named id plus one for all skips together |
| CameraConfig.SkipStepSize | src/multicamcomposepro/utils.py:80-83 | a skip adds a key only for the first skip |
| CameraConfig.NamedStepSize | src/multicamcomposepro/utils.py:85 | a named id adds a key only the first time it is typed |
| CameraConfig.IdentifyAllCameras | src/multicamcomposepro/utils.py:32-85 | the identifier probes the cameras and visits `range(count)`; it raises cv2.error exactly when a visited index does not open, which happens unless the cameras that open are the first ones; otherwise it folds one id per visited index into the mapping |
| CameraConfig.SaveCameraOrder | src/multicamcomposepro/utils.py:87-95 | saving replaces only "Camera Order" and keeps every other top-level key |
| CameraConfig.InitIdentifier | src/multicamcomposepro/utils.py:17-30 | without a config file the identifier always runs and saves; with one it saves only on "y" or "yes" in any case, and otherwise leaves the file as it was |
| CameraConfig.RunKeysTotals | src/multicamcomposepro/utils.py:153-165 | over keys without 'q', exposure moves by the count of '2' minus '1', colour temperature by 50 times the count of '5' minus '4'; other keys change nothing |
| CameraConfig.RunKeysStopsAtQuit | src/multicamcomposepro/utils.py:183-193 | the configurator loop ignores every key after the first 'q' |
| CameraConfig.SaveCameraSettings | src/multicamcomposepro/utils.py:167-178 | saving replaces only "CameraSettings" with the two values and keeps every other top-level key |
| CameraConfig.CameraConfigurator | src/multicamcomposepro/utils.py:198-213 | without a config file the configurator raises FileNotFoundError; an integer "CameraSettings" raises TypeError at the membership test, before the session; otherwise it saves the settings reached from exposure 0 and colour temperature 3000 |
| CameraConfig.ConfiguratorSaves | src/multicamcomposepro/utils.py:153-213 | on a file whose "CameraSettings" is not an integer, a session ended by 'q' saves exposure #'2' − #'1' and temperature 3000 + 50·(#'5' − #'4'), counted before the 'q', and keeps every other key of the file |
| CameraConfig.SavesCommute | src/multicamcomposepro/utils.py:167-178 | the two saves touch different keys, so their order does not matter |
| Capture.Setting | src/multicamcomposepro/camera.py:61-63 | a missing setting reads as 0, a present one as its stored value |
| Capture.LoadCameraConfig | src/multicamcomposepro/camera.py:56-66 | without a file nothing is loaded; with one, loading succeeds exactly when "CameraSettings" is an object and "Camera Order" has a length; missing settings read as 0 and a missing order as zero cameras |
| Capture.LoadCameraMapping | src/multicamcomposepro/camera.py:68-76 | the mapping is loaded exactly when the file exists, and is empty when the file has no "Camera Order" |
| Capture.RoundsLen | src/multicamcomposepro/camera.py:98-104 | n rounds make n times the number of cameras shots |
| Capture.RoundsAt | src/multicamcomposepro/camera.py:98-104 | shot r·len(cameras) + c is camera c with counter r |
| Capture.RoundsShape | src/multicamcomposepro/camera.py:98-104 | the rounds are laid out round by round, each round visiting every camera in index order with the round's counter |
| Capture.RoundsMembers | src/multicamcomposepro/camera.py:98-104 | every shot is for the folder, an existing camera with its own slot, and a counter below n |
| Capture.CaptureImagesShape | src/multicamcomposepro/camera.py:93-104 | zero pictures give no shots; otherwise n rounds, camera c of round r at position r·len(cameras) + c |
| Capture.CaptureImagesMembers | src/multicamcomposepro/camera.py:93-104 | every shot of `capture_images` has a counter below the picture count |
| Capture.AnomalyShotsLen | src/multicamcomposepro/camera.py:170-175 | every anomaly gets one full block of test shots |
| Capture.AnomalyBlock | src/multicamcomposepro/camera.py:170-175 | block j of the anomaly shots is `capture_images` on the folder of anomaly j |
| Capture.RunPlanParts | src/multicamcomposepro/camera.py:162-175 | the run is train/good, then test/good, then the anomalies only when the test count is not 0 |
| Capture.RunPlanBlock | src/multicamcomposepro/camera.py:170-175 | anomaly j's shots sit after the two good blocks and the j earlier anomalies |
| Capture.RunPlanLayout | src/multicamcomposepro/camera.py:107-175 | the whole run, block by block: train/good, test/good, then one block per anomaly in list order |
| Capture.RunPlanFolders | src/multicamcomposepro/camera.py:107-175 | every shot goes to train/good, test/good or an anomaly folder, and only while that folder's count is positive and above the counter |
| Capture.RunPlanSlots | src/multicamcomposepro/camera.py:102-103 | every shot pairs a camera index with that camera's sorted angle |
| Capture.AnomalyShotsSlots | src/multicamcomposepro/camera.py:171-174 | every anomaly shot pairs a camera index with that camera's sorted angle |
| Capture.AnomalyShotsMembers | src/multicamcomposepro/camera.py:171-174 | every anomaly shot goes to the folder of a listed anomaly |
| Capture.ImageNameInjective | src/multicamcomposepro/camera.py:157 | different counters give different file names |
| Capture.CaptureSingleImage | src/multicamcomposepro/camera.py:130-159 | None and "skip" do nothing; a camera without a capture object raises; otherwise the file `folder/angle/NNN.png` is written exactly when both flush reads and the final read succeed |
| Capture.Execute | src/multicamcomposepro/camera.py:130-159 | the shots run in order and the run stops at the first one that raises |
| Capture.ExecuteCompletes | src/multicamcomposepro/camera.py:138 | when every angled camera has a capture object, every shot runs and none raises |
| Capture.ExecuteCrashes | src/multicamcomposepro/camera.py:138 | an angled shot for a camera beyond the capture objects ends the run there or earlier |
| Capture.RunCapture | src/multicamcomposepro/camera.py:162-175 | without a loaded config the run raises AttributeError before any shot; otherwise it executes the plan and reports an error exactly when a shot raised |
| Pipeline.MappingRoundTrip | src/multicamcomposepro/camera.py:68-76 | the camera manager reads back exactly the mapping the identifier saved |
| Pipeline.IdentifiedCameraCount | src/multicamcomposepro/camera.py:64 | the camera count read back is the number of distinct named ids plus one when anything was skipped |
| Pipeline.SettingsRoundTrip | src/multicamcomposepro/camera.py:56-63 | the camera manager reads back the exposure and colour temperature the configurator saved, and zoom 0 |
| Pipeline.CorrectedCameraCount | src/multicamcomposepro/camera.py:64 | the corrected count lies above every index the mapping mentions |
| Pipeline.CorrectedCountIsVisited | src/multicamcomposepro/camera.py:64 | for an identified mapping the corrected count is the number of cameras visited |
| Pipeline.CorrectedSlotsCovered | src/multicamcomposepro/camera.py:38 | every slot that holds an angle lies below the corrected count |
| Pipeline.CorrectedRunCompletes | src/multicamcomposepro/camera.py:36-50 | with the corrected count every shot of the run has a capture object and none raises |
| Pipeline.OrderOnlyLoads | src/multicamcomposepro/camera.py:56-66 | a file written by saving only a camera order loads with zero exposure, temperature and zoom and one camera per key of the order |
| Pipeline.SkipBucketCountedOnce | src/multicamcomposepro/camera.py:64 | two skipped cameras and one named camera read back as two cameras, though slot 2 holds an angle |
| Pipeline.SkipBucketRunCrashes | src/multicamcomposepro/camera.py:138 | that configuration makes the run raise IndexError |
| Pipeline.SpacedNameNotCleaned | src/multicamcomposepro/utils.py:270 | a name with a space is not among the cleaned names |
| Pipeline.SpacedFolderNotListed | src/multicamcomposepro/utils.py:270-271 | the raw folder of a spaced anomaly is not in the tree `build` visits |
| Pipeline.RawAnomalyFolderNotBuilt | src/multicamcomposepro/utils.py:261-272 | after `build`, the raw folder of a spaced anomaly does not exist |
| Pipeline.AnomalyFolderVisited | src/multicamcomposepro/camera.py:170-175 | with a positive test count the run shoots into every anomaly's folder |
| Pipeline.RawAnomalyShotOutsideTree | src/multicamcomposepro/camera.py:173 | a spaced anomaly name sends shots to a folder outside the built tree |
| Pipeline.CorrectedFoldersBuilt | src/multicamcomposepro/camera.py:173 | with cleaned anomaly names every shot goes to a folder `build` created |
| LegacyIdentifier.GetCameraCount | multicamcomposepro/camera_identifier.py:26-33 | the count is at most 6, every index below it opens, and below 6 the index at the count does not |
| LegacyIdentifier.FirstFailure | multicamcomposepro/camera_identifier.py:26-33 | the first index that fails to open, from a start, lies between that start and 6 |
| LegacyIdentifier.CountIsFirstFailure | multicamcomposepro/camera_identifier.py:26-33 | a count with the search's properties is the first failure |
| LegacyIdentifier.LastVisited | multicamcomposepro/camera_identifier.py:37-47 | the last visited index an id was typed for, or none |
| LegacyIdentifier.IdentifyStep | multicamcomposepro/camera_identifier.py:38-47 | a visited index i stores its id at i - 1; a passed index stores nothing |
| LegacyIdentifier.IdentifyEntry | multicamcomposepro/camera_identifier.py:37-47 | each id maps to one less than the last visited index it was typed for, and later duplicates overwrite |
| LegacyIdentifier.IdentifyUnique | multicamcomposepro/camera_identifier.py:47 | the mapping never holds a key twice |
| LegacyIdentifier.IdentifyValues | multicamcomposepro/camera_identifier.py:38-47 | every stored value is one less than a visited index: never the passed camera, and -1 only off Windows |
| LegacyIdentifier.IdentifyAllCameras | multicamcomposepro/camera_identifier.py:35-47 | the count is the first failure, and the mapping folds the ids of indices 0..count-1, passing index 0 on Windows and index 1 elsewhere |
| LegacyIdentifier.SaveToJson | multicamcomposepro/camera_identifier.py:22-24 | the file holds exactly the mapping's keys and values, with no merge |
| LegacyCapture.CaptureImagesAgree | multicamcomposepro/camera.py:66-72 | the older `capture_images` has the newer round schedule, without the zero check |
| LegacyCapture.RunPlanLayout | multicamcomposepro/camera.py:74-119 | the run is test/good, then train/good, then one block per anomaly, each block `num_pics` rounds |
| LegacyCapture.RunPlanFolders | multicamcomposepro/camera.py:74-119 | every shot goes to test/good, train/good or a listed anomaly's folder, with a counter below `num_pics` |
| LegacyCapture.RunPlanSlots | multicamcomposepro/camera.py:69-71 | every shot pairs a camera index with that camera's sorted angle |
| LegacyCapture.CaptureSingleImage | multicamcomposepro/camera.py:84-108 | a shot never raises; None and "skip" do nothing; otherwise the file `folder/angle/NNN.png` is written exactly when the one read succeeds |
| LegacyCapture.Execute | multicamcomposepro/camera.py:66-72 | every shot runs, in order |
| LegacyCapture.ExecuteNeverStops | multicamcomposepro/camera.py:91-98 | a shot never raises, and it saves whenever the newer revision's shot with the same final read would |
| LegacyCapture.SavedFiles | multicamcomposepro/camera.py:100-107 | a shot saves exactly when its angle is set and its read succeeds, to `folder/angle/NNN.png` |
| LegacyCapture.ObjectName | multicamcomposepro/camera.py:75 | reading the object name of a `WarehouseBuilder` raises AttributeError |
| LegacyCapture.RunCapture | multicamcomposepro/camera.py:110-119 | with a `Warehouse` every shot of the plan runs; with a `WarehouseBuilder` the run raises AttributeError before any shot |
| LegacyCapture.BuilderRunFails | multicamcomposepro/camera.py:122-126 | the module's own entry point, built with `WarehouseBuilder`, has no anomalies and fails |
| LegacyCapture.SavedMappingNotFound | multicamcomposepro/camera.py:42 | the mapping the older identifier saves is read back as empty unless an id is literally "Camera Order" |
| LegacyCapture.EmptyMappingClearsTable | multicamcomposepro/camera.py:46-58 | an empty mapping leaves every slot None |
| LegacyCapture.ClearedTableSavesNothing | multicamcomposepro/camera.py:84-87 | with every slot None, every shot is skipped |
| LegacyCapture.CorrectedMappingFound | multicamcomposepro/camera.py:42 | saved under "Camera Order", the mapping is read back whole |
| Imaging.Reverse | src/multicamcomposepro/augment.py:177 | reversing a row puts column j at column w - 1 - j |
| Imaging.Flip | src/multicamcomposepro/augment.py:177 | a horizontal flip reverses every row |
| Imaging.FlipShape | src/multicamcomposepro/augment.py:177 | a flip keeps the shape and mirrors each pixel across the vertical axis |
| Imaging.FlipInvolution | src/multicamcomposepro/augment.py:177 | flipping twice gives the image back |
| Imaging.MapPixels | src/multicamcomposepro/augment.py:132 | a per-pixel operation keeps every row's length and changes each pixel independently |
| Imaging.MapPixelsShape | src/multicamcomposepro/augment.py:132 | a per-pixel operation keeps the shape |
| Imaging.Resample | src/multicamcomposepro/augment.py:139-145 | `warpAffine` and `GaussianBlur` keep the image's height and width |
| Imaging.SaturateAbs | src/multicamcomposepro/augment.py:109-111 | `convertScaleAbs` lands in [0, 255] and keeps exactly the values already there |
| Imaging.Clip | multicamcomposepro/augment.py:133 | `np.clip(img, 0, 255)` lands in [0, 255], keeps the values already there and saturates the rest |
| Imaging.ScaleChannelsOwnChannel | src/multicamcomposepro/augment.py:101-113 | after split, scale and merge, each channel is its own scale factor times the old value, saturated, with blue, green and red in place |
| Sampling.Abs | src/multicamcomposepro/augment.py:124 | `abs` is non-negative and equals x or -x |
| Sampling.UniformBetween | src/multicamcomposepro/augment.py:105 | `uniform(a, b)` lands between a and b, in whichever order they come |
| Sampling.ScaleUnit | src/multicamcomposepro/augment.py:128-130 | a unit draw scales a non-negative width to at most that width |
| Sampling.RandInt | multicamcomposepro/augment.py:100 | `randint(a, b)` lands in [a, b] |
| AugmentParams.WhiteBalanceScales | src/multicamcomposepro/augment.py:103-107 | red lies between 0.98 + 0.02T and 1.02, green and blue between 0.98 - 0.02T and 1.02 |
| AugmentParams.WarmerRed | src/multicamcomposepro/augment.py:103-107 | for 0 ≤ T ≤ 2 red is at least 0.98 + 0.02T, green at least 0.98 - 0.02T, both at most 1.02 |
| AugmentParams.ExposureDrawRange | src/multicamcomposepro/augment.py:128-130 | a draw lies in [1 - 0.1abs(T) + 0.1T, 1 + 0.1T] |
| AugmentParams.FirstExit | src/multicamcomposepro/augment.py:123-130 | the first draw outside [1 - 0.01abs(T), 1 + 0.04abs(T)], every earlier one inside; none when all stay inside |
| AugmentParams.Exposure | src/multicamcomposepro/augment.py:119-134 | the factor is outside the window and within the draw range; there is none exactly when no draw leaves the window |
| AugmentParams.RandomExposure | src/multicamcomposepro/augment.py:121-131 | the rejection loop ends on the first draw that leaves the window, and only then |
| AugmentParams.OverExposed | src/multicamcomposepro/augment.py:120-130 | for T > 0 the factor that ends the loop exceeds 1 + 0.04T |
| AugmentParams.UnderExposed | src/multicamcomposepro/augment.py:120-130 | for T < 0 every draw is below 1 - 0.01abs(T), so the first draw ends the loop |
| AugmentParams.PositiveExit | src/multicamcomposepro/augment.py:123-130 | for T > 0 a draw ends the loop exactly when the unit draw exceeds 0.4 |
| AugmentParams.ZeroNeverExits | src/multicamcomposepro/augment.py:123-130 | at T = 0 every draw is 1.0, inside the window, so the loop never ends |
| AugmentParams.Mod3 | src/multicamcomposepro/augment.py:138 | `x % 3` lies in [0, 3) and differs from x by a whole number of threes |
| AugmentParams.RotationAngle | src/multicamcomposepro/augment.py:136-138 | less abs(T) mod 3, the angle lies between 1 - abs(T) and abs(T) - 1 |
| AugmentParams.DistortionMatrix | src/multicamcomposepro/augment.py:149-169 | the matrix is diagonal with zero translation and both factors in [0.99 - 0.02abs(T), 1.01 + 0.02abs(T)] |
| AugmentParams.Mirror | src/multicamcomposepro/augment.py:175-178 | the image is flipped and reported True exactly when the draw is below 0.5, else returned unchanged with False |
| AugmentParams.BlurRadius | src/multicamcomposepro/augment.py:180-182 | the blur radius lies in [0, 1] whatever the temperature, and is 0 exactly on a zero draw |
| Augment.LastIndex | src/multicamcomposepro/augment.py:58 | the last position of a character, or -1 when it does not occur |
| Augment.SplitExt | src/multicamcomposepro/augment.py:58 | `os.path.splitext` splits a path into two parts that join back to it; a non-empty extension is one dot and no further dot or slash |
| Augment.SplitExtOfName | src/multicamcomposepro/augment.py:58 | a file name with a one-dot extension splits into that stem and that extension |
| Augment.OutNameMarked | src/multicamcomposepro/augment.py:58 | every output name contains "_aug_" |
| Augment.OutNameInjective | src/multicamcomposepro/augment.py:58 | the variants of one file get different names |
| Augment.OutNameSplits | src/multicamcomposepro/augment.py:58 | an output name splits into the source stem plus "_aug_i" and the extension ".png", whatever the source's extension |
| Augment.ExtensionsCollide | src/multicamcomposepro/augment.py:58 | "shot.jpg" and "shot.png" produce the same output names, so one overwrites the other |
| Augment.Variant | src/multicamcomposepro/augment.py:40-56 | one variant runs white balance, exposure, rotation, mirror, distortion and blur, keeps the image's shape, and draws every parameter in its interval; it is stuck exactly when the exposure loop does not end, and raises cv2.error exactly when the loop ends and the blur draw is 0 |
| Augment.VariantsChain | src/multicamcomposepro/augment.py:37-56 | variant i + 1 is made from variant i, not from the source image |
| Augment.VariantsStop | src/multicamcomposepro/augment.py:37-56 | the variants stop early in exactly two ways, decided by the stopping iteration's draws: an exposure loop that never ends, or cv2.error from a zero blur draw |
| Augment.StopOfVariant | src/multicamcomposepro/augment.py:43-56 | an iteration that makes no image is stuck exactly when its exposure loop does not end, and otherwise raises cv2.error on a zero blur draw |
| Augment.VariantsWithin | src/multicamcomposepro/augment.py:37-56 | every variant keeps the source's shape and draws its parameters in their intervals |
| Augment.Writes | src/multicamcomposepro/augment.py:58-60 | variant i is written to the output folder as `OutName(file, i)` |
| Augment.ProcessImage | src/multicamcomposepro/augment.py:32-64 | a missing image writes nothing; otherwise there are exactly `num_augmented_images` writes, numbered 0.. in order, unless the loop stops early, with fewer writes, in a never-ending exposure loop or on cv2.error, the only exception it raises |
| Augment.ProcessImageChain | src/multicamcomposepro/augment.py:37-60 | write i holds the variant made from write i - 1, or from the source for i = 0 |
| Augment.ProcessImagePathsDistinct | src/multicamcomposepro/augment.py:58-60 | no two writes of one source go to the same path |
| Augment.Pairs | src/multicamcomposepro/augment.py:73-80 | each file of a subfolder is paired with that subfolder |
| Augment.JobsExact | src/multicamcomposepro/augment.py:66-80 | the traversal visits exactly the pairs of a subfolder and one of its files, or of the selection when one is given |
| Augment.AugmentJobs | src/multicamcomposepro/augment.py:80-91 | the resolution is kept once set; a missing first image raises AttributeError before any write, and the only other error is cv2.error from a zero blur draw; no source containing "_aug_" is augmented; every write goes to its own subfolder under the output name |
| Augment.RerunSkipsOutputs | src/multicamcomposepro/augment.py:81-82 | a traversal over earlier outputs writes nothing |
| Augment.MissingFirstImageRaises | src/multicamcomposepro/augment.py:86-89 | a missing first image raises AttributeError when its shape is read |
| Augment.MissingLaterImageSkipped | src/multicamcomposepro/augment.py:33-35 | a missing image after the resolution is set is skipped |
| Augment.Matching | src/multicamcomposepro/augment.py:207-210 | exactly the listed files containing the marker are selected |
| Augment.MarkedExact | src/multicamcomposepro/augment.py:199-210 | a file is removed exactly when it is listed in a subfolder and its name contains the marker |
| Augment.OutputsRemoved | src/multicamcomposepro/augment.py:205-211 | every output of the augmenter found in a subfolder is removed |
| Augment.NotAnOutput | src/multicamcomposepro/augment.py:58 | a name without an underscore is never an output name |
| Augment.OriginalRemoved | src/multicamcomposepro/augment.py:208 | "august.png" is removed although no output has that name |
| Augment.CorrectedRemovesOutputsOnly | src/multicamcomposepro/augment.py:81 | with the traversal's own "_aug_" marker, a file is removed exactly when the traversal would skip it, which includes every output |
| LegacyAugment.NewAugmenter | multicamcomposepro/augment.py:10-22 | the constructor stores its arguments with no resolution, creates a missing output folder when asked, and raises OSError exactly when that creation is denied, keeping the ancestors it created before the refusal |
| LegacyAugment.WhiteBalance | multicamcomposepro/augment.py:109-113 | three scales [r, g, b], each in [0.9, 1.1] |
| LegacyAugment.ExposureExit | multicamcomposepro/augment.py:127-128 | a draw ends the loop exactly when the unit draw is below 0.5 or above 0.7 |
| LegacyAugment.Exposure | multicamcomposepro/augment.py:123-135 | the factor is outside [0.95, 1.05] and within [0.7, 1.2); there is none exactly when every draw stays inside |
| LegacyAugment.ExposureFirstExit | multicamcomposepro/augment.py:123-135 | the factor is the draw at the first index that leaves [0.95, 1.05], every earlier draw staying inside |
| LegacyAugment.Quantize | multicamcomposepro/augment.py:133 | clip then `astype(uint8)` gives a whole number in [0, 255], the value's floor inside the range and the nearer end outside it |
| LegacyAugment.Expose | multicamcomposepro/augment.py:130-133 | exposure keeps the shape and leaves every channel in [0, 255] |
| LegacyAugment.RotationAngle | multicamcomposepro/augment.py:138 | the angle lies in [-3, 3] |
| LegacyAugment.BlurRadius | multicamcomposepro/augment.py:156 | the radius lies in [0, 2] and is 0 exactly on a zero draw |
| LegacyAugment.CropCorner | multicamcomposepro/augment.py:98-102 | the crop raises ValueError exactly when the image is smaller than the output size; otherwise the corner lies in [-4, W - outW + 5] × [-4, H - outH + 5] |
| LegacyAugment.Variant | multicamcomposepro/augment.py:45-89 | one variant is stuck exactly when its exposure loop does not end, fails exactly when the blur draw is 0 (cv2.error) or the image is smaller than the crop (ValueError), and otherwise is the pre-crop image, of the original shape, with every parameter in its interval |
| LegacyAugment.Variants | multicamcomposepro/augment.py:40-89 | all variants are made unless one fails, and the only failures are ValueError and cv2.error |
| LegacyAugment.VariantsIndependent | multicamcomposepro/augment.py:46 | every variant is made from the original image, not from the previous variant |
| LegacyAugment.SmallImageFails | multicamcomposepro/augment.py:100 | an image smaller than the output size fails on its first variant, with ValueError unless a zero blur draw raises cv2.error first |
| LegacyAugment.Writes | multicamcomposepro/augment.py:86-89 | variant i is written to the output folder as `OutName(file, i)` |
| LegacyAugment.AugmentFiles | multicamcomposepro/augment.py:28-96 | the resolution is kept once set; a missing first image raises AttributeError before any write; the only other errors are ValueError and cv2.error; every write is a listed file's output name in the output folder |
| LegacyAugment.OutputsReaugmented | multicamcomposepro/augment.py:29-35 | an earlier output in the input folder is augmented again, and its name grows a second "_aug_" |
| VideoCropper.Init | tests/mask_test.py:6-9 | both corners start at (-1, -1) and no drag is in progress |
| VideoCropper.Handle | tests/mask_test.py:11-22 | a press starts a drag at the pointer, a move updates the end only while dragging, a release ends the drag at the pointer, and other events change nothing |
| VideoCropper.StartIsLastPress | tests/mask_test.py:12-14 | the start corner is where the last press happened |
| VideoCropper.StartKeptWithoutPress | tests/mask_test.py:11-22 | without a press the start corner never moves |
| VideoCropper.DrawingFollowsLastButton | tests/mask_test.py:11-22 | a drag is in progress exactly when the last button event was a press |
| VideoCropper.EndFixedAfterRelease | tests/mask_test.py:20-22 | after a release, moves leave the end corner where the release happened |
| VideoCropper.DragTracksPointer | tests/mask_test.py:16-18 | during a drag the end corner follows the pointer and the drag goes on |

## Left out

- Device and window I/O is left out: `VideoCapture` properties, `imshow`, `waitKey`, `camera_text_overlay` in both revisions, the older `identify_camera` preview loop and `VideoCropper.capture_video`. The model keeps only their outcomes as parameters: which cameras open, which reads succeed, the ids typed and the keys pressed.
- CameraConfig.IdentifyAllCameras: one `opens(i)` stands for both the probe and the frames read when index `i` is visited. A camera that opens at the probe but then delivers no frame is not told apart. The model also assumes `imshow` runs at least once per visit, before the input thread can return an id.
- The identifier's input thread (src/multicamcomposepro/utils.py:57-77) is left out because it is concurrency and interactive input. The typed ids arrive as a function of the camera index.
- `platform.system()` affects only which capture backend opens a camera, except in the older identifier, where it decides the passed index. There it is the `windows` parameter.
- Logging, `print` and the logging configuration are left out. The exception is `WarehouseBuilder.print_summary`, whose lines are the summary's result.
- JSON parsing and file I/O are left out. A configuration file is a map from top-level keys to loaded values, and a missing file is `None`.
- Json.Value: holds integers, strings, lists and objects only. `null`, booleans and floats are not modelled, because the program itself writes only those four kinds. A hand-edited file could hold the others: `len()` and `in` also raise TypeError on `null`, a boolean or a float, and a boolean index selects slot 0 or 1.
- CameraAngles.SortCameraAngles: accepts a mapping with repeated keys, which `json.load` never produces. Its contract also covers that wider domain, where the last write still wins.
- `os.path.join` is modelled for relative names with the POSIX separator: a name is split at "/", and its pieces other than "" and "." become directory levels. Absolute names, which restart the path, and `..`, which `os.makedirs` resolves, are not modelled.
- BuildPathsFresh: states distinctness and absence only for one-level names. An anomaly "" or "." names `test` itself, which the build then visits twice, and a name "a/b" adds two levels. The build's behaviour on those names is computed by `Layout.BuildPass` but has no closed form here.
- BuildBasenames: states the recorded names only for one-level names. For "a/b" the build records "b", as `Layout.Leaves` and `FileSystem.NestedComponents` state.
- FreshPass: states the exact result only for one-level names. An object name adding no level is covered by `Layout.LevellessObjectPass` (six names before the anomalies). An anomaly "" or "." records one name fewer, because `test` already exists; no lemma states that case.
- Warehouse.BuildFresh: like FreshPass, covers one-level cleaned names. `Warehouse.BuildLevellessObject` covers "" and ".", and `Warehouse.BuildWithoutAnomalies` covers `anomalies=None`.
- Warehouse.BuildWithoutAnomalies: Python stores `None` in `self.anomalies` before raising. The model keeps the previous list, because its field is a list of names.
- LegacyWarehouse.BuildFresh, WarehouseBuilder.BuildFresh: cover one-level names only, for the same reason as FreshPass.
- Text.ParseInt: reads only the ASCII digits. Python's `int()` also accepts other Unicode decimal digits, such as Arabic-Indic ones; the ids compared here are typed at a keyboard prompt.
- Only the permission error of `create_directory` is modelled, as a set of denied paths. The newer revision catches only that error; the older revisions catch every exception, but other OS errors are not modelled either.
- Augment.Variant: states only the shape and the parameter intervals, not pixel values. `warpAffine`, `GaussianBlur`, `merge` and the rounding of `convertScaleAbs` are foreign float code, so they sit behind a sampling function.
- LegacyAugment.Variant: likewise states shape and intervals only, for the same reason.
- Imaging.Resample: states only that the shape is kept, because the pixel values come from a sampling function.
- Text.Lower: lowers only the ASCII capitals, where Python lowers every cased character; the ids it is applied to are compared with "skip" only.
- Floating-point rounding is not modelled; parameters are `real`.
- Random draws are a stream of unit reals, indexed by position. The generators' distributions and their coupling between `random` and `np.random` are not modelled.
- AugmentParams.RandomExposure: the exposure loop draws without bound, but the model gets a finite sequence of draws. `None` there, and `Diverged`/`Stuck` further up, mark that the loop did not end within those draws, as it never does at T = 0.
- LegacyAugment.CropCorner: the slice of a crop with a negative corner is not modelled, because the cropped image is discarded and only the error matters.
- `random_crop` and `random_texture_overlay` of the newer revision, and the older lens distortion and texture overlay, return the image unchanged, so they are identities in the model.
- `remove_augmented_files` is declared without `self` and deletes files. It is modelled as the list of paths it removes; errors from `os.remove` are not modelled.
- `CameraManager.__del__` and `initialize_cameras` are left out, apart from the number of capture objects (`num_cameras`) and the AttributeError when no config was loaded.
- `main.py`, the GUIs, `setup.py` and the test scripts are not part of this model.
- The test assertions on a `camera_config` attribute and on `resolution` being set by `process_image` disagree with the code; the model follows the code.

## Findings

| source | as written | input that shows it | evidently intended | confidence | as-written member | corrected member |
|---|---|---|---|---|---|---|
| src/multicamcomposepro/camera.py:64 | the camera count is the number of top-level keys in "Camera Order", so all skipped cameras count as one | ids "skip", "skip", "0": the mapping has two keys, slot 2 holds an angle, and capture object 2 does not exist, so the run raises IndexError | one capture object per camera the identifier visited | medium, not executed | Pipeline.SkipBucketRunCrashes | Pipeline.CorrectedRunCompletes |
| src/multicamcomposepro/camera.py:173 | anomaly folders are joined from the raw anomaly names, while `build` created them from cleaned names | anomaly "chip edge": `build` creates `test/chip_edge`, the run shoots into `test/chip edge` | shots go into the folders `build` created | medium, not executed | Pipeline.RawAnomalyShotOutsideTree | Pipeline.CorrectedFoldersBuilt |
| multicamcomposepro/camera.py:42 | the camera manager reads the key "Camera Order", but the older identifier saves the bare mapping | any identified mapping without an id named "Camera Order": it reads back empty, every slot is None and every shot is skipped | the mapping is saved under "Camera Order" | high, not executed | LegacyCapture.SavedMappingNotFound | LegacyCapture.CorrectedMappingFound |
| src/multicamcomposepro/augment.py:208 | `remove_augmented_files` deletes every name containing "aug" | an original image "august.png" is removed | only the augmenter's outputs, marked "_aug_", are removed | medium, not executed | Augment.OriginalRemoved | Augment.CorrectedRemovesOutputsOnly |

=== FILE: augment.dfy ===
/** The newer augmenter (`DataAugmenter` in src/multicamcomposepro/augment.py): which files
    it picks, how it names its outputs, how one variant is made from the previous one,
    and which files its clean-up deletes. Directory listings, image reads and random
    draws are inputs. */
module Augment {
  import opened Wrappers
  import opened Text
  import opened Sampling
  import opened Imaging
  import opened FileSystem
  import opened Layout
  import opened AugmentParams
  import Capture

  // ---------------------------------------------------------------- output names

  /** The position of the last `c` in `s`, or -1. */
  function LastIndex(s: string, c: char): (r: int)
    ensures -1 <= r < |s|
    ensures r >= 0 ==> s[r] == c
    ensures forall j :: r < j < |s| ==> s[j] != c
    decreases |s|
  {
    if s == [] then -1
    else if s[|s| - 1] == c then |s| - 1
    else LastIndex(s[..|s| - 1], c)
  }

  /** `os.path.splitext` on POSIX: the extension starts at the last dot of the last path
      component, provided some character other than a dot comes before it in that
      component; otherwise there is none. */
  function SplitExt(p: string): (r: (string, string))
    ensures r.0 + r.1 == p
    ensures r.1 != [] ==> r.1[0] == '.' && '.' !in r.1[1..] && '/' !in r.1
  {
    var sep := LastIndex(p, '/');
    var dot := LastIndex(p, '.');
    if sep < dot && (exists j :: sep < j < dot && p[j] != '.') then
      assert forall j :: dot < j < |p| ==> p[j] != '.';
      (p[..dot], p[dot..])
    else (p, [])
  }

  /** Splitting a name made of a stem and a one-dot extension gives the two back. */
  lemma {:induction false} SplitExtOfName(stem: string, ext: string, j: nat)
    requires '/' !in stem && '/' !in ext
    requires j < |stem| && stem[j] != '.'
    requires |ext| > 0 && ext[0] == '.' && '.' !in ext[1..]
    ensures SplitExt(stem + ext) == (stem, ext)
  {
    var p := stem + ext;
    assert '/' !in p by {
      forall k | 0 <= k < |p| ensures p[k] != '/' {
        if k < |stem| { assert p[k] == stem[k]; } else { assert p[k] == ext[k - |stem|]; }
      }
    }
    assert p[|stem|] == '.';
    assert forall k :: |stem| < k < |p| ==> p[k] != '.' by {
      forall k | |stem| < k < |p| ensures p[k] != '.' {
        assert p[k] == ext[1..][k - |stem| - 1];
      }
    }
    assert LastIndex(p, '.') == |stem|;
    assert p[j] != '.';
    assert p[..|stem|] == stem && p[|stem|..] == ext;
  }

  function Stem(filename: string): string { SplitExt(filename).0 }

  /** `os.path.splitext(filename)[0] + f"_aug_{i}.png"`. */
  function OutName(filename: string, i: nat): string
  {
    Stem(filename) + "_aug_" + NatToString(i) + ".png"
  }

  /** Every output name carries the marker that the traversal skips. */
  lemma {:induction false} OutNameMarked(filename: string, i: nat)
    ensures Contains(OutName(filename, i), "_aug_")
  {
    assert OutName(filename, i) == Stem(filename) + "_aug_" + (NatToString(i) + ".png");
    ContainsInfix(Stem(filename), "_aug_", NatToString(i) + ".png");
  }

  /** Distinct iterations write distinct names. */
  lemma {:induction false} OutNameInjective(filename: string, i: nat, j: nat)
    requires OutName(filename, i) == OutName(filename, j)
    ensures i == j
  {
    var n := |Stem(filename)| + 5;
    var a := OutName(filename, i);
    assert a[n..] == NatToString(i) + ".png";
    assert a[n..] == NatToString(j) + ".png";
    assert NatToString(i) == a[n..][..|a[n..]| - 4] == NatToString(j);
    NatToStringInjective(i, j);
  }

  /** The output is a png whose stem is the source's stem with the marker and the
      iteration appended. */
  lemma {:induction false} OutNameSplits(filename: string, i: nat)
    requires '/' !in filename
    ensures SplitExt(OutName(filename, i)) == (Stem(filename) + "_aug_" + NatToString(i), ".png")
  {
    var stem := Stem(filename) + "_aug_" + NatToString(i);
    var s := Stem(filename);
    assert s + SplitExt(filename).1 == filename;
    assert '/' !in s by {
      forall k | 0 <= k < |s| ensures s[k] != '/' { assert s[k] == filename[k]; }
    }
    assert '/' !in stem by {
      var digits := NatToString(i);
      forall k | 0 <= k < |stem| ensures stem[k] != '/' {
        if k < |s| { assert stem[k] == s[k]; }
        else if k < |s| + 5 { assert stem[k] == "_aug_"[k - |s|]; }
        else { assert stem[k] == digits[k - |s| - 5]; assert IsDigit(digits[k - |s| - 5]); }
      }
    }
    assert stem[|s|] == '_';
    assert ".png"[1..] == "png";
    SplitExtOfName(stem, ".png", |s|);
  }

  /** Two sources that differ only in their extension write the same outputs, so the
      later one overwrites the earlier. */
  lemma {:induction false} ExtensionsCollide(i: nat)
    ensures OutName("shot.jpg", i) == OutName("shot.png", i)
  {
    assert "shot.jpg" == "shot" + ".jpg";
    assert "shot.png" == "shot" + ".png";
    assert ".jpg"[1..] == "jpg" && ".png"[1..] == "png";
    SplitExtOfName("shot", ".jpg", 0);
    SplitExtOfName("shot", ".png", 0);
  }

  // ---------------------------------------------------------------- one variant

  /** The draws one iteration consumes, one per sampler (the exposure loop may take
      several). */
  datatype Draws = Draws(
    wbR: Draw, wbG: Draw, wbB: Draw,
    exposure: seq<Draw>,
    rotation: Draw,
    mirror: Draw,
    lensX: Draw, lensY: Draw,
    blur: Draw)

  /** The values the samplers return alongside the image, as the log records them. */
  datatype Params = Params(
    scales: (real, real, real),
    exposure: real,
    angle: real,
    mirrored: bool,
    distortion: Affine,
    blurRadius: real)

  /** Every parameter lies in the range its sampler promises at temperature `t`. */
  predicate Within(t: real, p: Params)
  {
    && Between(p.scales.0, 0.98 + 0.02 * t, 1.02)
    && Between(p.scales.1, 0.98 - 0.02 * t, 1.02)
    && Between(p.scales.2, 0.98 - 0.02 * t, 1.02)
    && !InWindow(t, p.exposure)
    && 1.0 - Abs(t * 0.1) + t * 0.1 <= p.exposure <= 1.0 + t * 0.1
    && Between(p.angle - Mod3(Abs(t)), 1.0 - Abs(t), Abs(t) - 1.0)
    && MinDistortion(t) <= p.distortion.a <= MaxDistortion(t)
    && MinDistortion(t) <= p.distortion.e <= MaxDistortion(t)
    && p.distortion.b == 0.0 && p.distortion.c == 0.0 && p.distortion.d == 0.0 && p.distortion.f == 0.0
    && 0.0 < p.blurRadius <= 1.0
  }

  /** What one iteration of an augmentation loop ends in: an image with the parameters
      drawn for it, an exception, or an exposure loop that never ends. */
  datatype Outcome<P> = Made(image: Image, params: P) | Failed(error: PyError) | Stuck

  /** How a traversal ends when an iteration gives `o`. */
  function StopOf<P>(o: Outcome<P>): Stop
  {
    match o
    case Made(_, _) => Completed
    case Failed(e) => Raised(e)
    case Stuck => Diverged
  }

  /** One pass of `process_image`'s loop: white balance, exposure, rotation, mirror, lens
      distortion, blur. `Stuck` when the exposure loop never ends on these draws;
      `cv2.GaussianBlur` with kernel size (0, 0) derives the kernel from the radius and
      raises `cv2.error` on a radius of 0. */
  function Variant(img: Image, t: real, d: Draws, sample: (Image, Op, nat, nat) -> Pixel): (r: Outcome<Params>)
    ensures r.Stuck? <==> FirstExit(t, d.exposure).None?
    ensures r.Failed? <==> FirstExit(t, d.exposure).Some? && d.blur == 0.0
    ensures r.Failed? ==> r.error == CvError
    ensures r.Made? ==> Shape(r.image) == Shape(img) && Rectangular(r.image)
    ensures r.Made? ==> Within(t, r.params)
  {
    var s := WhiteBalanceScales(t, d.wbR, d.wbG, d.wbB);
    var balanced := ScaleChannels(img, s.0, s.1, s.2);
    match Exposure(t, d.exposure)
    case None => Stuck
    case Some(f) =>
      var exposed := ScaleAll(balanced, f);
      assert Shape(exposed) == Shape(img);
      var angle := RotationAngle(t, d.rotation);
      var rotated := Resample(exposed, Rotate(angle), sample);
      var mirror := Mirror(rotated, d.mirror);
      FlipShape(rotated);
      var m := DistortionMatrix(t, d.lensX, d.lensY);
      var distorted := Resample(mirror.0, Distort(m), sample);
      var radius := BlurRadius(d.blur);
      if radius == 0.0 then Failed(CvError)
      else
        var blurred := Resample(distorted, Blur(radius), sample);
        Made(blurred, Params(s, f, angle, mirror.1, m, radius))
  }

  /** One iteration as a step: the next image and its parameters from the current
      image and the iteration's draws. */
  type Step = (Image, Draws) -> Outcome<Params>

  function VariantStep(t: real, sample: (Image, Op, nat, nat) -> Pixel): Step
  {
    (img: Image, d: Draws) => Variant(img, t, d, sample)
  }

  /** Iterating a step: each image made is fed to the next iteration; the iteration
      stops at the first step that makes none, and the results before it stand. */
  function Chain(img: Image, draws: seq<Draws>, step: Step): (r: (seq<(Image, Params)>, Stop))
    ensures |r.0| <= |draws|
    ensures r.1.Completed? <==> |r.0| == |draws|
    decreases |draws|
  {
    if draws == [] then ([], Completed)
    else
      match step(img, draws[0])
      case Failed(e) => ([], Raised(e))
      case Stuck => ([], Diverged)
      case Made(v, p) =>
        var rest := Chain(v, draws[1..], step);
        ([(v, p)] + rest.0, rest.1)
  }

  /** Result `k + 1` comes from result `k`'s image, the first from the start image. */
  lemma {:induction false} ChainLink(img: Image, draws: seq<Draws>, step: Step, k: nat)
    requires k < |Chain(img, draws, step).0|
    ensures var vs := Chain(img, draws, step).0;
      step(if k == 0 then img else vs[k - 1].0, draws[k]) == Made(vs[k].0, vs[k].1)
    decreases k
  {
    var first := step(img, draws[0]);
    var tail := Chain(first.image, draws[1..], step).0;
    assert Chain(img, draws, step).0 == [(first.image, first.params)] + tail;
    if k > 0 {
      ChainLink(first.image, draws[1..], step, k - 1);
      assert draws[1..][k - 1] == draws[k];
    }
  }

  /** A chain that does not complete ends as the step after its last result does. */
  lemma {:induction false} ChainStops(img: Image, draws: seq<Draws>, step: Step)
    requires !Chain(img, draws, step).1.Completed?
    ensures var r := Chain(img, draws, step);
      var o := step(if |r.0| == 0 then img else r.0[|r.0| - 1].0, draws[|r.0|]);
      !o.Made? && StopOf(o) == r.1
    decreases |draws|
  {
    var first := step(img, draws[0]);
    if first.Made? {
      var tail := Chain(first.image, draws[1..], step);
      assert Chain(img, draws, step).0 == [(first.image, first.params)] + tail.0;
      ChainStops(first.image, draws[1..], step);
      assert draws[1..][|tail.0|] == draws[|tail.0| + 1];
    }
  }

  /** The variants one call makes, in order, each from the previous one's image. */
  function Variants(img: Image, t: real, draws: seq<Draws>, sample: (Image, Op, nat, nat) -> Pixel): (r: (seq<(Image, Params)>, Stop))
  {
    Chain(img, draws, VariantStep(t, sample))
  }

  /** Variant `k + 1` is made from variant `k`'s image, not from the source image. */
  lemma {:induction false} VariantsChain(img: Image, t: real, draws: seq<Draws>, sample: (Image, Op, nat, nat) -> Pixel, k: nat)
    requires k < |Variants(img, t, draws, sample).0|
    ensures var vs := Variants(img, t, draws, sample).0;
      Variant(if k == 0 then img else vs[k - 1].0, t, draws[k], sample) == Made(vs[k].0, vs[k].1)
  {
    ChainLink(img, draws, VariantStep(t, sample), k);
  }

  /** A call stops early in exactly two ways, decided by the draws of the iteration
      that stops: an exposure loop that never ends, or a zero blur draw raising
      `cv2.error`. */
  lemma {:induction false} VariantsStop(img: Image, t: real, draws: seq<Draws>, sample: (Image, Op, nat, nat) -> Pixel)
    requires !Variants(img, t, draws, sample).1.Completed?
    ensures var r := Variants(img, t, draws, sample);
      var d := draws[|r.0|];
      && (r.1 == Diverged <==> FirstExit(t, d.exposure).None?)
      && (r.1 == Raised(CvError) <==> FirstExit(t, d.exposure).Some? && d.blur == 0.0)
      && (r.1 == Diverged || r.1 == Raised(CvError))
  {
    var r := Variants(img, t, draws, sample);
    ChainStops(img, draws, VariantStep(t, sample));
    var prev := if |r.0| == 0 then img else r.0[|r.0| - 1].0;
    StopOfVariant(prev, t, draws[|r.0|], sample, r.1);
  }

  /** How an iteration that makes no image ends the call, from its draws alone. */
  lemma {:induction false} StopOfVariant(src: Image, t: real, d: Draws, sample: (Image, Op, nat, nat) -> Pixel, stop: Stop)
    requires var o := VariantStep(t, sample)(src, d); !o.Made? && StopOf(o) == stop
    ensures stop == Diverged <==> FirstExit(t, d.exposure).None?
    ensures stop == Raised(CvError) <==> FirstExit(t, d.exposure).Some? && d.blur == 0.0
    ensures stop == Diverged || stop == Raised(CvError)
  {
    var o := Variant(src, t, d, sample);
    assert VariantStep(t, sample)(src, d) == o;
  }

  /** Every variant keeps the source's shape and draws its parameters in range. */
  lemma {:induction false} VariantsWithin(img: Image, t: real, draws: seq<Draws>, sample: (Image, Op, nat, nat) -> Pixel, k: nat)
    requires k < |Variants(img, t, draws, sample).0|
    ensures var v := Variants(img, t, draws, sample).0[k];
      Shape(v.0) == Shape(img) && Rectangular(v.0) && Within(t, v.1)
  {
    var step := VariantStep(t, sample);
    forall x, d | step(x, d).Made?
      ensures Shape(step(x, d).image) == Shape(x) && Rectangular(step(x, d).image) && Within(t, step(x, d).params)
    {
      VariantOut(x, t, d, sample);
    }
    ChainWithin(img, draws, step, t, k);
  }

  /** What one variant keeps of its input. */
  lemma {:induction false} VariantOut(src: Image, t: real, d: Draws, sample: (Image, Op, nat, nat) -> Pixel)
    requires Variant(src, t, d, sample).Made?
    ensures var v := Variant(src, t, d, sample);
      Shape(v.image) == Shape(src) && Rectangular(v.image) && Within(t, v.params)
  {
  }

  /** A step that keeps the shape and draws in-range parameters. */
  ghost predicate Keeps(step: Step, t: real)
  {
    forall x, d :: step(x, d).Made? ==>
      Shape(step(x, d).image) == Shape(x) && Rectangular(step(x, d).image) && Within(t, step(x, d).params)
  }

  /** Every result of a chain of such steps has the start image's shape. */
  lemma {:induction false} ChainWithin(img: Image, draws: seq<Draws>, step: Step, t: real, k: nat)
    requires Keeps(step, t)
    requires k < |Chain(img, draws, step).0|
    ensures var v := Chain(img, draws, step).0[k];
      Shape(v.0) == Shape(img) && Rectangular(v.0) && Within(t, v.1)
    decreases k
  {
    ChainLink(img, draws, step, k);
    if k > 0 {
      ChainWithin(img, draws, step, t, k - 1);
    }
  }

  // ---------------------------------------------------------------- process_image

  /** One `cv2.imwrite`: where, from which source file, which iteration, what. */
  datatype Write = Write(path: Path, source: string, index: nat, image: Image, params: Params)

  function Writes(vs: seq<(Image, Params)>, filename: string, outDir: Path): (ws: seq<Write>)
    ensures |ws| == |vs|
    ensures forall i :: 0 <= i < |vs| ==> ws[i] == Write(outDir + [OutName(filename, i)], filename, i, vs[i].0, vs[i].1)
  {
    seq(|vs|, i requires 0 <= i < |vs| => Write(outDir + [OutName(filename, i)], filename, i, vs[i].0, vs[i].1))
  }

  /** The writes of one call and how its loop ended. */
  datatype Processed = Processed(writes: seq<Write>, stop: Stop)

  /** `process_image(img, filename, output_subdir)` with `num_augmented_images == k`:
      nothing for a missing image, otherwise one write per iteration, iteration `i` named
      after the source with `_aug_i.png`, until the loop stops early. */
  function ProcessImage(img: Option<Image>, filename: string, outDir: Path, k: int, t: real,
                        draws: seq<Draws>, sample: (Image, Op, nat, nat) -> Pixel): (r: Processed)
    requires Capture.NonNeg(k) <= |draws|
    ensures img.None? ==> r == Processed([], Completed)
    ensures img.Some? && r.stop.Completed? ==> |r.writes| == Capture.NonNeg(k)
    ensures !r.stop.Completed? ==> |r.writes| < Capture.NonNeg(k)
    ensures r.stop.Raised? ==> r.stop.error == CvError
    ensures forall i :: 0 <= i < |r.writes| ==>
      r.writes[i].index == i && r.writes[i].source == filename && r.writes[i].path == outDir + [OutName(filename, i)]
  {
    if img.None? then Processed([], Completed)
    else
      var ds := draws[..Capture.NonNeg(k)];
      var v := Variants(img.value, t, ds, sample);
      var r := Processed(Writes(v.0, filename, outDir), v.1);
      if v.1.Completed? then r
      else VariantsStop(img.value, t, ds, sample); r
  }

  /** The written images chain: write `i + 1` is the variant of write `i`'s image; each
      keeps the source's shape and carries in-range parameters. */
  lemma {:induction false} ProcessImageChain(img: Image, filename: string, outDir: Path, k: int, t: real,
                          draws: seq<Draws>, sample: (Image, Op, nat, nat) -> Pixel, i: nat)
    requires Capture.NonNeg(k) <= |draws|
    requires i < |ProcessImage(Some(img), filename, outDir, k, t, draws, sample).writes|
    ensures var ws := ProcessImage(Some(img), filename, outDir, k, t, draws, sample).writes;
      && Variant(if i == 0 then img else ws[i - 1].image, t, draws[i], sample) == Made(ws[i].image, ws[i].params)
      && Shape(ws[i].image) == Shape(img)
      && Within(t, ws[i].params)
  {
    var ds := draws[..Capture.NonNeg(k)];
    var vs := Variants(img, t, ds, sample).0;
    var ws := Writes(vs, filename, outDir);
    assert ProcessImage(Some(img), filename, outDir, k, t, draws, sample).writes == ws;
    VariantsChain(img, t, ds, sample, i);
    VariantsWithin(img, t, ds, sample, i);
    assert ds[i] == draws[i];
    assert ws[i].image == vs[i].0 && ws[i].params == vs[i].1;
    if i > 0 {
      assert ws[i - 1].image == vs[i - 1].0;
    }
  }

  /** Distinct iterations of one call write distinct paths. */
  lemma {:induction false} ProcessImagePathsDistinct(img: Option<Image>, filename: string, outDir: Path, k: int, t: real,
                                  draws: seq<Draws>, sample: (Image, Op, nat, nat) -> Pixel, i: nat, j: nat)
    requires Capture.NonNeg(k) <= |draws|
    requires var ws := ProcessImage(img, filename, outDir, k, t, draws, sample).writes;
      i < |ws| && j < |ws| && ws[i].path == ws[j].path
    ensures i == j
  {
    var ws := ProcessImage(img, filename, outDir, k, t, draws, sample).writes;
    assert ws[j].path[|outDir|] == OutName(filename, j);
    assert ws[i].path[|outDir|] == OutName(filename, i);
    OutNameInjective(filename, i, j);
  }

  // ---------------------------------------------------------------- augment_images

  /** `<cwd>/data_warehouse/dataset/<object>/train/good`, relative to the working
      directory. */
  function ObjectDir(objectName: string): Path
  {
    ObjectPath(objectName) + [Train, Good]
  }

  /** The files visited in one sub-directory: the selection when one is given and is
      non-empty, the directory's listing otherwise. */
  function Files(subdir: string, listing: string -> seq<string>, selected: Option<seq<string>>): seq<string>
  {
    if selected.Some? && selected.value != [] then selected.value else listing(subdir)
  }

  function Pairs(subdir: string, files: seq<string>): (r: seq<(string, string)>)
    ensures |r| == |files|
    ensures forall i :: 0 <= i < |files| ==> r[i] == (subdir, files[i])
  {
    seq(|files|, i requires 0 <= i < |files| => (subdir, files[i]))
  }

  /** The (sub-directory, file) pairs the traversal visits, in order. */
  function Jobs(subdirs: seq<string>, listing: string -> seq<string>, selected: Option<seq<string>>): (r: seq<(string, string)>)
    decreases |subdirs|
  {
    if subdirs == [] then []
    else Pairs(subdirs[0], Files(subdirs[0], listing, selected)) + Jobs(subdirs[1..], listing, selected)
  }

  /** Exactly the pairs of a listed sub-directory with one of its files are visited. */
  lemma {:induction false} JobsExact(subdirs: seq<string>, listing: string -> seq<string>, selected: Option<seq<string>>, d: string, f: string)
    ensures (d, f) in Jobs(subdirs, listing, selected) <==> d in subdirs && f in Files(d, listing, selected)
    decreases |subdirs|
  {
    if subdirs != [] {
      JobsExact(subdirs[1..], listing, selected, d, f);
      var here := Pairs(subdirs[0], Files(subdirs[0], listing, selected));
      assert (d, f) in here <==> d == subdirs[0] && f in Files(d, listing, selected) by {
        if (d, f) in here {
          var i :| 0 <= i < |here| && here[i] == (d, f);
        }
        if d == subdirs[0] && f in Files(d, listing, selected) {
          var i :| 0 <= i < |Files(d, listing, selected)| && Files(d, listing, selected)[i] == f;
          assert here[i] == (d, f);
        }
      }
      assert subdirs == [subdirs[0]] + subdirs[1..];
    }
  }

  /** How a traversal ends: after the last file, on an exception (`cv2.error` included),
      or inside an exposure loop that never ends. */
  datatype Stop = Completed | Raised(error: PyError) | Diverged

  /** The writes made, the resolution recorded, and how the traversal ended. */
  datatype Run = Run(writes: seq<Write>, resolution: Option<(nat, nat)>, stop: Stop)

  /** The draws from position `used` onwards, `n` of them. */
  function Stream<D>(draws: nat -> D, used: nat, n: nat): (r: seq<D>)
    ensures |r| == n
  {
    seq(n, i requires 0 <= i < n => draws(used + i))
  }

  /** The body of `augment_images`' inner loop over the remaining pairs: a name with the
      `_aug_` marker is skipped; the first image read records the resolution, reading
      `.shape` of a missing image when none is recorded yet. */
  function AugmentJobs(objectDir: Path, jobs: seq<(string, string)>, read: Path -> Option<Image>,
                       k: int, t: real, draws: nat -> Draws, used: nat,
                       resolution: Option<(nat, nat)>, sample: (Image, Op, nat, nat) -> Pixel): (r: Run)
    ensures resolution.Some? ==> r.resolution == resolution
    ensures r.stop == Raised(AttributeError) ==> r.writes == [] && resolution.None?
    ensures r.stop.Raised? ==> r.stop.error in {AttributeError, CvError}
    ensures forall w :: w in r.writes ==> !Contains(w.source, "_aug_")
    ensures forall w :: w in r.writes ==> FromJob(objectDir, jobs, w)
    decreases |jobs|
  {
    if jobs == [] then Run([], resolution, Completed)
    else
      var subdir := jobs[0].0;
      var file := jobs[0].1;
      if Contains(file, "_aug_") then
        var rest := AugmentJobs(objectDir, jobs[1..], read, k, t, draws, used, resolution, sample);
        FromJobTail(objectDir, jobs, rest.writes);
        rest
      else
        var img := read(objectDir + [subdir, file]);
        if resolution.None? && img.None? then Run([], None, Raised(AttributeError))
        else
          var res := if resolution.None? then Some(Shape(img.value)) else resolution;
          var p := ProcessImage(img, file, objectDir + [subdir], k, t, Stream(draws, used, Capture.NonNeg(k)), sample);
          FromJobHead(objectDir, jobs, p.writes);
          if !p.stop.Completed? then Run(p.writes, res, p.stop)
          else
            var used' := if img.None? then used else used + Capture.NonNeg(k);
            var rest := AugmentJobs(objectDir, jobs[1..], read, k, t, draws, used', res, sample);
            FromJobTail(objectDir, jobs, rest.writes);
            Run(p.writes + rest.writes, rest.resolution, rest.stop)
  }

  /** Write `w` is an output of one of the pairs: named after that pair's file and placed
      in that pair's sub-directory. */
  predicate FromJob(objectDir: Path, jobs: seq<(string, string)>, w: Write)
  {
    exists j :: 0 <= j < |jobs| && jobs[j].1 == w.source && w.path == objectDir + [jobs[j].0] + [OutName(w.source, w.index)]
  }

  /** An output of a later pair is an output of the whole list. */
  lemma {:induction false} FromJobTail(objectDir: Path, jobs: seq<(string, string)>, ws: seq<Write>)
    requires jobs != [] && forall w :: w in ws ==> FromJob(objectDir, jobs[1..], w)
    ensures forall w :: w in ws ==> FromJob(objectDir, jobs, w)
  {
    forall w | w in ws ensures FromJob(objectDir, jobs, w) {
      var j :| 0 <= j < |jobs| - 1 && jobs[1..][j].1 == w.source
        && w.path == objectDir + [jobs[1..][j].0] + [OutName(w.source, w.index)];
      assert jobs[j + 1] == jobs[1..][j];
    }
  }

  /** The outputs of the first pair are outputs of the whole list. */
  lemma {:induction false} FromJobHead(objectDir: Path, jobs: seq<(string, string)>, ws: seq<Write>)
    requires jobs != []
    requires forall i :: 0 <= i < |ws| ==>
      ws[i].source == jobs[0].1 && ws[i].path == objectDir + [jobs[0].0] + [OutName(jobs[0].1, ws[i].index)]
    ensures forall w :: w in ws ==> FromJob(objectDir, jobs, w)
  {
    forall w | w in ws ensures FromJob(objectDir, jobs, w) {
      var i :| 0 <= i < |ws| && ws[i] == w;
    }
  }


  /** `augment_images(selected_images)` on an augmenter for `objectName` whose recorded
      resolution is `resolution`. */
  function AugmentImages(objectName: string, subdirs: seq<string>, listing: string -> seq<string>,
                         selected: Option<seq<string>>, read: Path -> Option<Image>, k: int, t: real,
                         draws: nat -> Draws, resolution: Option<(nat, nat)>,
                         sample: (Image, Op, nat, nat) -> Pixel): Run
  {
    AugmentJobs(ObjectDir(objectName), Jobs(subdirs, listing, selected), read, k, t, draws, 0, resolution, sample)
  }

  /** A traversal over nothing but earlier outputs writes nothing and completes. */
  lemma {:induction false} RerunSkipsOutputs(objectDir: Path, jobs: seq<(string, string)>, read: Path -> Option<Image>,
                                              k: int, t: real, draws: nat -> Draws, used: nat,
                                              resolution: Option<(nat, nat)>, sample: (Image, Op, nat, nat) -> Pixel,
                                              sources: seq<string>, indices: seq<nat>)
    requires |sources| == |jobs| == |indices|
    requires forall j :: 0 <= j < |jobs| ==> jobs[j].1 == OutName(sources[j], indices[j])
    ensures AugmentJobs(objectDir, jobs, read, k, t, draws, used, resolution, sample) == Run([], resolution, Completed)
    decreases |jobs|
  {
    if jobs != [] {
      OutNameMarked(sources[0], indices[0]);
      RerunSkipsOutputs(objectDir, jobs[1..], read, k, t, draws, used, resolution, sample, sources[1..], indices[1..]);
    }
  }

  /** A missing image before any resolution is recorded raises `AttributeError` on
      `None.shape`, before anything is written. */
  lemma {:induction false} MissingFirstImageRaises(objectDir: Path, jobs: seq<(string, string)>, read: Path -> Option<Image>,
                                k: int, t: real, draws: nat -> Draws, used: nat, sample: (Image, Op, nat, nat) -> Pixel)
    requires |jobs| > 0 && !Contains(jobs[0].1, "_aug_")
    requires read(objectDir + [jobs[0].0, jobs[0].1]).None?
    ensures AugmentJobs(objectDir, jobs, read, k, t, draws, used, None, sample) == Run([], None, Raised(AttributeError))
  {
  }

  /** Once a resolution is recorded, a missing image is passed over without a write. */
  lemma {:induction false} MissingLaterImageSkipped(objectDir: Path, jobs: seq<(string, string)>, read: Path -> Option<Image>,
                                 k: int, t: real, draws: nat -> Draws, used: nat, res: (nat, nat),
                                 sample: (Image, Op, nat, nat) -> Pixel)
    requires |jobs| > 0 && !Contains(jobs[0].1, "_aug_")
    requires read(objectDir + [jobs[0].0, jobs[0].1]).None?
    ensures AugmentJobs(objectDir, jobs, read, k, t, draws, used, Some(res), sample)
         == AugmentJobs(objectDir, jobs[1..], read, k, t, draws, used, Some(res), sample)
  {
    var p := ProcessImage(None, jobs[0].1, objectDir + [jobs[0].0], k, t, Stream(draws, used, Capture.NonNeg(k)), sample);
    assert p.writes == [] && p.stop.Completed?;
    var rest := AugmentJobs(objectDir, jobs[1..], read, k, t, draws, used, Some(res), sample);
    assert p.writes + rest.writes == rest.writes;
  }

  // ---------------------------------------------------------------- remove_augmented_files

  /** The files of one sub-directory whose name contains `marker`. */
  function Matching(dir: Path, files: seq<string>, marker: string): (r: seq<Path>)
    ensures forall p :: p in r <==> exists f :: f in files && Contains(f, marker) && p == dir + [f]
    decreases |files|
  {
    if files == [] then []
    else (if Contains(files[0], marker) then [dir + [files[0]]] else []) + Matching(dir, files[1..], marker)
  }

  /** The paths, over all sub-directories, whose file name contains `marker`. */
  function Marked(objectDir: Path, subdirs: seq<string>, listing: string -> seq<string>, marker: string): seq<Path>
    decreases |subdirs|
  {
    if subdirs == [] then []
    else Matching(objectDir + [subdirs[0]], listing(subdirs[0]), marker) + Marked(objectDir, subdirs[1..], listing, marker)
  }

  /** A file is selected exactly when its sub-directory is listed, the file is in it,
      and its name contains the marker. */
  lemma {:induction false} MarkedExact(objectDir: Path, subdirs: seq<string>, listing: string -> seq<string>, marker: string, d: string, f: string)
    ensures objectDir + [d, f] in Marked(objectDir, subdirs, listing, marker)
        <==> d in subdirs && f in listing(d) && Contains(f, marker)
    decreases |subdirs|
  {
    if subdirs != [] {
      MarkedExact(objectDir, subdirs[1..], listing, marker, d, f);
      var dir := objectDir + [subdirs[0]];
      var here := Matching(dir, listing(subdirs[0]), marker);
      var p := objectDir + [d, f];
      if p in here {
        var g :| g in listing(subdirs[0]) && Contains(g, marker) && p == dir + [g];
        assert p[|objectDir|] == d && (dir + [g])[|objectDir|] == subdirs[0];
        assert p[|objectDir| + 1] == f && (dir + [g])[|objectDir| + 1] == g;
      }
      if d == subdirs[0] && f in listing(d) && Contains(f, marker) {
        assert p == dir + [f];
      }
      assert subdirs == [subdirs[0]] + subdirs[1..];
    }
  }

  /** `remove_augmented_files(object_name)`: the paths it deletes, every file whose name
      contains `aug`. */
  function RemovedFiles(objectDir: Path, subdirs: seq<string>, listing: string -> seq<string>): seq<Path>
  {
    Marked(objectDir, subdirs, listing, "aug")
  }

  /** Every output of the augmenter in a listed sub-directory is deleted. */
  lemma {:induction false} OutputsRemoved(objectDir: Path, subdirs: seq<string>, listing: string -> seq<string>, d: string, f: string, i: nat)
    requires d in subdirs && OutName(f, i) in listing(d)
    ensures objectDir + [d, OutName(f, i)] in RemovedFiles(objectDir, subdirs, listing)
  {
    OutNameMarked(f, i);
    assert "_" + "aug" + "_" == "_aug_";
    ContainsPiece(OutName(f, i), "_", "aug", "_");
    MarkedExact(objectDir, subdirs, listing, "aug", d, OutName(f, i));
  }

  /** No output name lacks the `_` before `aug`: a name without `_` is never an output. */
  lemma {:induction false} NotAnOutput(name: string, f: string, i: nat)
    requires '_' !in name
    ensures OutName(f, i) != name
  {
    OutNameMarked(f, i);
    assert "" + "_" + "aug_" == "_aug_";
    if OutName(f, i) == name {
      ContainsPiece(name, "", "_", "aug_");
      NotContainsChar(name, '_');
    }
  }

  /** The clean-up also deletes an original image whose name merely contains `aug`,
      which the augmenter never wrote. */
  lemma {:induction false} OriginalRemoved(objectDir: Path, d: string, listing: string -> seq<string>)
    requires listing(d) == ["august.png"]
    ensures objectDir + [d, "august.png"] in RemovedFiles(objectDir, [d], listing)
    ensures forall f, i :: OutName(f, i) != "august.png"
  {
    assert "august.png" == [] + "aug" + "ust.png";
    ContainsInfix([], "aug", "ust.png");
    MarkedExact(objectDir, [d], listing, "aug", d, "august.png");
    forall f, i: nat ensures OutName(f, i) != "august.png" {
      NotAnOutput("august.png", f, i);
    }
  }

  /** The clean-up with the marker the traversal uses: it deletes exactly the files
      `augment_images` skips. */
  function CorrectedRemovedFiles(objectDir: Path, subdirs: seq<string>, listing: string -> seq<string>): seq<Path>
  {
    Marked(objectDir, subdirs, listing, "_aug_")
  }

  /** The corrected clean-up deletes every output and keeps every file the augmenter
      would process. */
  lemma {:induction false} CorrectedRemovesOutputsOnly(objectDir: Path, subdirs: seq<string>, listing: string -> seq<string>, d: string, f: string)
    requires d in subdirs && f in listing(d)
    ensures objectDir + [d, f] in CorrectedRemovedFiles(objectDir, subdirs, listing) <==> Contains(f, "_aug_")
    ensures forall g, i :: f == OutName(g, i) ==> objectDir + [d, f] in CorrectedRemovedFiles(objectDir, subdirs, listing)
  {
    MarkedExact(objectDir, subdirs, listing, "_aug_", d, f);
    forall g, i: nat | f == OutName(g, i)
      ensures objectDir + [d, f] in CorrectedRemovedFiles(objectDir, subdirs, listing)
    {
      OutNameMarked(g, i);
    }
  }
}

=== FILE: augment_params.dfy ===
/** The parameters the newer augmenter (src/multicamcomposepro/augment.py) draws for one
    variant, as functions of the temperature `T` and of the unit draws, and the exposure
    rejection loop. */
module AugmentParams {
  import opened Wrappers
  import opened Sampling
  import opened Imaging

  // ---------------------------------------------------------------- white balance

  /** `random_white_balance`: red is drawn between 0.98 + 0.02T and 1.02, green and blue
      between 0.98 - 0.02T and 1.02 (in whichever order those ends fall). */
  function WhiteBalanceScales(t: real, ur: real, ug: real, ub: real): (s: (real, real, real))
    requires Unit(ur) && Unit(ug) && Unit(ub)
    ensures Between(s.0, 0.98 + 0.02 * t, 1.02)
    ensures Between(s.1, 0.98 - 0.02 * t, 1.02) && Between(s.2, 0.98 - 0.02 * t, 1.02)
  {
    var factor := t * 0.02;
    UniformBetween(0.98 + factor, 1.02, ur);
    UniformBetween(0.98 - factor, 1.02, ug);
    UniformBetween(0.98 - factor, 1.02, ub);
    (Uniform(0.98 + factor, 1.02, ur), Uniform(0.98 - factor, 1.02, ug), Uniform(0.98 - factor, 1.02, ub))
  }

  /** A positive temperature warms the image: red is scaled at least as much as the
      lower end of green and blue. */
  lemma {:induction false} WarmerRed(t: real, ur: real, ug: real, ub: real)
    requires Unit(ur) && Unit(ug) && Unit(ub)
    requires 0.0 <= t <= 2.0
    ensures var s := WhiteBalanceScales(t, ur, ug, ub);
      s.0 >= 0.98 + 0.02 * t && s.1 >= 0.98 - 0.02 * t && s.0 <= 1.02 && s.1 <= 1.02
  {
  }

  // ---------------------------------------------------------------- exposure

  /** The loop keeps drawing while the factor lies in [1 - 0.01|T|, 1 + 0.04|T|]. */
  predicate InWindow(t: real, f: real)
  {
    1.0 - Abs(t * 0.01) <= f <= 1.0 + Abs(t * 0.04)
  }

  /** One draw of the loop: `uniform(1 - 0.1|T|, 1) + 0.1T`. */
  function ExposureDraw(t: real, u: real): real
  {
    Uniform(1.0 - Abs(t * 0.1), 1.0, u) + t * 0.1
  }

  /** Where a draw lands: in [1 - 0.1|T| + 0.1T, 1 + 0.1T]. */
  lemma {:induction false} ExposureDrawRange(t: real, u: real)
    requires Unit(u)
    ensures 1.0 - Abs(t * 0.1) + t * 0.1 <= ExposureDraw(t, u) <= 1.0 + t * 0.1
  {
    UniformBetween(1.0 - Abs(t * 0.1), 1.0, u);
  }

  /** The index of the first draw that leaves the window, if any. */
  function FirstExit(t: real, draws: seq<Draw>): (k: Option<nat>)
    ensures k.Some? ==> k.value < |draws| && !InWindow(t, ExposureDraw(t, draws[k.value]))
    ensures k.Some? ==> forall i :: 0 <= i < k.value ==> InWindow(t, ExposureDraw(t, draws[i]))
    ensures k.None? ==> forall i :: 0 <= i < |draws| ==> InWindow(t, ExposureDraw(t, draws[i]))
  {
    if draws == [] then None
    else if !InWindow(t, ExposureDraw(t, draws[0])) then Some(0)
    else
      var rest := FirstExit(t, draws[1..]);
      if rest.Some? then Some(rest.value + 1) else None
  }

  /** The factor the loop settles on: the first draw that leaves the window, which lies
      in the range every draw lands in; `None` when no draw leaves it. */
  function Exposure(t: real, draws: seq<Draw>): (f: Option<real>)
    ensures f.None? <==> FirstExit(t, draws).None?
    ensures f.Some? ==> !InWindow(t, f.value)
    ensures f.Some? ==> 1.0 - Abs(t * 0.1) + t * 0.1 <= f.value <= 1.0 + t * 0.1
  {
    match FirstExit(t, draws)
    case None => None
    case Some(k) =>
      ExposureDrawRange(t, draws[k]);
      Some(ExposureDraw(t, draws[k]))
  }

  /** `random_exposure`'s loop over the given draws: the factor starts at 1.0, inside the
      window, and each pass redraws it until it leaves the window. `None` when the draws
      run out first (the source would keep drawing). */
  method RandomExposure(t: real, draws: seq<Draw>) returns (f: Option<real>)
    ensures f == Exposure(t, draws)
    ensures f.Some? <==> FirstExit(t, draws).Some?
    ensures f.Some? ==> f.value == ExposureDraw(t, draws[FirstExit(t, draws).value])
    ensures f.Some? ==> !InWindow(t, f.value)
  {
    var factor := 1.0;
    assert InWindow(t, factor);
    var i := 0;
    while i < |draws| && InWindow(t, factor)
      invariant 0 <= i <= |draws|
      invariant forall j :: 0 <= j < i - 1 ==> InWindow(t, ExposureDraw(t, draws[j]))
      invariant i > 0 ==> factor == ExposureDraw(t, draws[i - 1])
      invariant i == 0 ==> factor == 1.0
    {
      factor := ExposureDraw(t, draws[i]);
      i := i + 1;
    }
    if InWindow(t, factor) {
      FirstExitNone(t, draws, factor, i);
      return None;
    }
    FirstExitAt(t, draws, i - 1);
    return Some(factor);
  }

  lemma {:induction false} FirstExitNone(t: real, draws: seq<Draw>, factor: real, i: nat)
    requires i == |draws| && InWindow(t, factor)
    requires forall j :: 0 <= j < i - 1 ==> InWindow(t, ExposureDraw(t, draws[j]))
    requires i > 0 ==> factor == ExposureDraw(t, draws[i - 1])
    ensures FirstExit(t, draws).None?
  {
    if i > 0 {
      assert InWindow(t, ExposureDraw(t, draws[i - 1]));
    }
    assert forall j :: 0 <= j < |draws| ==> InWindow(t, ExposureDraw(t, draws[j]));
  }

  /** The first exit is at `k` when every earlier draw stays in the window. */
  lemma {:induction false} FirstExitAt(t: real, draws: seq<Draw>, k: nat)
    requires k < |draws| && !InWindow(t, ExposureDraw(t, draws[k]))
    requires forall j :: 0 <= j < k ==> InWindow(t, ExposureDraw(t, draws[j]))
    ensures FirstExit(t, draws) == Some(k)
    decreases k
  {
    if k > 0 {
      FirstExitAt(t, draws[1..], k - 1);
    }
  }

  /** A positive temperature over-exposes: a draw that ends the loop exceeds 1 + 0.04T. */
  lemma {:induction false} OverExposed(t: real, u: real)
    requires t > 0.0 && Unit(u)
    requires !InWindow(t, ExposureDraw(t, u))
    ensures ExposureDraw(t, u) > 1.0 + 0.04 * t
  {
    ExposureDrawRange(t, u);
  }

  /** A negative temperature under-exposes: every draw lies below 1 - 0.01|T|, so the
      first draw already ends the loop. */
  lemma {:induction false} UnderExposed(t: real, u: real)
    requires t < 0.0 && Unit(u)
    ensures ExposureDraw(t, u) < 1.0 - 0.01 * Abs(t)
    ensures !InWindow(t, ExposureDraw(t, u))
  {
    var a := 1.0 - Abs(t * 0.1);
    assert a == 1.0 + t * 0.1;
    var d := 1.0 - a;
    ScaleUnit(d, u);
    assert ExposureDraw(t, u) == a + d * u + t * 0.1;
    assert d * u < d by {
      assert d > 0.0;
      assert d * (1.0 - u) > 0.0;
    }
  }

  /** With a positive temperature the loop ends exactly on a draw above 0.4. */
  lemma {:induction false} PositiveExit(t: real, u: real)
    requires t > 0.0 && Unit(u)
    ensures !InWindow(t, ExposureDraw(t, u)) <==> u > 0.4
  {
    var d := t * 0.1;
    assert ExposureDraw(t, u) == 1.0 + d * u by {
      assert Uniform(1.0 - d, 1.0, u) == 1.0 - d + d * u;
    }
    if u > 0.4 {
      assert d * u > d * 0.4 by {
        assert d * (u - 0.4) > 0.0;
      }
    } else {
      assert d * u <= d * 0.4 by {
        assert d * (0.4 - u) >= 0.0;
      }
      assert d * u >= 0.0;
    }
  }

  /** At temperature 0 every draw is exactly 1.0, inside the window: no sequence of draws
      ends the loop, which never terminates. */
  lemma {:induction false} ZeroNeverExits(draws: seq<Draw>)
    ensures FirstExit(0.0, draws).None?
  {
    forall i | 0 <= i < |draws| ensures InWindow(0.0, ExposureDraw(0.0, draws[i])) {
      assert ExposureDraw(0.0, draws[i]) == 1.0;
    }
  }

  // ---------------------------------------------------------------- rotation

  /** `x % 3` on a non-negative float: what is left after taking out a whole number of
      threes. */
  function Mod3(x: real): (m: real)
    requires x >= 0.0
    ensures 0.0 <= m < 3.0 && m <= x
    ensures ((x - m) / 3.0).Floor as real == (x - m) / 3.0
  {
    var k := (x / 3.0).Floor;
    var m := x - 3.0 * k as real;
    assert x - m == 3.0 * k as real;
    assert (x - m) / 3.0 == k as real;
    assert 0.0 <= x / 3.0 - k as real < 1.0;
    m
  }

  /** `random_rotation`: a draw between 1 - |T| and |T| - 1, shifted by |T| mod 3. */
  function RotationAngle(t: real, u: real): (angle: real)
    requires Unit(u)
    ensures Between(angle - Mod3(Abs(t)), 1.0 - Abs(t), Abs(t) - 1.0)
  {
    UniformBetween(-Abs(t) + 1.0, Abs(t) - 1.0, u);
    Uniform(-Abs(t) + 1.0, Abs(t) - 1.0, u) + Mod3(Abs(t))
  }

  // ---------------------------------------------------------------- lens distortion

  function MinDistortion(t: real): real { 0.99 - Abs(t) * 0.02 }

  function MaxDistortion(t: real): real { 1.01 + Abs(t) * 0.02 }

  /** `random_lens_distortion`'s matrix: diagonal scale factors drawn between the two
      bounds, no shear and no translation. */
  function DistortionMatrix(t: real, ux: real, uy: real): (m: Affine)
    requires Unit(ux) && Unit(uy)
    ensures MinDistortion(t) <= m.a <= MaxDistortion(t) && MinDistortion(t) <= m.e <= MaxDistortion(t)
    ensures m.b == 0.0 && m.c == 0.0 && m.d == 0.0 && m.f == 0.0
  {
    UniformBetween(MinDistortion(t), MaxDistortion(t), ux);
    UniformBetween(MinDistortion(t), MaxDistortion(t), uy);
    Affine(Uniform(MinDistortion(t), MaxDistortion(t), ux), 0.0, 0.0,
           0.0, Uniform(MinDistortion(t), MaxDistortion(t), uy), 0.0)
  }

  // ---------------------------------------------------------------- mirror and blur

  /** `random_mirror`: flipped exactly when the draw is below one half. */
  function Mirror(img: Image, u: real): (r: (Image, bool))
    ensures r.1 <==> u < 0.5
    ensures r.1 ==> r.0 == Flip(img)
    ensures !r.1 ==> r.0 == img
  {
    if u < 0.5 then (Flip(img), true) else (img, false)
  }

  /** `random_gaussian_blur`: a radius in [0, 1], whatever the temperature, and 0 only
      on a zero draw. */
  function BlurRadius(u: real): (radius: real)
    requires Unit(u)
    ensures 0.0 <= radius <= 1.0
    ensures radius == 0.0 <==> u == 0.0
  {
    UniformBetween(0.0, 1.0, u);
    Uniform(0.0, 1.0, u)
  }
}

=== FILE: camera_angles.dfy ===
/** The angle table and `sort_camera_angles`, textually identical in both revisions of
    camera.py: the 11 named angles are rearranged into slots by the "Camera Order" mapping. */
module CameraAngles {
  import opened Wrappers
  import opened Json
  import Text

  /** A slot of the sorted table: Python's `None`, the string "skip", or an angle name. */
  datatype Slot = Unset | Skip | Angle(name: string)

  const AngleTable: seq<string> := [
    "cam_0_left", "cam_1_right", "cam_2_front", "cam_3_front_left", "cam_4_front_right",
    "cam_5_back", "cam_6_back_left", "cam_7_back_right", "cam_8_top", "cam_9_top_left",
    "cam_10_top_right"]

  /** The table before sorting. */
  function InitialSlots(): (s: seq<Slot>)
    ensures |s| == |AngleTable| == 11
    ensures forall i :: 0 <= i < |s| ==> s[i] == Angle(AngleTable[i])
  {
    seq(|AngleTable|, i requires 0 <= i < |AngleTable| => Angle(AngleTable[i]))
  }

  /** Python's resolution of `xs[i]` on a list of length `n`: negative indices count
      from the end; anything else raises `IndexError`. */
  function PyIndex(i: int, n: nat): (r: Result<nat>)
    ensures r.Ok? <==> 0 - n as int <= i < n
    ensures r.Ok? ==> r.value < n && (r.value == i || r.value == n + i)
    ensures r.Raise? ==> r.error == IndexError
  {
    if 0 <= i < n then Ok(i) else if 0 - n as int <= i < 0 then Ok(n + i) else Raise(IndexError)
  }

  /** The position `sorted_angles[v]` assigns to: only an integer indexes a list. */
  function Target(v: Value, n: nat): (r: Result<nat>)
    ensures r.Ok? ==> v.Int? && r.value < n
    ensures !v.Int? ==> r == Raise(TypeError)
  {
    if v.Int? then PyIndex(v.i, n) else Raise(TypeError)
  }

  /** The writes of a "skip" list, in order; the first bad item raises. */
  function ItemWrites(items: seq<Value>, n: nat): (r: Result<seq<(nat, Slot)>>)
    ensures r.Ok? ==> |r.value| == |items|
    ensures r.Ok? ==> forall k :: 0 <= k < |r.value| ==> r.value[k].0 < n && r.value[k].1 == Skip
    decreases |items|
  {
    if items == [] then Ok([])
    else
      match ItemWrites(items[..|items| - 1], n)
      case Raise(e) => Raise(e)
      case Ok(ws) =>
        match Target(items[|items| - 1], n)
        case Raise(e) => Raise(e)
        case Ok(t) => Ok(ws + [(t, Skip)])
  }

  /** The writes one mapping entry makes. For "skip": every listed index (or the single
      index) gets "skip". Otherwise `sorted_angles[index] = camera_angles[int(identifier)]`,
      evaluated right-hand side first, as Python does. */
  function EntryWrites(angles: seq<Slot>, id: string, v: Value): (r: Result<seq<(nat, Slot)>>)
    ensures r.Ok? ==> forall k :: 0 <= k < |r.value| ==> r.value[k].0 < |angles|
    ensures r.Ok? && id == "skip" ==> forall k :: 0 <= k < |r.value| ==> r.value[k].1 == Skip
    ensures r.Ok? && id != "skip" ==> |r.value| == 1 && r.value[0].1 in angles
  {
    if id == "skip" then
      if v.List? then ItemWrites(v.items, |angles|)
      else
        match Target(v, |angles|)
        case Raise(e) => Raise(e)
        case Ok(t) => Ok([(t, Skip)])
    else
      match Text.ParseInt(id)
      case Raise(e) => Raise(e)
      case Ok(k) =>
        match PyIndex(k, |angles|)
        case Raise(e) => Raise(e)
        case Ok(src) =>
          match Target(v, |angles|)
          case Raise(e) => Raise(e)
          case Ok(t) => Ok([(t, angles[src])])
  }

  /** All writes of the mapping's entries, in iteration order; the first failure raises. */
  function Writes(angles: seq<Slot>, entries: Dict<Value>): (r: Result<seq<(nat, Slot)>>)
    ensures r.Ok? ==> forall k :: 0 <= k < |r.value| ==> r.value[k].0 < |angles|
    ensures r.Ok? ==> forall k :: 0 <= k < |r.value| ==> r.value[k].1 == Skip || r.value[k].1 in angles
    decreases |entries|
  {
    if entries == [] then Ok([])
    else
      var last := entries[|entries| - 1];
      match Writes(angles, entries[..|entries| - 1])
      case Raise(e) => Raise(e)
      case Ok(ws) =>
        match EntryWrites(angles, last.0, last.1)
        case Raise(e) => Raise(e)
        case Ok(more) => Ok(ws + more)
  }

  /** What slot `j` holds after the writes: the last value written to it, `None` if none. */
  function LastWrite(ws: seq<(nat, Slot)>, j: nat): Slot
    decreases |ws|
  {
    if ws == [] then Unset
    else if ws[|ws| - 1].0 == j then ws[|ws| - 1].1
    else LastWrite(ws[..|ws| - 1], j)
  }

  /** A slot nobody writes stays `None`. */
  lemma {:induction false} LastWriteUnwritten(ws: seq<(nat, Slot)>, j: nat)
    requires forall k :: 0 <= k < |ws| ==> ws[k].0 != j
    ensures LastWrite(ws, j) == Unset
    decreases |ws|
  {
    if ws != [] {
      LastWriteUnwritten(ws[..|ws| - 1], j);
    }
  }

  /** A written slot holds the value of the last write to it. */
  lemma {:induction false} LastWriteWins(ws: seq<(nat, Slot)>, j: nat, k: nat)
    requires k < |ws| && ws[k].0 == j
    requires forall m :: k < m < |ws| ==> ws[m].0 != j
    ensures LastWrite(ws, j) == ws[k].1
    decreases |ws|
  {
    if k < |ws| - 1 {
      LastWriteWins(ws[..|ws| - 1], j, k);
    }
  }

  /** An error in a prefix of the mapping is the error of the whole mapping. */
  lemma {:induction false} WritesErrorPersists(angles: seq<Slot>, entries: Dict<Value>, i: nat)
    requires i <= |entries|
    requires Writes(angles, entries[..i]).Raise?
    ensures Writes(angles, entries) == Writes(angles, entries[..i])
    decreases |entries| - i
  {
    if i < |entries| {
      assert entries[..i + 1][..i] == entries[..i];
      WritesErrorPersists(angles, entries, i + 1);
    } else {
      assert entries[..i] == entries;
    }
  }

  /** `sort_camera_angles`: with no mapping loaded the table is untouched; a mapping that
      is not a JSON object has no `.items()`; otherwise the slots hold, position by
      position, the last value the mapping writes there, `None` where it writes nothing,
      and a bad entry raises the error Python raises for it. */
  method SortCameraAngles(angles: seq<Slot>, mapping: Option<Value>) returns (r: Result<seq<Slot>>)
    ensures mapping.None? ==> r == Ok(angles)
    ensures mapping.Some? && !mapping.value.Object? ==> r == Raise(AttributeError)
    ensures mapping.Some? && mapping.value.Object? ==>
      var w := Writes(angles, mapping.value.fields);
      && (r.Ok? <==> w.Ok?)
      && (r.Raise? ==> r.error == w.error)
      && (r.Ok? ==> |r.value| == |angles| && forall j :: 0 <= j < |angles| ==> r.value[j] == LastWrite(w.value, j))
  {
    if mapping.None? {
      return Ok(angles);
    }
    if !mapping.value.Object? {
      return Raise(AttributeError);
    }
    var entries := mapping.value.fields;
    var n := |angles|;
    var sorted: seq<Slot> := seq(n, _ => Unset);
    ghost var done: seq<(nat, Slot)> := [];
    var i := 0;
    while i < |entries|
      invariant 0 <= i <= |entries|
      invariant Writes(angles, entries[..i]) == Ok(done)
      invariant |sorted| == n
      invariant forall j :: 0 <= j < n ==> sorted[j] == LastWrite(done, j)
    {
      var (id, v) := entries[i];
      assert entries[..i + 1][..i] == entries[..i];
      assert entries[..i + 1][|entries[..i + 1]| - 1] == (id, v);
      var step := ApplyEntry(angles, sorted, id, v, done);
      if step.Raise? {
        assert Writes(angles, entries[..i + 1]) == Raise(step.error);
        WritesErrorPersists(angles, entries, i + 1);
        return Raise(step.error);
      }
      done := done + EntryWrites(angles, id, v).value;
      sorted := step.value;
      i := i + 1;
    }
    assert entries[..i] == entries;
    return Ok(sorted);
  }

  /** One iteration of the loop of `sort_camera_angles`, on the slots so far. */
  method ApplyEntry(angles: seq<Slot>, sorted: seq<Slot>, id: string, v: Value, ghost done: seq<(nat, Slot)>)
    returns (r: Result<seq<Slot>>)
    requires |sorted| == |angles|
    requires forall j :: 0 <= j < |angles| ==> sorted[j] == LastWrite(done, j)
    ensures r.Ok? <==> EntryWrites(angles, id, v).Ok?
    ensures r.Raise? ==> r.error == EntryWrites(angles, id, v).error
    ensures r.Ok? ==> |r.value| == |angles|
    ensures r.Ok? ==> forall j :: 0 <= j < |angles| ==>
      r.value[j] == LastWrite(done + EntryWrites(angles, id, v).value, j)
  {
    var n := |angles|;
    if id == "skip" && v.List? {
      var out := sorted;
      ghost var acc := done;
      var k := 0;
      while k < |v.items|
        invariant 0 <= k <= |v.items|
        invariant ItemWrites(v.items[..k], n).Ok?
        invariant acc == done + ItemWrites(v.items[..k], n).value
        invariant |out| == n
        invariant forall j :: 0 <= j < n ==> out[j] == LastWrite(acc, j)
      {
        assert v.items[..k + 1][..k] == v.items[..k];
        assert v.items[..k + 1][|v.items[..k + 1]| - 1] == v.items[k];
        var t := Target(v.items[k], n);
        if t.Raise? {
          assert ItemWrites(v.items[..k + 1], n) == Raise(t.error);
          ItemErrorPersists(v.items, n, k + 1);
          return Raise(t.error);
        }
        out := out[t.value := Skip];
        acc := acc + [(t.value, Skip)];
        k := k + 1;
      }
      assert v.items[..k] == v.items;
      return Ok(out);
    }
    var w := EntryWrites(angles, id, v);
    if w.Raise? {
      return Raise(w.error);
    }
    assert |w.value| == 1 by {
      if id == "skip" {
        assert w == Ok([(Target(v, n).value, Skip)]);
      }
    }
    return Ok(sorted[w.value[0].0 := w.value[0].1]);
  }

  lemma {:induction false} ItemErrorPersists(items: seq<Value>, n: nat, k: nat)
    requires k <= |items|
    requires ItemWrites(items[..k], n).Raise?
    ensures ItemWrites(items, n) == ItemWrites(items[..k], n)
    decreases |items| - k
  {
    if k < |items| {
      assert items[..k + 1][..k] == items[..k];
      ItemErrorPersists(items, n, k + 1);
    } else {
      assert items[..k] == items;
    }
  }

  /** Sorting only rearranges: every slot is `None`, "skip", or an angle of the table. */
  lemma {:induction false} SortedSlotsFromTable(angles: seq<Slot>, entries: Dict<Value>, j: nat)
    requires Writes(angles, entries).Ok?
    ensures var s := LastWrite(Writes(angles, entries).value, j);
      s == Unset || s == Skip || s in angles
  {
    var ws := Writes(angles, entries).value;
    LastWriteFrom(ws, j);
  }

  lemma {:induction false} LastWriteFrom(ws: seq<(nat, Slot)>, j: nat)
    ensures LastWrite(ws, j) == Unset || exists k :: 0 <= k < |ws| && ws[k] == (j, LastWrite(ws, j))
    decreases |ws|
  {
    if ws != [] && ws[|ws| - 1].0 != j {
      LastWriteFrom(ws[..|ws| - 1], j);
      if LastWrite(ws, j) != Unset {
        var k :| 0 <= k < |ws[..|ws| - 1]| && ws[..|ws| - 1][k] == (j, LastWrite(ws, j));
        assert ws[k] == (j, LastWrite(ws, j));
      }
    }
  }

  /** A single numeric entry `(id, index)` with no other write to `index` puts
      `camera_angles[int(id)]` at `index`. */
  lemma {:induction false} SingleEntryPlacesAngle(angles: seq<Slot>, id: string, index: nat, k: nat)
    requires id != "skip" && Text.ParseInt(id) == Ok(k) && k < |angles| && index < |angles|
    ensures EntryWrites(angles, id, Int(index)) == Ok([(index, angles[k])])
  {
  }
}

=== FILE: camera_config.dfy ===
/** The camera configuration logic of the newer revision (src/multicamcomposepro/utils.py):
    `CameraIdentifier` counts the cameras that open and folds the operator's identifiers
    into the "Camera Order" mapping; `CameraConfigurator` is a key-press state machine
    over exposure and colour temperature. Both merge their result into the config file. */
module CameraConfig {
  import opened Wrappers
  import opened Json
  import Text

  /** Default of `n_cameras`. */
  const DefaultUsbConnections: int := 10

  // ---------------------------------------------------------------- camera count

  /** How many of the indices below `k` the oracle reports as opening. */
  function OpenCount(k: nat, opens: nat -> bool): (c: nat)
    ensures c <= k
  {
    if k == 0 then 0 else OpenCount(k - 1, opens) + (if opens(k - 1) then 1 else 0)
  }

  /** The count of `identify_all_cameras`: start from `n` and decrement once for every
      index in `range(n)` that does not open (a count of failures, not a search). */
  method CountCameras(n: int, opens: nat -> bool) returns (count: int)
    ensures n <= 0 ==> count == n
    ensures n > 0 ==> count == OpenCount(n, opens)
  {
    count := n;
    var i := 0;
    while i < n
      invariant 0 <= i && (n > 0 ==> i <= n)
      invariant n > 0 ==> count == n - (i - OpenCount(i, opens))
      invariant n <= 0 ==> count == n
    {
      if !opens(i) {
        count := count - 1;
      }
      i := i + 1;
    }
  }

  /** Every index opens exactly when the count is `n`. */
  lemma {:induction false} FullCount(k: nat, opens: nat -> bool)
    ensures OpenCount(k, opens) == k <==> forall i :: 0 <= i < k ==> opens(i)
  {
    if k > 0 {
      FullCount(k - 1, opens);
      if OpenCount(k, opens) == k {
        assert OpenCount(k - 1, opens) == k - 1 && opens(k - 1);
      }
    }
  }

  /** The count over a longer range is never smaller. */
  lemma {:induction false} OpenCountMono(a: nat, k: nat, opens: nat -> bool)
    requires a <= k
    ensures OpenCount(a, opens) <= OpenCount(k, opens)
    decreases k
  {
    if a < k {
      OpenCountMono(a, k - 1, opens);
    }
  }

  /** When the count does not grow from `a` to `k`, no index in between opens. */
  lemma {:induction false} NoneOpenAbove(a: nat, k: nat, opens: nat -> bool)
    requires a <= k && OpenCount(a, opens) == OpenCount(k, opens)
    ensures forall j :: a <= j < k ==> !opens(j)
    decreases k
  {
    if a < k {
      OpenCountMono(a, k - 1, opens);
      NoneOpenAbove(a, k - 1, opens);
    }
  }

  /** The visited indices `range(count)` all open exactly when the cameras that open
      are the first `count` ones: a camera that does not open below the count is
      matched by one that opens at or above it. */
  lemma {:induction false} OpenPrefix(k: nat, opens: nat -> bool)
    ensures (forall i :: 0 <= i < OpenCount(k, opens) ==> opens(i))
        <==> (forall i :: 0 <= i < k ==> (opens(i) <==> i < OpenCount(k, opens)))
  {
    var c := OpenCount(k, opens);
    if forall i :: 0 <= i < c ==> opens(i) {
      FullCount(c, opens);
      NoneOpenAbove(c, k, opens);
    }
  }

  /** When the cameras that open are exactly the indices below `c`, the count is `c`,
      so the visited indices `range(count)` are exactly the cameras that open. */
  lemma {:induction false} ContiguousCount(k: nat, c: nat, opens: nat -> bool)
    requires c <= k
    requires forall i :: 0 <= i < k ==> (opens(i) <==> i < c)
    ensures OpenCount(k, opens) == c
  {
    if k > c {
      ContiguousCount(k - 1, c, opens);
    } else if k > 0 {
      FullCount(k, opens);
    }
  }

  // ---------------------------------------------------------------- identifier fold

  /** An identifier that goes to the "skip" bucket: `id.lower() == "skip"`. */
  predicate IsSkip(id: string)
  {
    |id| == 4 && LowerChar(id[0]) == 's' && LowerChar(id[1]) == 'k' && LowerChar(id[2]) == 'i'
    && LowerChar(id[3]) == 'p'
  }

  function LowerChar(c: char): char
  {
    if 'A' <= c <= 'Z' then (c as int + 32) as char else c
  }

  /** `IsSkip` is the comparison the source writes. */
  lemma {:induction false} IsSkipLower(id: string)
    ensures IsSkip(id) <==> Text.Lower(id) == "skip"
  {
    if Text.Lower(id) == "skip" {
      assert |id| == 4;
      assert Text.Lower(id)[0] == 's' && Text.Lower(id)[1] == 'k';
      assert Text.Lower(id)[2] == 'i' && Text.Lower(id)[3] == 'p';
    }
    if IsSkip(id) {
      assert Text.Lower(id) == "skip";
    }
  }

  /** The mapping after the operator typed `ids[i]` for camera index `i`: a "skip" adds
      the index to the list under "skip", anything else maps the identifier to it. */
  function Identify(ids: seq<string>): Dict<Value>
    decreases |ids|
  {
    if ids == [] then []
    else
      var m := Identify(ids[..|ids| - 1]);
      var i := |ids| - 1;
      Step(m, i, ids[i])
  }

  /** The indices already in the "skip" bucket. */
  function Bucket(m: Dict<Value>): seq<Value>
  {
    var cur := Get(m, "skip");
    if cur.Some? && cur.value.List? then cur.value.items else []
  }

  /** `mapping["skip"].append(i)` when the bucket exists, `mapping["skip"] = [i]` otherwise. */
  function AddSkip(m: Dict<Value>, i: nat): (r: Dict<Value>)
    ensures Get(r, "skip") == Some(List(Bucket(m) + [Int(i)]))
    ensures forall k :: k != "skip" ==> Get(r, k) == Get(m, k)
  {
    Put(m, "skip", List(Bucket(m) + [Int(i)]))
  }

  /** One visited camera: index `i`, identifier `id`. */
  function Step(m: Dict<Value>, i: nat, id: string): Dict<Value>
  {
    if IsSkip(id) then AddSkip(m, i) else Put(m, id, Int(i))
  }

  /** The indices for which a "skip" was typed, in order. */
  function SkipIndices(ids: seq<string>): seq<Value>
    decreases |ids|
  {
    if ids == [] then []
    else
      var i := |ids| - 1;
      SkipIndices(ids[..i]) + (if IsSkip(ids[i]) then [Int(i)] else [])
  }

  /** The last index at which `k` was typed. */
  function LastIndex(ids: seq<string>, k: string): (i: nat)
    requires k in ids
    ensures i < |ids| && ids[i] == k
    ensures forall j :: i < j < |ids| ==> ids[j] != k
    decreases |ids|
  {
    if ids[|ids| - 1] == k then |ids| - 1 else LastIndex(ids[..|ids| - 1], k)
  }

  /** The bucket key itself is a skip, so no typed identifier can collide with it. */
  lemma SkipKey()
    ensures IsSkip("skip")
  {
  }

  /** The identifiers that are not skips. */
  function Named(ids: seq<string>): set<string>
    decreases |ids|
  {
    if ids == [] then {}
    else
      var last := ids[|ids| - 1];
      Named(ids[..|ids| - 1]) + (if IsSkip(last) then {} else {last})
  }

  lemma {:induction false} NamedMember(ids: seq<string>, k: string)
    ensures k in Named(ids) <==> k in ids && !IsSkip(k)
    decreases |ids|
  {
    if ids != [] {
      var pre := ids[..|ids| - 1];
      NamedMember(pre, k);
      assert ids == pre + [ids[|ids| - 1]];
    }
  }

  /** The "skip" entry of the fold against its reference: the skipped indices in order,
      absent when nothing was skipped. */
  lemma {:induction false} IdentifySkip(ids: seq<string>)
    ensures Get(Identify(ids), "skip") ==
      if SkipIndices(ids) == [] then None else Some(List(SkipIndices(ids)))
    decreases |ids|
  {
    if ids != [] {
      var pre := ids[..|ids| - 1];
      var i := |ids| - 1;
      IdentifySkip(pre);
      var m := Identify(pre);
      if IsSkip(ids[i]) {
        assert Identify(ids) == AddSkip(m, i);
        assert SkipIndices(ids) == SkipIndices(pre) + [Int(i)];
        assert Bucket(m) == SkipIndices(pre);
      } else {
        SkipKey();
        assert Identify(ids) == Put(m, ids[i], Int(i));
        assert SkipIndices(ids) == SkipIndices(pre);
      }
    }
  }

  /** Every other entry of the fold against its reference: an identifier maps to the last
      index it was typed at; one never typed, or one that is a skip, is absent. */
  lemma {:induction false} IdentifyNamed(ids: seq<string>, k: string)
    requires k != "skip"
    ensures Get(Identify(ids), k) == if k in ids && !IsSkip(k) then Some(Int(LastIndex(ids, k))) else None
    decreases |ids|
  {
    if ids != [] {
      var pre := ids[..|ids| - 1];
      var i := |ids| - 1;
      var x := ids[i];
      IdentifyNamed(pre, k);
      StepGet(Identify(pre), i, x, k);
      InLast(ids, k);
      if k != x && k in pre && !IsSkip(k) {
        assert LastIndex(ids, k) == LastIndex(pre, k);
      }
    }
  }

  /** Membership in a non-empty sequence: in all but the last element, or the last. */
  lemma {:induction false} InLast<T>(s: seq<T>, x: T)
    requires s != []
    ensures x in s <==> x in s[..|s| - 1] || x == s[|s| - 1]
  {
    if x in s && x != s[|s| - 1] {
      var j :| 0 <= j < |s| && s[j] == x;
      assert s[..|s| - 1][j] == x;
    }
  }

  /** One visited camera touches a named key only when it is that key. */
  lemma {:induction false} StepGet(m: Dict<Value>, i: nat, id: string, k: string)
    requires k != "skip"
    ensures Get(Step(m, i, id), k) == if id == k && !IsSkip(id) then Some(Int(i)) else Get(m, k)
  {
  }

  /** The fold, all keys at once. */
  lemma {:induction false} IdentifySpec(ids: seq<string>)
    ensures Get(Identify(ids), "skip") ==
      if SkipIndices(ids) == [] then None else Some(List(SkipIndices(ids)))
    ensures forall k :: k != "skip" ==>
      Get(Identify(ids), k) == if k in ids && !IsSkip(k) then Some(Int(LastIndex(ids, k))) else None
  {
    IdentifySkip(ids);
    forall k | k != "skip"
      ensures Get(Identify(ids), k) == if k in ids && !IsSkip(k) then Some(Int(LastIndex(ids, k))) else None
    {
      IdentifyNamed(ids, k);
    }
  }

  /** Every key of the mapping is unique. */
  lemma {:induction false} IdentifyUnique(ids: seq<string>)
    ensures UniqueKeys(Identify(ids))
    decreases |ids|
  {
    if ids != [] {
      var pre := ids[..|ids| - 1];
      IdentifyUnique(pre);
      var m := Identify(pre);
      var i := |ids| - 1;
      if IsSkip(ids[i]) {
        PutUnique(m, "skip", List(Bucket(m) + [Int(i)]));
      } else {
        PutUnique(m, ids[i], Int(i));
      }
    }
  }

  /** The number of top-level keys: one per distinct non-skip identifier, and one more
      for the "skip" bucket however many indices it holds. */
  lemma {:induction false} IdentifySize(ids: seq<string>)
    ensures |Identify(ids)| == |Named(ids)| + (if SkipIndices(ids) == [] then 0 else 1)
    decreases |ids|
  {
    if ids != [] {
      var pre := ids[..|ids| - 1];
      var i := |ids| - 1;
      var m := Identify(pre);
      IdentifySize(pre);
      if IsSkip(ids[i]) {
        SkipStepSize(pre, m, i);
        assert Identify(ids) == AddSkip(m, i);
        assert Named(ids) == Named(pre);
        assert SkipIndices(ids) != [];
      } else {
        NamedStepSize(pre, m, i, ids[i]);
        assert Identify(ids) == Put(m, ids[i], Int(i));
        assert Named(ids) == Named(pre) + {ids[i]};
        assert SkipIndices(ids) == SkipIndices(pre);
      }
    }
  }

  lemma {:induction false} SkipStepSize(pre: seq<string>, m: Dict<Value>, i: nat)
    requires m == Identify(pre)
    ensures |AddSkip(m, i)| == |m| + (if SkipIndices(pre) == [] then 1 else 0)
  {
    IdentifySkip(pre);
    PutSize(m, "skip", List(Bucket(m) + [Int(i)]));
  }

  lemma {:induction false} NamedStepSize(pre: seq<string>, m: Dict<Value>, i: nat, k: string)
    requires m == Identify(pre) && !IsSkip(k)
    ensures |Put(m, k, Int(i))| == |m| + (if k in Named(pre) then 0 else 1)
    ensures |Named(pre) + {k}| == |Named(pre)| + (if k in Named(pre) then 0 else 1)
  {
    NamedHasKey(pre, k);
    PutIntSize(m, k, i, k in Named(pre));
    AddSize(Named(pre), k);
  }

  lemma {:induction false} AddSize<T>(s: set<T>, k: T)
    ensures |s + {k}| == |s| + (if k in s then 0 else 1)
  {
    if k in s {
      assert s + {k} == s;
    }
  }

  /** A named identifier is a key of the mapping exactly when it was typed. */
  lemma {:induction false} NamedHasKey(pre: seq<string>, k: string)
    requires !IsSkip(k)
    ensures HasKey(Identify(pre), k) <==> k in Named(pre)
  {
    SkipKey();
    IdentifyNamed(pre, k);
    NamedMember(pre, k);
    assert HasKey(Identify(pre), k) <==> Get(Identify(pre), k).Some?;
  }

  lemma {:induction false} PutIntSize(m: Dict<Value>, k: string, i: nat, present: bool)
    requires HasKey(m, k) <==> present
    ensures |Put(m, k, Int(i))| == |m| + (if present then 0 else 1)
  {
    PutSize(m, k, Int(i));
  }

  /** The identifiers typed for indices `0 .. n - 1`. */
  function Typed(typed: nat -> string, n: nat): (r: seq<string>)
    ensures |r| == n && forall i :: 0 <= i < n ==> r[i] == typed(i)
  {
    seq(n, i requires 0 <= i => typed(i))
  }

  lemma {:induction false} TypedPrefix(typed: nat -> string, n: nat)
    ensures Identify(Typed(typed, n + 1)) == Step(Identify(Typed(typed, n)), n, typed(n))
  {
    assert Typed(typed, n + 1)[..n] == Typed(typed, n);
  }

  /** `identify_all_cameras` with `opens(i)` whether camera `i` opens and delivers
      frames, and `typed(i)` the identifier entered for index `i`: the cameras
      `range(count)` are visited in order. The count only subtracts failures, so a
      visited index can be one that does not open; its first `cap.read()` gives no
      frame and `cv2.imshow` raises `cv2.error`, as the docstring warns. The run
      completes exactly when the cameras that open are the first ones. */
  method IdentifyAllCameras(n: int, opens: nat -> bool, typed: nat -> string)
    returns (count: int, r: Result<Dict<Value>>)
    ensures count == if n > 0 then OpenCount(n, opens) else n
    ensures r.Raise? <==> exists i :: 0 <= i < count && !opens(i)
    ensures r.Raise? ==> r.error == CvError
    ensures r.Ok? ==> r.value == Identify(Typed(typed, if count > 0 then count else 0))
    ensures n > 0 ==> (r.Ok? <==> forall i :: 0 <= i < n ==> (opens(i) <==> i < count))
  {
    count := CountCameras(n, opens);
    if n > 0 {
      OpenPrefix(n, opens);
    }
    var visits := if count > 0 then count else 0;
    var mapping := [];
    var i := 0;
    while i < visits
      invariant 0 <= i <= visits
      invariant mapping == Identify(Typed(typed, i))
      invariant forall j :: 0 <= j < i ==> opens(j)
    {
      if !opens(i) {
        assert 0 <= i < count && !opens(i);
        return count, Raise(CvError);
      }
      assert forall j :: 0 <= j < i + 1 ==> opens(j);
      TypedPrefix(typed, i);
      mapping := Step(mapping, i, typed(i));
      i := i + 1;
    }
    assert forall j :: 0 <= j < count ==> opens(j);
    r := Ok(mapping);
  }

  /** `CameraIdentifier.save_to_json`: only "Camera Order" is replaced. */
  function SaveCameraOrder(existing: Option<File>, mapping: Dict<Value>): (r: File)
    ensures "Camera Order" in r && r["Camera Order"] == Object(mapping)
    ensures existing.Some? ==> forall k :: k != "Camera Order" ==>
      (k in r <==> k in existing.value) && (k in r ==> r[k] == existing.value[k])
  {
    MergeWrite(existing, "Camera Order", Object(mapping))
  }

  /** `CameraIdentifier.init`: an existing configuration is kept unless the operator
      answers "y" or "yes" (in any case); otherwise the cameras are identified and saved. */
  function InitIdentifier(existing: Option<File>, answer: string, mapping: Dict<Value>): (r: Option<File>)
    ensures existing.None? ==> r == Some(SaveCameraOrder(existing, mapping))
    ensures existing.Some? && Text.Lower(answer) != "y" && Text.Lower(answer) != "yes" ==> r == existing
    ensures Text.Lower(answer) == "y" || Text.Lower(answer) == "yes" ==> r == Some(SaveCameraOrder(existing, mapping))
  {
    if existing.Some? && Text.Lower(answer) != "y" && Text.Lower(answer) != "yes" then existing
    else Some(SaveCameraOrder(existing, mapping))
  }

  // ---------------------------------------------------------------- configurator

  datatype Settings = Settings(exposure: int, colorTemp: int)

  /** The constructor's values: exposure 0 and colour temperature 3000. */
  const InitialSettings: Settings := Settings(0, 3000)

  const KeyExposureDown: int := 49   // '1'
  const KeyExposureUp: int := 50     // '2'
  const KeyColorDown: int := 52      // '4'
  const KeyColorUp: int := 53        // '5'
  const KeyQuit: int := 113          // 'q'

  /** `update_camera_settings` on the code `cv2.waitKey` returned. */
  function UpdateCameraSettings(s: Settings, key: int): Settings
  {
    if key == KeyExposureUp then s.(exposure := s.exposure + 1)
    else if key == KeyExposureDown then s.(exposure := s.exposure - 1)
    else if key == KeyColorUp then s.(colorTemp := s.colorTemp + 50)
    else if key == KeyColorDown then s.(colorTemp := s.colorTemp - 50)
    else s
  }

  /** The configurator loop: every key is applied, and the loop ends after a 'q'. */
  function RunKeys(s: Settings, keys: seq<int>): Settings
    decreases |keys|
  {
    if keys == [] then s
    else
      var next := UpdateCameraSettings(s, keys[0]);
      if keys[0] == KeyQuit then next else RunKeys(next, keys[1..])
  }

  function Count(keys: seq<int>, key: int): nat
  {
    if keys == [] then 0 else (if keys[0] == key then 1 else 0) + Count(keys[1..], key)
  }

  /** A session without 'q' moves exposure by (#'2' − #'1') and colour temperature by
      50·(#'5' − #'4'); every other key leaves both alone. */
  lemma {:induction false} RunKeysTotals(s: Settings, keys: seq<int>)
    requires KeyQuit !in keys
    ensures RunKeys(s, keys) == Settings(
      s.exposure + Count(keys, KeyExposureUp) - Count(keys, KeyExposureDown),
      s.colorTemp + 50 * (Count(keys, KeyColorUp) - Count(keys, KeyColorDown)))
    decreases |keys|
  {
    if keys != [] {
      RunKeysTotals(UpdateCameraSettings(s, keys[0]), keys[1..]);
    }
  }

  /** Keys after the first 'q' are never read. */
  lemma {:induction false} RunKeysStopsAtQuit(s: Settings, before: seq<int>, after: seq<int>)
    requires KeyQuit !in before
    ensures RunKeys(s, before + [KeyQuit] + after) == RunKeys(s, before)
    decreases |before|
  {
    if before == [] {
      assert (before + [KeyQuit] + after)[0] == KeyQuit;
      assert RunKeys(s, [] ) == s;
    } else {
      assert (before + [KeyQuit] + after)[1..] == before[1..] + [KeyQuit] + after;
      RunKeysStopsAtQuit(UpdateCameraSettings(s, before[0]), before[1..], after);
    }
  }

  /** The object `CameraConfigurator.save_to_json` stores under "CameraSettings". */
  function SettingsValue(s: Settings): Value
  {
    Object([("Camera Exposure", Int(s.exposure)), ("Camera Color Temperature", Int(s.colorTemp))])
  }

  /** `CameraConfigurator.save_to_json`: only "CameraSettings" is replaced. */
  function SaveCameraSettings(existing: Option<File>, s: Settings): (r: File)
    ensures "CameraSettings" in r && r["CameraSettings"] == SettingsValue(s)
    ensures existing.Some? ==> forall k :: k != "CameraSettings" ==>
      (k in r <==> k in existing.value) && (k in r ==> r[k] == existing.value[k])
  {
    MergeWrite(existing, "CameraSettings", SettingsValue(s))
  }

  /** `camera_configurator`: the config file must exist, and its "CameraSettings" entry
      (an empty object when absent) is tested with `"Camera Exposure" not in …`, which
      raises TypeError on an integer. The test's outcome only selects a message; the
      session always starts from the constructor's values (nothing is loaded), and the
      result is merged back. */
  function CameraConfigurator(existing: Option<File>, keys: seq<int>): (r: Result<File>)
    ensures existing.None? <==> r == Raise(FileNotFoundError)
    ensures r == Raise(TypeError) <==>
      existing.Some? && FileGet(existing.value, "CameraSettings", Object([])).Int?
    ensures r.Ok? <==>
      existing.Some? && !FileGet(existing.value, "CameraSettings", Object([])).Int?
    ensures r.Ok? ==> r.value == SaveCameraSettings(existing, RunKeys(InitialSettings, keys))
  {
    if existing.None? then Raise(FileNotFoundError)
    else
      // The second membership test of the `or` reads the same value, so it cannot
      // raise where the first did not.
      var settings := FileGet(existing.value, "CameraSettings", Object([]));
      if Contains(settings, "Camera Exposure").Raise? then Raise(TypeError)
      else Ok(SaveCameraSettings(existing, RunKeys(InitialSettings, keys)))
  }

  /** A session ended by 'q' on a file whose "CameraSettings" is not an integer saves
      exposure #'2' − #'1' and colour temperature 3000 + 50·(#'5' − #'4'), counted over
      the keys before the 'q', and keeps every other entry of the config file. */
  lemma {:induction false} ConfiguratorSaves(existing: File, keys: seq<int>, after: seq<int>)
    requires KeyQuit !in keys
    requires !FileGet(existing, "CameraSettings", Object([])).Int?
    ensures var r := CameraConfigurator(Some(existing), keys + [KeyQuit] + after);
      && r.Ok?
      && r.value["CameraSettings"] == Object([
           ("Camera Exposure", Int(Count(keys, KeyExposureUp) - Count(keys, KeyExposureDown))),
           ("Camera Color Temperature", Int(3000 + 50 * (Count(keys, KeyColorUp) - Count(keys, KeyColorDown))))])
      && forall k :: k in existing && k != "CameraSettings" ==> k in r.value && r.value[k] == existing[k]
  {
    RunKeysStopsAtQuit(InitialSettings, keys, after);
    RunKeysTotals(InitialSettings, keys);
  }

  /** Saving the settings keeps the camera order and saving the order keeps the
      settings, so the two tools can run in either order. */
  lemma {:induction false} SavesCommute(existing: Option<File>, mapping: Dict<Value>, s: Settings)
    ensures SaveCameraSettings(Some(SaveCameraOrder(existing, mapping)), s)
         == SaveCameraOrder(Some(SaveCameraSettings(existing, s)), mapping)
  {
  }
}

=== FILE: capture.dfy ===
/** The capture stage of the newer revision (src/multicamcomposepro/camera.py): loading the
    camera configuration and the schedule of (folder, camera, slot, counter) capture actions
    that `capture_images`, `capture_good_object` and `run` walk through. Device reads are an
    oracle; the outcome of every action is recorded in a trace. */
module Capture {
  import opened Wrappers
  import opened Json
  import Text
  import opened FileSystem
  import opened Layout
  import opened CameraAngles

  /** Defaults of `CameraManager.__init__`. */
  const DefaultTestAnomalyImages: int := 5
  const DefaultTrainImages: int := 10

  // ---------------------------------------------------------------- configuration

  /** The attributes `load_camera_config` sets. */
  datatype CameraSettings = CameraSettings(exposure: Value, colorTemp: Value, zoom: Value, numCameras: nat)

  /** `camera_settings.get(k, 0)` on a loaded object. */
  function Setting(fields: Dict<Value>, k: string): (v: Value)
    ensures HasKey(fields, k) ==> Get(fields, k) == Some(v)
    ensures !HasKey(fields, k) ==> v == Int(0)
  {
    match Get(fields, k)
    case Some(v) => v
    case None => Int(0)
  }

  /** `load_camera_config`: no file leaves the attributes unset (`None`); a "CameraSettings"
      entry that is not an object has no `.get`; a "Camera Order" that is an integer has
      no `len`. Missing settings default to 0, and the camera count is the number of
      top-level entries of "Camera Order". */
  function LoadCameraConfig(file: Option<File>): (r: Result<Option<CameraSettings>>)
    ensures file.None? ==> r == Ok(None)
    ensures file.Some? ==> (r.Ok? <==>
      FileGet(file.value, "CameraSettings", Object([])).Object? && !FileGet(file.value, "Camera Order", Object([])).Int?)
    ensures r.Ok? && file.Some? ==> r.value.Some?
    ensures r.Ok? && file.Some? && "CameraSettings" !in file.value ==>
      r.value.value.exposure == Int(0) && r.value.value.colorTemp == Int(0) && r.value.value.zoom == Int(0)
    ensures r.Ok? && file.Some? && "Camera Order" !in file.value ==> r.value.value.numCameras == 0
    ensures r.Raise? ==> r.error == AttributeError || r.error == TypeError
  {
    if file.None? then Ok(None)
    else
      var data := file.value;
      var settings := FileGet(data, "CameraSettings", Object([]));
      if !settings.Object? then Raise(AttributeError)
      else
        match Len(FileGet(data, "Camera Order", Object([])))
        case Raise(e) => Raise(e)
        case Ok(n) =>
          Ok(Some(CameraSettings(
            Setting(settings.fields, "Camera Exposure"),
            Setting(settings.fields, "Camera Color Temperature"),
            Setting(settings.fields, "Camera Zoom"),
            n)))
  }

  /** `load_camera_mapping`: `None` leaves `camera_mapping` unset; otherwise the
      "Camera Order" entry, an empty object when absent. */
  function LoadCameraMapping(file: Option<File>): (r: Option<Value>)
    ensures file.None? <==> r.None?
    ensures file.Some? && "Camera Order" in file.value ==> r == Some(file.value["Camera Order"])
    ensures file.Some? && "Camera Order" !in file.value ==> r == Some(Object([]))
  {
    if file.None? then None else Some(FileGet(file.value, "Camera Order", Object([])))
  }

  // ---------------------------------------------------------------- schedule

  /** One call of `capture_single_image`: the folder, the camera index, the slot the
      sorted table holds at that index, and the image counter. */
  datatype Shot = Shot(folder: Path, cam: nat, slot: Slot, counter: nat)

  /** `r·k`, by repeated addition, so that positions in a schedule stay linear facts. */
  function Mul(r: nat, k: nat): nat
  {
    if r == 0 then 0 else Mul(r - 1, k) + k
  }

  lemma {:induction false} MulIsProduct(r: nat, k: nat)
    ensures Mul(r, k) == r * k
  {
    if r > 0 {
      MulIsProduct(r - 1, k);
    }
  }

  lemma {:induction false} MulMono(a: nat, b: nat, k: nat)
    requires a <= b
    ensures Mul(a, k) <= Mul(b, k)
    decreases b
  {
    if a < b {
      MulMono(a, b - 1, k);
    }
  }

  /** Position of camera `c` in round `r` when a round visits `k` cameras. */
  function Pos(r: nat, c: nat, k: nat): nat { Mul(r, k) + c }

  /** One round: every slot of the table in index order, all with the same counter. */
  function Round(folder: Path, slots: seq<Slot>, counter: nat): (s: seq<Shot>)
    ensures |s| == |slots|
  {
    RoundFrom(folder, slots, counter, 0)
  }

  /** The cameras `c, c + 1, ...` of a round. */
  function RoundFrom(folder: Path, slots: seq<Slot>, counter: nat, c: nat): (s: seq<Shot>)
    requires c <= |slots|
    ensures |s| == |slots| - c
    decreases |slots| - c
  {
    if c == |slots| then [] else [Shot(folder, c, slots[c], counter)] + RoundFrom(folder, slots, counter, c + 1)
  }

  lemma {:induction false} RoundFromAt(folder: Path, slots: seq<Slot>, counter: nat, c: nat, k: nat)
    requires c <= k < |slots|
    ensures RoundFrom(folder, slots, counter, c)[k - c] == Shot(folder, k, slots[k], counter)
    decreases k - c
  {
    if c < k {
      RoundFromAt(folder, slots, counter, c + 1, k);
    }
  }

  /** Camera `c`'s action in a round: its own slot, the round's counter. */
  lemma {:induction false} RoundAt(folder: Path, slots: seq<Slot>, counter: nat, c: nat)
    requires c < |slots|
    ensures Round(folder, slots, counter)[c] == Shot(folder, c, slots[c], counter)
  {
    RoundFromAt(folder, slots, counter, 0, c);
  }

  function Rounds(folder: Path, slots: seq<Slot>, n: nat): seq<Shot>
  {
    if n == 0 then [] else Rounds(folder, slots, n - 1) + Round(folder, slots, n - 1)
  }

  /** `capture_images(folder, n)`: nothing when `n` is 0 (and `range` of a negative count
      is empty), otherwise `n` rounds with counters 0, 1, ..., n - 1. */
  function CaptureImages(folder: Path, n: int, slots: seq<Slot>): seq<Shot>
  {
    if n == 0 then [] else Rounds(folder, slots, if n > 0 then n else 0)
  }

  function NonNeg(n: int): nat { if n > 0 then n else 0 }

  lemma {:induction false} PosBound(r: nat, c: nat, k: nat, n: nat)
    requires r < n && c < k
    ensures Pos(r, c, k) < Mul(n, k)
  {
    MulMono(r + 1, n, k);
  }

  lemma {:induction false} RoundsLen(folder: Path, slots: seq<Slot>, n: nat)
    ensures |Rounds(folder, slots, n)| == Mul(n, |slots|)
  {
    if n > 0 {
      RoundsLen(folder, slots, n - 1);
    }
  }

  /** Round `r` visits camera `c` at position `r·k + c`. */
  lemma {:induction false} RoundsAt(folder: Path, slots: seq<Slot>, n: nat, r: nat, c: nat)
    requires r < n && c < |slots|
    ensures Pos(r, c, |slots|) < |Rounds(folder, slots, n)|
    ensures Rounds(folder, slots, n)[Pos(r, c, |slots|)] == Shot(folder, c, slots[c], r)
  {
    var k := |slots|;
    RoundsLen(folder, slots, n);
    PosBound(r, c, k, n);
    var prev := Rounds(folder, slots, n - 1);
    RoundsLen(folder, slots, n - 1);
    if r < n - 1 {
      RoundsAt(folder, slots, n - 1, r, c);
    } else {
      assert Pos(r, c, k) == |prev| + c;
      RoundAt(folder, slots, r, c);
    }
  }

  /** `n` rounds: `n·k` actions, and round `r` visits every camera `c` in index order. */
  lemma {:induction false} RoundsShape(folder: Path, slots: seq<Slot>, n: nat)
    ensures |Rounds(folder, slots, n)| == Mul(n, |slots|)
    ensures forall r, c :: 0 <= r < n && 0 <= c < |slots| ==> Pos(r, c, |slots|) < Mul(n, |slots|)
    ensures forall r, c :: 0 <= r < n && 0 <= c < |slots| ==>
      Rounds(folder, slots, n)[Pos(r, c, |slots|)] == Shot(folder, c, slots[c], r)
  {
    RoundsLen(folder, slots, n);
    forall r, c | 0 <= r < n && 0 <= c < |slots|
      ensures Pos(r, c, |slots|) < Mul(n, |slots|)
      ensures Rounds(folder, slots, n)[Pos(r, c, |slots|)] == Shot(folder, c, slots[c], r)
    {
      RoundsAt(folder, slots, n, r, c);
    }
  }

  /** Every action of `n` rounds targets the folder, a camera of the table with its own
      slot, and a counter below `n`. */
  lemma {:induction false} RoundsMembers(folder: Path, slots: seq<Slot>, n: nat, i: nat)
    requires i < |Rounds(folder, slots, n)|
    ensures var s := Rounds(folder, slots, n)[i];
      s.folder == folder && s.cam < |slots| && s.slot == slots[s.cam] && s.counter < n
    decreases n
  {
    var prev := Rounds(folder, slots, n - 1);
    if i < |prev| {
      RoundsMembers(folder, slots, n - 1, i);
    } else {
      RoundAt(folder, slots, n - 1, i - |prev|);
    }
  }

  /** `capture_images(folder, 0)` does nothing; otherwise `n` rounds of the whole table. */
  lemma {:induction false} CaptureImagesShape(folder: Path, n: int, slots: seq<Slot>)
    ensures n <= 0 ==> CaptureImages(folder, n, slots) == []
    ensures |CaptureImages(folder, n, slots)| == Mul(NonNeg(n), |slots|)
    ensures forall r, c :: 0 <= r < n && 0 <= c < |slots| ==> Pos(r, c, |slots|) < Mul(NonNeg(n), |slots|)
    ensures forall r, c :: 0 <= r < n && 0 <= c < |slots| ==>
      CaptureImages(folder, n, slots)[Pos(r, c, |slots|)] == Shot(folder, c, slots[c], r)
  {
    if n > 0 {
      RoundsShape(folder, slots, n);
    }
  }

  /** The number of actions of `capture_images(folder, n)`. */
  lemma {:induction false} CaptureImagesLen(folder: Path, n: int, slots: seq<Slot>)
    ensures |CaptureImages(folder, n, slots)| == Mul(NonNeg(n), |slots|)
  {
    if n > 0 {
      RoundsLen(folder, slots, n);
    }
  }

  function GoodFolder(obj: string, split: string): Path { ObjectPath(obj) + [split, Good] }

  function AnomalyFolder(obj: string, anomaly: string): Path { AnomalyPath(obj, anomaly) }

  /** `capture_good_object`: train/good when `train_images` is not 0, then test/good when
      `test_anomaly_images` is not 0. */
  function CaptureGoodObject(obj: string, slots: seq<Slot>, train: int, test: int): seq<Shot>
  {
    (if train != 0 then CaptureImages(GoodFolder(obj, Train), train, slots) else [])
    + (if test != 0 then CaptureImages(GoodFolder(obj, Test), test, slots) else [])
  }

  /** `capture_images(folder, test)` for each folder in turn. */
  function FolderShots(folders: seq<Path>, slots: seq<Slot>, test: int): seq<Shot>
  {
    if folders == [] then []
    else CaptureImages(folders[0], test, slots) + FolderShots(folders[1..], slots, test)
  }

  /** The anomaly loop of `run`, in list order, with each raw anomaly name. */
  function AnomalyShots(obj: string, anomalies: seq<string>, slots: seq<Slot>, test: int): seq<Shot>
  {
    FolderShots(AnomalyPaths(obj, anomalies), slots, test)
  }

  /** The whole schedule of `run` for the warehouse's object and anomaly names. */
  function RunPlan(obj: string, anomalies: seq<string>, slots: seq<Slot>, train: int, test: int): seq<Shot>
  {
    CaptureGoodObject(obj, slots, train, test) + (if test != 0 then AnomalyShots(obj, anomalies, slots, test) else [])
  }

  lemma {:induction false} FolderShotsLen(folders: seq<Path>, slots: seq<Slot>, test: int)
    ensures |FolderShots(folders, slots, test)| == Mul(|folders|, Mul(NonNeg(test), |slots|))
    decreases |folders|
  {
    if folders != [] {
      CaptureImagesLen(folders[0], test, slots);
      FolderShotsLen(folders[1..], slots, test);
    }
  }

  lemma {:induction false} AnomalyShotsLen(obj: string, anomalies: seq<string>, slots: seq<Slot>, test: int)
    ensures |AnomalyShots(obj, anomalies, slots, test)| == Mul(|anomalies|, Mul(NonNeg(test), |slots|))
  {
    FolderShotsLen(AnomalyPaths(obj, anomalies), slots, test);
  }

  /** The block of folder `j`: positions `j·p` up to `(j + 1)·p`, `p` the length of one
      `capture_images(folder, test)`. */
  lemma {:induction false} FolderBlock(folders: seq<Path>, slots: seq<Slot>, test: int, j: nat)
    requires j < |folders|
    ensures var p := Mul(NonNeg(test), |slots|);
      Mul(j + 1, p) <= |FolderShots(folders, slots, test)|
    ensures var p := Mul(NonNeg(test), |slots|);
      FolderShots(folders, slots, test)[Mul(j, p)..Mul(j + 1, p)] == CaptureImages(folders[j], test, slots)
    decreases j
  {
    var p := Mul(NonNeg(test), |slots|);
    var first := CaptureImages(folders[0], test, slots);
    var rest := FolderShots(folders[1..], slots, test);
    CaptureImagesLen(folders[0], test, slots);
    assert FolderShots(folders, slots, test) == first + rest;
    if j == 0 {
      assert Mul(1, p) == p;
      assert (first + rest)[0..p] == first;
    } else {
      FolderBlock(folders[1..], slots, test, j - 1);
      assert folders[1..][j - 1] == folders[j];
      SliceAt(first, rest, Mul(j, p), Mul(j + 1, p), Mul(j - 1, p), Mul(j, p));
    }
  }

  /** The block of anomaly `j` is `capture_images` on that anomaly's folder. */
  lemma {:induction false} AnomalyBlock(obj: string, anomalies: seq<string>, slots: seq<Slot>, test: int, j: nat)
    requires j < |anomalies|
    ensures var p := Mul(NonNeg(test), |slots|);
      Mul(j + 1, p) <= |AnomalyShots(obj, anomalies, slots, test)|
    ensures var p := Mul(NonNeg(test), |slots|);
      AnomalyShots(obj, anomalies, slots, test)[Mul(j, p)..Mul(j + 1, p)] == CaptureImages(AnomalyFolder(obj, anomalies[j]), test, slots)
  {
    FolderBlock(AnomalyPaths(obj, anomalies), slots, test, j);
  }

  /** Where the anomaly loop of `run` starts: after the train/good and test/good blocks,
      with `k` cameras in a round. */
  function LoopStart(train: int, test: int, k: nat): nat
  {
    Mul(NonNeg(train), k) + Mul(NonNeg(test), k)
  }

  /** Where anomaly `j`'s block starts in the plan of `run`. */
  function BlockAt(train: int, test: int, k: nat, j: nat): nat
  {
    LoopStart(train, test, k) + Mul(j, Mul(NonNeg(test), k))
  }

  /** Where anomaly `j`'s block ends: where block `j + 1` would start. */
  function BlockEnd(train: int, test: int, k: nat, j: nat): (e: nat)
    ensures e == BlockAt(train, test, k, j + 1)
  {
    BlockAt(train, test, k, j) + Mul(NonNeg(test), k)
  }

  /** Anomaly `j`'s block of the plan. */
  lemma {:induction false} RunPlanBlock(obj: string, anomalies: seq<string>, slots: seq<Slot>, train: int, test: int, j: nat)
    requires j < |anomalies|
    ensures var plan := RunPlan(obj, anomalies, slots, train, test);
      && BlockAt(train, test, |slots|, j) <= BlockEnd(train, test, |slots|, j) <= |plan|
      && plan[BlockAt(train, test, |slots|, j)..BlockEnd(train, test, |slots|, j)]
         == CaptureImages(AnomalyFolder(obj, anomalies[j]), test, slots)
  {
    var p := Mul(NonNeg(test), |slots|);
    var a := CaptureImages(GoodFolder(obj, Train), train, slots);
    var b := CaptureImages(GoodFolder(obj, Test), test, slots);
    var rest := if test != 0 then AnomalyShots(obj, anomalies, slots, test) else [];
    var block := CaptureImages(AnomalyFolder(obj, anomalies[j]), test, slots);
    PlanSplit(obj, anomalies, slots, train, test);
    CaptureImagesLen(GoodFolder(obj, Train), train, slots);
    CaptureImagesLen(GoodFolder(obj, Test), test, slots);
    assert Mul(j + 1, p) <= |rest| && rest[Mul(j, p)..Mul(j + 1, p)] == block by {
      if test != 0 {
        AnomalyBlock(obj, anomalies, slots, test, j);
      } else {
        MulZero(j);
        MulZero(j + 1);
      }
    }
    SliceAt(a + b, rest, BlockAt(train, test, |slots|, j), BlockEnd(train, test, |slots|, j), Mul(j, p), Mul(j + 1, p));
  }

  /** The plan of `run` is train/good, test/good, then the anomaly loop, which is empty
      without test rounds. */
  lemma {:induction false} PlanSplit(obj: string, anomalies: seq<string>, slots: seq<Slot>, train: int, test: int)
    ensures var a := CaptureImages(GoodFolder(obj, Train), train, slots);
      var b := CaptureImages(GoodFolder(obj, Test), test, slots);
      RunPlan(obj, anomalies, slots, train, test)
        == (a + b) + (if test != 0 then AnomalyShots(obj, anomalies, slots, test) else [])
  {
  }

  /** The three parts of the plan and their lengths. */
  lemma {:induction false} RunPlanParts(obj: string, anomalies: seq<string>, slots: seq<Slot>, train: int, test: int)
    ensures var p := Mul(NonNeg(test), |slots|);
      var rest := if test != 0 then AnomalyShots(obj, anomalies, slots, test) else [];
      && RunPlan(obj, anomalies, slots, train, test)
         == CaptureImages(GoodFolder(obj, Train), train, slots) + CaptureImages(GoodFolder(obj, Test), test, slots) + rest
      && |CaptureImages(GoodFolder(obj, Train), train, slots)| == Mul(NonNeg(train), |slots|)
      && |CaptureImages(GoodFolder(obj, Test), test, slots)| == p
      && |rest| == Mul(|anomalies|, p)
  {
    PlanSplit(obj, anomalies, slots, train, test);
    CaptureImagesLen(GoodFolder(obj, Train), train, slots);
    CaptureImagesLen(GoodFolder(obj, Test), test, slots);
    AnomalyShotsLen(obj, anomalies, slots, test);
    if test == 0 {
      MulZero(|anomalies|);
    }
  }

  lemma {:induction false} Slice3<T>(a: seq<T>, b: seq<T>, c: seq<T>)
    ensures (a + b + c)[..|a|] == a
    ensures (a + b + c)[|a|..|a| + |b|] == b
  {
    assert (a + b + c)[..|a|] == a;
    assert (a + b + c)[|a|..|a| + |b|] == b;
  }

  /** A slice of the tail of a concatenation, at positions given from the start. */
  lemma {:induction false} SliceAt<T>(pre: seq<T>, s: seq<T>, lo: nat, hi: nat, i: nat, j: nat)
    requires i <= j <= |s| && lo == |pre| + i && hi == |pre| + j
    ensures hi <= |pre + s| && (pre + s)[lo..hi] == s[i..j]
  {
    assert (pre + s)[lo..hi] == s[i..j];
  }

  /** The order of `run`: first `train` rounds into train/good, then `test` rounds into
      test/good, then `test` rounds into each anomaly folder in list order; a zero count
      removes its blocks. */
  lemma {:induction false} RunPlanLayout(obj: string, anomalies: seq<string>, slots: seq<Slot>, train: int, test: int)
    ensures var plan := RunPlan(obj, anomalies, slots, train, test);
      var t := Mul(NonNeg(train), |slots|);
      && |plan| == BlockAt(train, test, |slots|, |anomalies|)
      && plan[..t] == CaptureImages(GoodFolder(obj, Train), train, slots)
      && plan[t..LoopStart(train, test, |slots|)] == CaptureImages(GoodFolder(obj, Test), test, slots)
      && forall j :: 0 <= j < |anomalies| ==>
           && BlockAt(train, test, |slots|, j) <= BlockEnd(train, test, |slots|, j) <= |plan|
           && plan[BlockAt(train, test, |slots|, j)..BlockEnd(train, test, |slots|, j)]
              == CaptureImages(AnomalyFolder(obj, anomalies[j]), test, slots)
  {
    var plan := RunPlan(obj, anomalies, slots, train, test);
    var a := CaptureImages(GoodFolder(obj, Train), train, slots);
    var b := CaptureImages(GoodFolder(obj, Test), test, slots);
    var rest := if test != 0 then AnomalyShots(obj, anomalies, slots, test) else [];
    RunPlanParts(obj, anomalies, slots, train, test);
    Slice3(a, b, rest);
    forall j | 0 <= j < |anomalies|
      ensures BlockAt(train, test, |slots|, j) <= BlockEnd(train, test, |slots|, j) <= |plan|
      ensures plan[BlockAt(train, test, |slots|, j)..BlockEnd(train, test, |slots|, j)]
              == CaptureImages(AnomalyFolder(obj, anomalies[j]), test, slots)
    {
      RunPlanBlock(obj, anomalies, slots, train, test, j);
    }
  }

  lemma {:induction false} MulZero(r: nat)
    ensures Mul(r, 0) == 0
  {
    if r > 0 {
      MulZero(r - 1);
    }
  }

  /** Every action of `capture_images(folder, n)` targets `folder`, a camera of the table
      with its own slot, and a counter below `n`. */
  lemma {:induction false} CaptureImagesMembers(folder: Path, n: int, slots: seq<Slot>, i: nat)
    requires i < |CaptureImages(folder, n, slots)|
    ensures var s := CaptureImages(folder, n, slots)[i];
      s.folder == folder && s.cam < |slots| && s.slot == slots[s.cam] && s.counter < n
  {
    RoundsMembers(folder, slots, NonNeg(n), i);
  }

  /** Where the actions of `run` go: train/good only when `train_images` is not 0; test/good
      and the raw anomaly folders only when `test_anomaly_images` is not 0. */
  lemma {:induction false} RunPlanFolders(obj: string, anomalies: seq<string>, slots: seq<Slot>, train: int, test: int, i: nat)
    requires i < |RunPlan(obj, anomalies, slots, train, test)|
    ensures var s := RunPlan(obj, anomalies, slots, train, test)[i];
      || (s.folder == GoodFolder(obj, Train) && 0 < train && s.counter < train)
      || (s.folder == GoodFolder(obj, Test) && 0 < test && s.counter < test)
      || (exists a :: a in anomalies && s.folder == AnomalyFolder(obj, a) && 0 < test && s.counter < test)
  {
    var a := if train != 0 then CaptureImages(GoodFolder(obj, Train), train, slots) else [];
    var b := if test != 0 then CaptureImages(GoodFolder(obj, Test), test, slots) else [];
    var rest := if test != 0 then AnomalyShots(obj, anomalies, slots, test) else [];
    assert RunPlan(obj, anomalies, slots, train, test) == a + b + rest;
    if i < |a| {
      CaptureImagesMembers(GoodFolder(obj, Train), train, slots, i);
    } else if i < |a| + |b| {
      CaptureImagesMembers(GoodFolder(obj, Test), test, slots, i - |a|);
    } else {
      AnomalyShotsMembers(obj, anomalies, slots, test, i - |a| - |b|);
    }
  }

  /** Every action of `run` is for a camera of the table, with the slot it holds. */
  lemma {:induction false} RunPlanSlots(obj: string, anomalies: seq<string>, slots: seq<Slot>, train: int, test: int, i: nat)
    requires i < |RunPlan(obj, anomalies, slots, train, test)|
    ensures var s := RunPlan(obj, anomalies, slots, train, test)[i];
      s.cam < |slots| && s.slot == slots[s.cam]
  {
    var a := if train != 0 then CaptureImages(GoodFolder(obj, Train), train, slots) else [];
    var b := if test != 0 then CaptureImages(GoodFolder(obj, Test), test, slots) else [];
    var rest := if test != 0 then AnomalyShots(obj, anomalies, slots, test) else [];
    var plan := RunPlan(obj, anomalies, slots, train, test);
    assert plan == a + b + rest;
    if i < |a| {
      assert plan[i] == a[i];
      CaptureImagesMembers(GoodFolder(obj, Train), train, slots, i);
    } else if i < |a| + |b| {
      assert plan[i] == b[i - |a|];
      CaptureImagesMembers(GoodFolder(obj, Test), test, slots, i - |a|);
    } else {
      assert plan[i] == rest[i - |a| - |b|];
      assert test != 0;
      AnomalyShotsSlots(obj, anomalies, slots, test, i - |a| - |b|);
    }
  }

  lemma {:induction false} FolderShotsSlots(folders: seq<Path>, slots: seq<Slot>, test: int, i: nat)
    requires i < |FolderShots(folders, slots, test)|
    ensures var s := FolderShots(folders, slots, test)[i];
      s.cam < |slots| && s.slot == slots[s.cam]
    decreases |folders|
  {
    var first := CaptureImages(folders[0], test, slots);
    if i < |first| {
      CaptureImagesMembers(folders[0], test, slots, i);
    } else {
      FolderShotsSlots(folders[1..], slots, test, i - |first|);
    }
  }

  lemma {:induction false} AnomalyShotsSlots(obj: string, anomalies: seq<string>, slots: seq<Slot>, test: int, i: nat)
    requires i < |AnomalyShots(obj, anomalies, slots, test)|
    ensures var s := AnomalyShots(obj, anomalies, slots, test)[i];
      s.cam < |slots| && s.slot == slots[s.cam]
  {
    FolderShotsSlots(AnomalyPaths(obj, anomalies), slots, test, i);
  }

  lemma {:induction false} FolderShotsMembers(folders: seq<Path>, slots: seq<Slot>, test: int, i: nat)
    requires i < |FolderShots(folders, slots, test)|
    ensures var s := FolderShots(folders, slots, test)[i];
      exists j :: 0 <= j < |folders| && s.folder == folders[j] && 0 < test && s.counter < test
    decreases |folders|
  {
    var first := CaptureImages(folders[0], test, slots);
    if i < |first| {
      CaptureImagesMembers(folders[0], test, slots, i);
    } else {
      FolderShotsMembers(folders[1..], slots, test, i - |first|);
      var s := FolderShots(folders[1..], slots, test)[i - |first|];
      var j :| 0 <= j < |folders[1..]| && s.folder == folders[1..][j] && 0 < test && s.counter < test;
      assert folders[1..][j] == folders[j + 1];
    }
  }

  lemma {:induction false} AnomalyShotsMembers(obj: string, anomalies: seq<string>, slots: seq<Slot>, test: int, i: nat)
    requires i < |AnomalyShots(obj, anomalies, slots, test)|
    ensures var s := AnomalyShots(obj, anomalies, slots, test)[i];
      exists a :: a in anomalies && s.folder == AnomalyFolder(obj, a) && 0 < test && s.counter < test
  {
    var folders := AnomalyPaths(obj, anomalies);
    FolderShotsMembers(folders, slots, test, i);
    var j :| 0 <= j < |folders| && AnomalyShots(obj, anomalies, slots, test)[i].folder == folders[j];
    assert anomalies[j] in anomalies;
  }

  // ---------------------------------------------------------------- one capture

  /** The file name of counter `n`: `f"{n:03d}.png"`. */
  function ImageName(counter: nat): string { Text.Pad3(counter) + ".png" }

  /** Different counters give different file names. */
  lemma {:induction false} ImageNameInjective(m: nat, n: nat)
    requires ImageName(m) == ImageName(n)
    ensures m == n
  {
    var a := ImageName(m);
    assert Text.Pad3(m) == a[..|a| - 4];
    assert Text.Pad3(n) == a[..|a| - 4];
    Text.Pad3Injective(m, n);
  }

  /** What one call of `capture_single_image` did. */
  datatype Outcome =
    | Skipped                          // slot None or "skip": nothing happens
    | Crashed(dir: Path)               // the folder was made, then `self.captures[cam]` raised
    | NoFrame(dir: Path)               // the folder was made, a read failed, nothing written
    | Saved(dir: Path, file: Path)     // the frame of the third read was written

  /** `capture_single_image` for camera index `shot.cam` with `numCaptures` opened devices:
      `frameOk(k)` says whether the `k`-th read of this call succeeds (two flush reads,
      then the frame). */
  function CaptureSingleImage(shot: Shot, numCaptures: nat, frameOk: nat -> bool): (o: Outcome)
    ensures o.Skipped? <==> !shot.slot.Angle?
    ensures o.Crashed? <==> shot.slot.Angle? && shot.cam >= numCaptures
    ensures o.Saved? <==> shot.slot.Angle? && shot.cam < numCaptures && frameOk(0) && frameOk(1) && frameOk(2)
    ensures !o.Skipped? ==> o.dir == shot.folder + [shot.slot.name]
    ensures o.Saved? ==> o.file == shot.folder + [shot.slot.name, ImageName(shot.counter)]
  {
    match shot.slot
    case Unset => Skipped
    case Skip => Skipped
    case Angle(name) =>
      var dir := shot.folder + [name];
      if shot.cam >= numCaptures then Crashed(dir)
      else if !frameOk(0) || !frameOk(1) || !frameOk(2) then NoFrame(dir)
      else Saved(dir, dir + [ImageName(shot.counter)])
  }

  /** Running the actions in order; an `IndexError` ends the run after its action. */
  function Execute(shots: seq<Shot>, numCaptures: nat, frameOk: (Shot, nat) -> bool): (r: seq<Outcome>)
    ensures |r| <= |shots|
    ensures forall k :: 0 <= k < |r| ==> r[k] == CaptureSingleImage(shots[k], numCaptures, (j: nat) => frameOk(shots[k], j))
    ensures forall k :: 0 <= k < |r| - 1 ==> !r[k].Crashed?
    ensures |r| < |shots| ==> |r| > 0 && r[|r| - 1].Crashed?
  {
    if shots == [] then []
    else
      var o := CaptureSingleImage(shots[0], numCaptures, (j: nat) => frameOk(shots[0], j));
      if o.Crashed? then [o] else [o] + Execute(shots[1..], numCaptures, frameOk)
  }

  /** When every camera that has an angle was opened, every action runs and none crashes. */
  lemma {:induction false} ExecuteCompletes(shots: seq<Shot>, numCaptures: nat, frameOk: (Shot, nat) -> bool)
    requires forall k :: 0 <= k < |shots| && shots[k].slot.Angle? ==> shots[k].cam < numCaptures
    ensures |Execute(shots, numCaptures, frameOk)| == |shots|
    ensures forall k :: 0 <= k < |shots| ==> !Execute(shots, numCaptures, frameOk)[k].Crashed?
    decreases |shots|
  {
    if shots != [] {
      ExecuteCompletes(shots[1..], numCaptures, frameOk);
    }
  }

  /** An action whose camera was never opened ends the run: the last outcome is a crash. */
  lemma {:induction false} ExecuteCrashes(shots: seq<Shot>, numCaptures: nat, frameOk: (Shot, nat) -> bool, k: nat)
    requires k < |shots| && shots[k].slot.Angle? && shots[k].cam >= numCaptures
    ensures var r := Execute(shots, numCaptures, frameOk);
      |r| <= k + 1 && r != [] && r[|r| - 1].Crashed?
    decreases k
  {
    var o := CaptureSingleImage(shots[0], numCaptures, (j: nat) => frameOk(shots[0], j));
    if k > 0 && !o.Crashed? {
      ExecuteCrashes(shots[1..], numCaptures, frameOk, k - 1);
    }
  }

  /** The outcome of `run`: the actions performed and the exception that ended it, if any. */
  datatype Run = Run(outcomes: seq<Outcome>, error: Option<PyError>)

  /** `run` with the loaded settings (`None` when no config file was found), the sorted
      table and the warehouse's names: without a config `initialize_cameras` finds no
      `num_cameras`; otherwise the plan runs until an action raises. */
  function RunCapture(config: Option<CameraSettings>, obj: string, anomalies: seq<string>, slots: seq<Slot>,
                      train: int, test: int, frameOk: (Shot, nat) -> bool): (r: Run)
    ensures config.None? ==> r == Run([], Some(AttributeError))
    ensures config.Some? ==> r.outcomes == Execute(RunPlan(obj, anomalies, slots, train, test), config.value.numCameras, frameOk)
    ensures r.error.Some? <==> config.None? || (r.outcomes != [] && r.outcomes[|r.outcomes| - 1].Crashed?)
  {
    if config.None? then Run([], Some(AttributeError))
    else
      var outs := Execute(RunPlan(obj, anomalies, slots, train, test), config.value.numCameras, frameOk);
      Run(outs, if outs != [] && outs[|outs| - 1].Crashed? then Some(IndexError) else None)
  }
}

=== FILE: filesystem.dfy ===
/** The file system as the set of directories that exist, how a path string formed with
    `os.path.join` resolves, and the create-if-absent directory creation every dataset
    builder of the project performs. */
module FileSystem {

  /** A path relative to the working directory, one string per directory level. The
      working directory itself (the empty path) always exists and is not recorded. */
  type Path = seq<string>

  /** The directories that exist, as non-empty paths. */
  type FS = set<Path>

  // ---------------------------------------------------------------- path strings

  /** `s.split('/')`: the pieces between separators, at least one. */
  function Split(s: string): (r: seq<string>)
    ensures |r| > 0
    ensures forall i :: 0 <= i < |r| ==> '/' !in r[i]
    decreases |s|
  {
    if s == [] then [[]]
    else
      var rest := Split(s[1..]);
      if s[0] == '/' then [[]] + rest
      else [[s[0]] + rest[0]] + rest[1..]
  }

  /** `'/'.join(pieces)`. */
  function JoinSlash(pieces: seq<string>): string
    requires |pieces| > 0
    decreases |pieces|
  {
    if |pieces| == 1 then pieces[0] else pieces[0] + "/" + JoinSlash(pieces[1..])
  }

  /** Joining the pieces with the separator gives the string back. */
  lemma {:induction false} SplitJoin(s: string)
    ensures JoinSlash(Split(s)) == s
    decreases |s|
  {
    if s != [] {
      var rest := Split(s[1..]);
      SplitJoin(s[1..]);
      assert s == [s[0]] + s[1..];
      if s[0] == '/' {
        assert ([[]] + rest)[1..] == rest;
      } else {
        var head := [s[0]] + rest[0];
        if |rest| > 1 {
          assert ([head] + rest[1..])[1..] == rest[1..];
        }
      }
    }
  }

  /** A string without a separator is a single piece. */
  lemma {:induction false} SplitPlain(s: string)
    requires '/' !in s
    ensures Split(s) == [s]
    decreases |s|
  {
    if s != [] {
      SplitPlain(s[1..]);
      assert s == [s[0]] + s[1..];
    }
  }

  /** The first separator ends the first piece. */
  lemma {:induction false} SplitFirst(a: string, t: string)
    requires '/' !in a
    ensures Split(a + "/" + t) == [a] + Split(t)
    decreases |a|
  {
    var s := a + "/" + t;
    if a == [] {
      assert s[1..] == t;
    } else {
      assert s[1..] == a[1..] + "/" + t;
      SplitFirst(a[1..], t);
      assert a == [a[0]] + a[1..];
    }
  }

  /** The pieces that name a directory level: empty pieces and `.` name none. */
  function Keep(pieces: seq<string>): (r: seq<string>)
    ensures |r| <= |pieces|
  {
    if pieces == [] then []
    else (if pieces[0] == "" || pieces[0] == "." then [] else [pieces[0]]) + Keep(pieces[1..])
  }

  /** Exactly the pieces other than "" and "." are kept. */
  lemma {:induction false} KeepMembers(pieces: seq<string>)
    ensures forall c :: c in Keep(pieces) <==> c in pieces && c != "" && c != "."
    decreases |pieces|
  {
    if pieces != [] {
      KeepMembers(pieces[1..]);
      assert pieces == [pieces[0]] + pieces[1..];
    }
  }

  /** A character other than the separator occurs in a string exactly when it occurs in
      one of its pieces. */
  lemma {:induction false} SplitChars(s: string, x: char)
    requires x != '/'
    ensures x in s <==> exists i :: 0 <= i < |Split(s)| && x in Split(s)[i]
    decreases |s|
  {
    if s != [] {
      var rest := Split(s[1..]);
      var r := Split(s);
      SplitChars(s[1..], x);
      assert s == [s[0]] + s[1..];
      if s[0] == '/' {
        assert r == [[]] + rest;
        if x in s {
          var i :| 0 <= i < |rest| && x in rest[i];
          assert r[i + 1] == rest[i];
        } else {
          forall i | 0 <= i < |r| ensures x !in r[i] {
            if i > 0 { assert r[i] == rest[i - 1]; }
          }
        }
      } else {
        var head := [s[0]] + rest[0];
        assert r == [head] + rest[1..];
        if x in s {
          if x != s[0] {
            var i :| 0 <= i < |rest| && x in rest[i];
            if i == 0 {
              assert x in head;
            } else {
              assert r[i] == rest[i];
            }
          }
          assert x in r[0] || exists i :: 0 <= i < |r| && x in r[i];
        } else {
          forall i | 0 <= i < |r| ensures x !in r[i] {
            if i > 0 { assert r[i] == rest[i]; }
            else { assert x !in rest[0]; }
          }
        }
      }
    }
  }

  /** A character other than the separator and the dot occurs in a name exactly when it
      occurs in one of the levels the name adds. */
  lemma {:induction false} ComponentChars(s: string, x: char)
    requires x != '/' && x != '.'
    ensures x in s <==> exists c :: c in Components(s) && x in c
  {
    var pieces := Split(s);
    SplitChars(s, x);
    KeepMembers(pieces);
    if x in s {
      var i :| 0 <= i < |pieces| && x in pieces[i];
      assert pieces[i] != "" && pieces[i] != ".";
      assert pieces[i] in Components(s);
    }
    forall c | c in Components(s) && x in c ensures x in s {
      assert c in pieces;
      var i :| 0 <= i < |pieces| && pieces[i] == c;
      assert x in Split(s)[i];
    }
  }

  /** The directory levels a relative name adds when it is joined onto a path. */
  function Components(name: string): seq<string>
  {
    Keep(Split(name))
  }

  /** `os.path.basename` of a path string that ends in `name`: its last piece. */
  function Leaf(name: string): (r: string)
    ensures '/' !in r
  {
    Split(name)[|Split(name)| - 1]
  }

  /** The last piece ends the joined string, right after a separator when it is not all
      of it. */
  lemma {:induction false} JoinSlashLast(pieces: seq<string>)
    requires |pieces| > 0
    ensures var j := JoinSlash(pieces); var l := pieces[|pieces| - 1];
      |l| <= |j| && j[|j| - |l|..] == l && (|l| < |j| ==> j[|j| - |l| - 1] == '/')
    decreases |pieces|
  {
    if |pieces| > 1 {
      var tail := pieces[1..];
      JoinSlashLast(tail);
      var j, t, l := JoinSlash(pieces), JoinSlash(tail), pieces[|pieces| - 1];
      var u := pieces[0] + "/";
      assert j == u + t;
      assert tail[|tail| - 1] == l;
      assert j[|j| - |l|..] == t[|t| - |l|..];
      if |l| < |t| {
        assert j[|j| - |l| - 1] == t[|t| - |l| - 1];
      } else {
        assert j[|j| - |l| - 1] == u[|u| - 1];
      }
    }
  }

  /** The basename is the text after the last separator: a suffix of the name, preceded by
      a separator unless it is the whole name. */
  lemma {:induction false} LeafSuffix(name: string)
    ensures |Leaf(name)| <= |name| && name[|name| - |Leaf(name)|..] == Leaf(name)
    ensures |Leaf(name)| < |name| ==> name[|name| - |Leaf(name)| - 1] == '/'
  {
    SplitJoin(name);
    JoinSlashLast(Split(name));
  }

  /** A name that is one ordinary directory level: non-empty, without a separator, and
      neither `.` nor `..`. */
  predicate PlainName(name: string)
  {
    name != "" && name != "." && name != ".." && '/' !in name
  }

  /** A plain name adds exactly itself and is its own basename. */
  lemma {:induction false} PlainComponents(name: string)
    requires PlainName(name)
    ensures Components(name) == [name] && Leaf(name) == name
  {
    SplitPlain(name);
    assert [name][1..] == [];
  }

  /** `os.path.join(p, "")` and `os.path.join(p, ".")` name `p` itself; their basenames
      are "" and ".". */
  lemma EmptyAndDot()
    ensures Components("") == [] && Leaf("") == ""
    ensures Components(".") == [] && Leaf(".") == "."
  {
    SplitPlain(".");
  }

  /** A name with a separator between two plain parts adds two levels, and its basename is
      the second part only. */
  lemma {:induction false} NestedComponents(a: string, b: string)
    requires PlainName(a) && PlainName(b)
    ensures Components(a + "/" + b) == [a, b] && Leaf(a + "/" + b) == b
  {
    SplitFirst(a, b);
    SplitPlain(b);
    assert Split(a + "/" + b) == [a, b];
    assert [b][1..] == [] && [a, b][1..] == [b];
    assert Keep([b]) == [b];
    assert Keep([a, b]) == [a] + Keep([b]);
  }

  /** The directory `os.path.join(p, name)` names, for a relative `name`. */
  function Join(p: Path, name: string): Path
  {
    p + Components(name)
  }

  // ---------------------------------------------------------------- directories

  function Parent(p: Path): Path
    requires |p| > 0
  {
    p[..|p| - 1]
  }

  /** Every directory `os.makedirs(p)` ensures: each non-empty prefix of `p`. */
  function Prefixes(p: Path): (r: set<Path>)
    ensures forall q :: q in r <==> 1 <= |q| <= |p| && q == p[..|q|]
  {
    set k | 1 <= k <= |p| :: p[..k]
  }

  /** A directory's ancestors exist whenever it does. */
  predicate PrefixClosed(fs: FS)
  {
    forall p, k :: p in fs && 1 <= k <= |p| ==> p[..k] in fs
  }

  /** `os.makedirs(p)` fails when a directory it would have to create is refused
      (`denied` holds the directories whose creation raises). */
  predicate Blocked(fs: FS, denied: set<Path>, p: Path)
  {
    exists k :: 1 <= k <= |p| && p[..k] !in fs && p[..k] in denied
  }

  /** A path is its own longest prefix. */
  lemma {:induction false} WholePrefix(q: Path)
    ensures q[..|q|] == q
  {
  }

  /** A prefix of `p` is `p` cut at its own length. */
  lemma {:induction false} PrefixAt(p: Path, q: Path)
    requires q in Prefixes(p)
    ensures q == p[..|q|]
  {
  }

  /** A path is blocked when one of its ancestors is. */
  lemma {:induction false} BlockedExtends(fs: FS, denied: set<Path>, p: Path, j: nat)
    requires j <= |p| && Blocked(fs, denied, p[..j])
    ensures Blocked(fs, denied, p)
  {
    var k :| 1 <= k <= j && p[..j][..k] !in fs && p[..j][..k] in denied;
    assert p[..j][..k] == p[..k];
  }

  /** `os.makedirs(p)`: creates the missing ancestors of `p` from the top down and then
      `p`, and raises at the first one refused; those created before it stay. The flag
      says whether it returned normally. */
  function MakeDirs(fs: FS, denied: set<Path>, p: Path): (r: (FS, bool))
    ensures r.1 <==> !Blocked(fs, denied, p)
    ensures fs <= r.0 <= fs + Prefixes(p) && r.0 * denied <= fs
    ensures forall k :: 1 <= k <= |p| ==> (p[..k] in r.0 <==> p[..k] in fs || !Blocked(fs, denied, p[..k]))
    ensures r.1 && |p| > 0 ==> p in r.0
    ensures PrefixClosed(fs) ==> PrefixClosed(r.0)
  {
    var grown := fs + set q | q in Prefixes(p) && !Blocked(fs, denied, q);
    assert grown * denied <= fs by {
      forall q | q in grown * denied ensures q in fs {
        WholePrefix(q);
      }
    }
    assert PrefixClosed(fs) ==> PrefixClosed(grown) by {
      if PrefixClosed(fs) {
        forall q, k | q in grown && 1 <= k <= |q| ensures q[..k] in grown {
          if q !in fs {
            assert q == p[..|q|] && q[..k] == p[..k];
            if Blocked(fs, denied, p[..k]) {
              BlockedExtends(fs, denied, q, k);
            }
          }
        }
      }
    }
    assert !Blocked(fs, denied, p) && |p| > 0 ==> p in grown by {
      assert p[..|p|] == p;
    }
    (grown, !Blocked(fs, denied, p))
  }

  /** When `p` itself is the only refused directory on its way, `os.makedirs(p)` raises
      after creating every missing ancestor. */
  lemma {:induction false} RefusedLeafKeepsAncestors(fs: FS, denied: set<Path>, p: Path)
    requires |p| > 0 && p !in fs && p in denied
    requires forall k :: 1 <= k < |p| ==> p[..k] in fs || p[..k] !in denied
    ensures MakeDirs(fs, denied, p) == (fs + (Prefixes(p) - {p}), false)
  {
    assert p[..|p|] == p;
    assert Blocked(fs, denied, p);
    var r := MakeDirs(fs, denied, p);
    assert p !in r.0;
    forall q | q in Prefixes(p) - {p} ensures q in r.0 {
      assert q == p[..|q|];
      assert !Blocked(fs, denied, q) by {
        forall j | 1 <= j <= |q| ensures q[..j] in fs || q[..j] !in denied {
          assert q[..j] == p[..j];
        }
      }
    }
    assert r.0 == fs + (Prefixes(p) - {p});
  }

  /** `create_directory(path)`, for a path string that names `dir` and whose
      `os.path.basename` is `name`: when `dir` is absent, `os.makedirs` it and record
      `name`; a refusal is reported and recorded nowhere, and the ancestors created before
      it stay; a present directory changes nothing. */
  function CreateDirectory(fs: FS, denied: set<Path>, dir: Path, name: string): (r: (FS, seq<string>))
    requires |dir| > 0
    ensures fs <= r.0 <= fs + Prefixes(dir) && r.0 * denied <= fs
    ensures dir in r.0 <==> dir in fs || !Blocked(fs, denied, dir)
    ensures r.1 == (if dir !in fs && dir in r.0 then [name] else [])
    ensures dir in fs ==> r.0 == fs
    ensures dir !in fs ==> forall k :: 1 <= k <= |dir| ==>
      (dir[..k] in r.0 <==> dir[..k] in fs || !Blocked(fs, denied, dir[..k]))
    ensures PrefixClosed(fs) ==> PrefixClosed(r.0)
  {
    if dir in fs then (fs, [])
    else
      var made := MakeDirs(fs, denied, dir);
      assert dir[..|dir|] == dir;
      (made.0, if made.1 then [name] else [])
  }

  /** Every prefix of every listed path. */
  function Reach(paths: seq<Path>): set<Path>
  {
    if paths == [] then {} else Prefixes(paths[0]) + Reach(paths[1..])
  }

  /** `q` is one of `paths` or an ancestor of one. */
  predicate Covers(paths: seq<Path>, q: Path)
  {
    exists i :: 0 <= i < |paths| && q in Prefixes(paths[i])
  }

  /** Everything a list of directories reaches is an ancestor of one of them, or one of
      them itself. */
  lemma {:induction false} ReachIndex(paths: seq<Path>, q: Path)
    requires q in Reach(paths)
    ensures Covers(paths, q)
    decreases |paths|
  {
    if q !in Prefixes(paths[0]) {
      ReachIndex(paths[1..], q);
      var i :| 0 <= i < |paths[1..]| && q in Prefixes(paths[1..][i]);
      assert paths[1..][i] == paths[i + 1];
    }
  }

  /** `create_directory` applied to each directory in turn, with the basename of its path
      string; the basenames recorded, in order. */
  function CreateAll(fs: FS, denied: set<Path>, paths: seq<Path>, names: seq<string>): (r: (FS, seq<string>))
    requires |names| == |paths|
    requires forall i :: 0 <= i < |paths| ==> |paths[i]| > 0
    ensures fs <= r.0 <= fs + Reach(paths) && r.0 * denied <= fs
    ensures |r.1| <= |paths|
    ensures PrefixClosed(fs) ==> PrefixClosed(r.0)
    decreases |paths|
  {
    if paths == [] then (fs, [])
    else
      var first := CreateDirectory(fs, denied, paths[0], names[0]);
      var rest := CreateAll(first.0, denied, paths[1..], names[1..]);
      (rest.0, first.1 + rest.1)
  }

  /** A refused, missing ancestor stays missing while only unrefused directories are added. */
  lemma {:induction false} BlockedPersists(fs: FS, fs': FS, denied: set<Path>, p: Path)
    requires Blocked(fs, denied, p)
    requires fs <= fs' && fs' * denied <= fs
    ensures Blocked(fs', denied, p)
  {
    var k :| 1 <= k <= |p| && p[..k] !in fs && p[..k] in denied;
    assert p[..k] !in fs';
  }

  /** A directory that exists, or for which every directory on the way exists or is
      refused: `create_directory` has nothing left to do for it. */
  predicate Settled(fs: FS, denied: set<Path>, q: Path)
  {
    q in fs || forall k :: 1 <= k <= |q| ==> q[..k] in fs || Blocked(fs, denied, q[..k])
  }

  /** Adding only unrefused directories keeps a directory settled. */
  lemma {:induction false} SettledPersists(fs: FS, fs': FS, denied: set<Path>, q: Path)
    requires Settled(fs, denied, q)
    requires fs <= fs' && fs' * denied <= fs
    ensures Settled(fs', denied, q)
  {
    if q !in fs {
      forall k | 1 <= k <= |q| ensures q[..k] in fs' || Blocked(fs', denied, q[..k]) {
        if q[..k] !in fs' {
          BlockedPersists(fs, fs', denied, q[..k]);
        }
      }
    }
  }

  /** Once `create_directory` has run for a directory, it is settled. */
  lemma {:induction false} CreateSettles(fs: FS, denied: set<Path>, q: Path, name: string)
    requires |q| > 0
    ensures Settled(CreateDirectory(fs, denied, q, name).0, denied, q)
  {
    var r := CreateDirectory(fs, denied, q, name).0;
    if q !in fs {
      forall k | 1 <= k <= |q| ensures q[..k] in r || Blocked(r, denied, q[..k]) {
        if q[..k] !in r {
          BlockedPersists(fs, r, denied, q[..k]);
        }
      }
    }
  }

  /** For a settled directory `create_directory` creates and records nothing. */
  lemma {:induction false} SettledStable(fs: FS, denied: set<Path>, q: Path, name: string)
    requires |q| > 0 && Settled(fs, denied, q)
    ensures CreateDirectory(fs, denied, q, name) == (fs, [])
  {
    var r := CreateDirectory(fs, denied, q, name).0;
    if q !in fs {
      WholePrefix(q);
      assert Blocked(fs, denied, q);
      forall p | p in r ensures p in fs {
        WholePrefix(p);
        if p !in fs {
          PrefixAt(q, p);
        }
      }
      assert r == fs;
    }
  }

  /** After one pass every listed directory is settled. */
  lemma {:induction false} CreateAllSettles(fs: FS, denied: set<Path>, paths: seq<Path>, names: seq<string>)
    requires |names| == |paths|
    requires forall i :: 0 <= i < |paths| ==> |paths[i]| > 0
    ensures var fs' := CreateAll(fs, denied, paths, names).0;
      forall i :: 0 <= i < |paths| ==> Settled(fs', denied, paths[i])
    decreases |paths|
  {
    if paths != [] {
      var first := CreateDirectory(fs, denied, paths[0], names[0]);
      var fs' := CreateAll(fs, denied, paths, names).0;
      CreateAllSettles(first.0, denied, paths[1..], names[1..]);
      assert fs' == CreateAll(first.0, denied, paths[1..], names[1..]).0;
      CreateSettles(fs, denied, paths[0], names[0]);
      SettledPersists(first.0, fs', denied, paths[0]);
      forall i | 1 <= i < |paths| ensures Settled(fs', denied, paths[i]) {
        assert paths[i] == paths[1..][i - 1];
      }
    }
  }

  /** When every listed directory is settled, a pass creates and records nothing. */
  lemma {:induction false} CreateAllStable(fs: FS, denied: set<Path>, paths: seq<Path>, names: seq<string>)
    requires |names| == |paths|
    requires forall i :: 0 <= i < |paths| ==> |paths[i]| > 0
    requires forall i :: 0 <= i < |paths| ==> Settled(fs, denied, paths[i])
    ensures CreateAll(fs, denied, paths, names) == (fs, [])
    decreases |paths|
  {
    if paths != [] {
      SettledStable(fs, denied, paths[0], names[0]);
      forall i | 0 <= i < |paths[1..]| ensures Settled(fs, denied, paths[1..][i]) {
        assert paths[1..][i] == paths[i + 1];
      }
      CreateAllStable(fs, denied, paths[1..], names[1..]);
    }
  }

  /** Running the same pass twice: the second creates and records nothing. */
  lemma {:induction false} CreateAllIdempotent(fs: FS, denied: set<Path>, paths: seq<Path>, names: seq<string>)
    requires |names| == |paths|
    requires forall i :: 0 <= i < |paths| ==> |paths[i]| > 0
    ensures var fs' := CreateAll(fs, denied, paths, names).0;
      CreateAll(fs', denied, paths, names) == (fs', [])
  {
    CreateAllSettles(fs, denied, paths, names);
    CreateAllStable(CreateAll(fs, denied, paths, names).0, denied, paths, names);
  }

  /** Each path's parent is the working directory, already exists, or comes earlier. */
  predicate ParentsFirst(fs: FS, paths: seq<Path>)
    requires forall i :: 0 <= i < |paths| ==> |paths[i]| > 0
  {
    forall i :: 0 <= i < |paths| ==>
      |paths[i]| == 1 || Parent(paths[i]) in fs || Parent(paths[i]) in paths[..i]
  }

  /** Creating one absent, unrefused directory whose parent exists adds exactly it. */
  lemma {:induction false} CreateOneFresh(fs: FS, denied: set<Path>, p: Path, name: string)
    requires PrefixClosed(fs)
    requires |p| > 0 && p !in fs && p !in denied
    requires |p| == 1 || Parent(p) in fs
    ensures CreateDirectory(fs, denied, p, name) == (fs + {p}, [name])
  {
    assert !Blocked(fs, denied, p) by {
      forall k | 1 <= k <= |p| ensures p[..k] in fs || p[..k] !in denied {
        if k < |p| {
          assert p[..k] == Parent(p)[..k];
        } else {
          assert p[..k] == p;
        }
      }
    }
    assert forall k :: 1 <= k < |p| ==> p[..k] in fs by {
      forall k | 1 <= k < |p| ensures p[..k] in fs {
        assert p[..k] == Parent(p)[..k];
      }
    }
    var r := CreateDirectory(fs, denied, p, name).0;
    forall q | q in r ensures q in fs + {p} {
      if q !in fs {
        assert q == p[..|q|];
      }
    }
    assert p in r;
    assert r == fs + {p};
  }

  /** Creating distinct, absent, unrefused directories whose parents come first creates
      exactly those directories and records every basename, in order. */
  lemma {:induction false} CreateAllFresh(fs: FS, denied: set<Path>, paths: seq<Path>, names: seq<string>)
    requires |names| == |paths|
    requires forall i :: 0 <= i < |paths| ==> |paths[i]| > 0
    requires PrefixClosed(fs)
    requires forall i :: 0 <= i < |paths| ==> paths[i] !in fs && paths[i] !in denied
    requires forall i, j :: 0 <= i < j < |paths| ==> paths[i] != paths[j]
    requires ParentsFirst(fs, paths)
    ensures CreateAll(fs, denied, paths, names).0 == fs + set i | 0 <= i < |paths| :: paths[i]
    ensures CreateAll(fs, denied, paths, names).1 == names
  {
    CreateAllFirstVisits(fs, denied, paths, names);
    FirstVisitsFresh(fs, paths, names);
  }

  /** The names a pass records when nothing is refused: one at the first visit of each
      directory missing before the pass, none at any later visit. */
  function FirstVisits(fs: FS, paths: seq<Path>, names: seq<string>): (r: seq<string>)
    requires |names| == |paths|
    ensures |r| <= |paths|
    decreases |paths|
  {
    if paths == [] then []
    else (if paths[0] in fs then [] else [names[0]]) + FirstVisits(fs + {paths[0]}, paths[1..], names[1..])
  }

  /** Without revisits or present directories every visit is a first visit. */
  lemma {:induction false} FirstVisitsFresh(fs: FS, paths: seq<Path>, names: seq<string>)
    requires |names| == |paths|
    requires forall i :: 0 <= i < |paths| ==> paths[i] !in fs
    requires forall i, j :: 0 <= i < j < |paths| ==> paths[i] != paths[j]
    ensures FirstVisits(fs, paths, names) == names
    decreases |paths|
  {
    if paths != [] {
      var tail := paths[1..];
      forall i | 0 <= i < |tail| ensures tail[i] !in fs + {paths[0]} {
        assert tail[i] == paths[i + 1];
      }
      forall i, j | 0 <= i < j < |tail| ensures tail[i] != tail[j] {
        assert tail[i] == paths[i + 1] && tail[j] == paths[j + 1];
      }
      FirstVisitsFresh(fs + {paths[0]}, tail, names[1..]);
      assert names == [names[0]] + names[1..];
    }
  }

  /** When parents come first and no listed directory is refused, a pass creates every
      listed directory and records a name exactly at each first visit of a missing one. */
  lemma {:induction false} CreateAllFirstVisits(fs: FS, denied: set<Path>, paths: seq<Path>, names: seq<string>)
    requires |names| == |paths|
    requires forall i :: 0 <= i < |paths| ==> |paths[i]| > 0
    requires PrefixClosed(fs)
    requires forall i :: 0 <= i < |paths| ==> paths[i] !in denied
    requires ParentsFirst(fs, paths)
    ensures CreateAll(fs, denied, paths, names).0 == fs + set i | 0 <= i < |paths| :: paths[i]
    ensures CreateAll(fs, denied, paths, names).1 == FirstVisits(fs, paths, names)
    decreases |paths|
  {
    if paths != [] {
      var p, tail := paths[0], paths[1..];
      assert paths[..0] == [];
      VisitOne(fs, denied, p, names[0]);
      ParentsFirstTail(fs, paths);
      forall i | 0 <= i < |tail| ensures tail[i] !in denied {
        assert tail[i] == paths[i + 1];
      }
      CreateAllFirstVisits(fs + {p}, denied, tail, names[1..]);
      IndexedCons(paths);
    }
  }

  /** Visiting an unrefused directory whose parent exists leaves it present, and records
      its name exactly when it was missing. */
  lemma {:induction false} VisitOne(fs: FS, denied: set<Path>, p: Path, name: string)
    requires PrefixClosed(fs)
    requires |p| > 0 && p !in denied
    requires |p| == 1 || Parent(p) in fs
    ensures CreateDirectory(fs, denied, p, name) == (fs + {p}, if p in fs then [] else [name])
    ensures PrefixClosed(fs + {p})
  {
    if p in fs {
      assert fs + {p} == fs;
    } else {
      CreateOneFresh(fs, denied, p, name);
    }
  }

  /** Once the first directory is present, the rest still have their parents first. */
  lemma {:induction false} ParentsFirstTail(fs: FS, paths: seq<Path>)
    requires |paths| > 0
    requires forall i :: 0 <= i < |paths| ==> |paths[i]| > 0
    requires ParentsFirst(fs, paths)
    ensures ParentsFirst(fs + {paths[0]}, paths[1..])
  {
    var p, tail := paths[0], paths[1..];
    forall i | 0 <= i < |tail|
      ensures |tail[i]| == 1 || Parent(tail[i]) in fs + {p} || Parent(tail[i]) in tail[..i]
    {
      assert tail[i] == paths[i + 1];
      assert paths[..i + 1] == [p] + tail[..i];
    }
  }

  /** The members of a non-empty sequence are its head and the members of its tail. */
  lemma {:induction false} IndexedCons(paths: seq<Path>)
    requires |paths| > 0
    ensures (set i | 0 <= i < |paths| :: paths[i]) == {paths[0]} + set i | 0 <= i < |paths[1..]| :: paths[1..][i]
  {
    var tail := paths[1..];
    forall i | 0 <= i < |paths| ensures paths[i] in {paths[0]} + set i | 0 <= i < |tail| :: tail[i] {
      if i > 0 { assert paths[i] == tail[i - 1]; }
    }
    forall i | 0 <= i < |tail| ensures tail[i] in set i | 0 <= i < |paths| :: paths[i] {
      assert tail[i] == paths[i + 1];
    }
  }

  /** Creating a path whose ancestors are all settled adds at most that path. */
  lemma {:induction false} CreateOneOnly(fs: FS, denied: set<Path>, p: Path, name: string)
    requires |p| > 0
    requires forall k :: 1 <= k < |p| ==> Settled(fs, denied, p[..k])
    ensures CreateDirectory(fs, denied, p, name).0 <= fs + {p}
  {
    var r := CreateDirectory(fs, denied, p, name).0;
    forall q | q in r ensures q in fs + {p} {
      WholePrefix(q);
      if q !in fs && q != p {
        PrefixAt(p, q);
      }
    }
  }

  /** Every proper ancestor of each path is settled or listed earlier. */
  predicate AncestorsSettled(fs: FS, denied: set<Path>, paths: seq<Path>)
  {
    forall i, k :: 0 <= i < |paths| && 1 <= k < |paths[i]| ==>
      Settled(fs, denied, paths[i][..k]) || paths[i][..k] in paths[..i]
  }

  /** When ancestors come first, a pass creates no directory outside its list:
      `os.makedirs` never has to create a missing ancestor on the way. */
  lemma {:induction false} CreateAllOnlyListed(fs: FS, denied: set<Path>, paths: seq<Path>, names: seq<string>)
    requires |names| == |paths|
    requires forall i :: 0 <= i < |paths| ==> |paths[i]| > 0
    requires AncestorsSettled(fs, denied, paths)
    ensures forall q :: q in CreateAll(fs, denied, paths, names).0 && q !in fs ==> q in paths
    decreases |paths|
  {
    if paths != [] {
      var p := paths[0];
      forall k | 1 <= k < |p| ensures Settled(fs, denied, p[..k]) {
        assert p[..k] !in paths[..0];
      }
      CreateOneOnly(fs, denied, p, names[0]);
      var fs1 := CreateDirectory(fs, denied, p, names[0]).0;
      var tail := paths[1..];
      CreateSettles(fs, denied, p, names[0]);
      forall i, k | 0 <= i < |tail| && 1 <= k < |tail[i]|
        ensures Settled(fs1, denied, tail[i][..k]) || tail[i][..k] in tail[..i]
      {
        assert tail[i] == paths[i + 1];
        assert paths[..i + 1] == [p] + tail[..i];
        var q := tail[i][..k];
        if q != p && q !in tail[..i] {
          SettledPersists(fs, fs1, denied, q);
        }
      }
      CreateAllOnlyListed(fs1, denied, tail, names[1..]);
      assert CreateAll(fs, denied, paths, names).0 == CreateAll(fs1, denied, tail, names[1..]).0;
    }
  }
}

=== FILE: imaging.dfy ===
/** Images as the augmentation code sees them: a grid of BGR pixels whose shape is
    `(height, width)`. Pixel arithmetic done by OpenCV is reduced to what the model needs:
    per-channel scaling, saturation and clipping on reals; geometric resampling is a
    foreign computation that only fixes the output's shape. */
module Imaging {

  /** One pixel in OpenCV's channel order. */
  datatype Pixel = Pixel(b: real, g: real, r: real)

  datatype Image = Image(rows: seq<seq<Pixel>>)

  function Height(img: Image): nat { |img.rows| }

  function Width(img: Image): nat { if img.rows == [] then 0 else |img.rows[0]| }

  /** `img.shape[:2]`. */
  function Shape(img: Image): (nat, nat) { (Height(img), Width(img)) }

  /** Every row has the image's width. */
  predicate Rectangular(img: Image)
  {
    forall i :: 0 <= i < |img.rows| ==> |img.rows[i]| == Width(img)
  }

  /** A reversed row. */
  function Reverse<T>(s: seq<T>): (r: seq<T>)
    ensures |r| == |s|
    ensures forall j :: 0 <= j < |s| ==> r[j] == s[|s| - 1 - j]
  {
    seq(|s|, j requires 0 <= j < |s| => s[|s| - 1 - j])
  }

  /** `cv2.flip(img, 1)`: each row mirrored left to right. */
  function Flip(img: Image): (r: Image)
    ensures |r.rows| == |img.rows|
    ensures forall i :: 0 <= i < |img.rows| ==> r.rows[i] == Reverse(img.rows[i])
  {
    Image(seq(|img.rows|, i requires 0 <= i < |img.rows| => Reverse(img.rows[i])))
  }

  /** Flipping keeps the shape of a rectangular image, and the pixel at column `j` comes
      from column `width - 1 - j`. */
  lemma {:induction false} FlipShape(img: Image)
    requires Rectangular(img)
    ensures Shape(Flip(img)) == Shape(img) && Rectangular(Flip(img))
    ensures forall i, j :: 0 <= i < Height(img) && 0 <= j < Width(img) ==>
      Flip(img).rows[i][j] == img.rows[i][Width(img) - 1 - j]
  {
  }

  /** Flipping twice gives the image back. */
  lemma {:induction false} FlipInvolution(img: Image)
    ensures Flip(Flip(img)) == img
  {
    var f := Flip(Flip(img));
    forall i | 0 <= i < |img.rows| ensures f.rows[i] == img.rows[i] {
      assert Reverse(Reverse(img.rows[i])) == img.rows[i];
    }
  }

  /** The same operation applied to every pixel. */
  function MapPixels(img: Image, f: Pixel -> Pixel): (r: Image)
    ensures |r.rows| == |img.rows|
    ensures forall i :: 0 <= i < |img.rows| ==> |r.rows[i]| == |img.rows[i]|
    ensures forall i, j :: 0 <= i < |img.rows| && 0 <= j < |img.rows[i]| ==> r.rows[i][j] == f(img.rows[i][j])
  {
    Image(seq(|img.rows|, i requires 0 <= i < |img.rows| =>
      seq(|img.rows[i]|, j requires 0 <= j < |img.rows[i]| => f(img.rows[i][j]))))
  }

  lemma {:induction false} MapPixelsShape(img: Image, f: Pixel -> Pixel)
    requires Rectangular(img)
    ensures Shape(MapPixels(img, f)) == Shape(img) && Rectangular(MapPixels(img, f))
  {
  }

  /** What a resampling operation of OpenCV produces at each output position. */
  datatype Op =
    | Rotate(angle: real)
    | Distort(m: Affine)
    | Blur(radius: real)

  /** A 2x3 affine matrix `[[a, b, c], [d, e, f]]`. */
  datatype Affine = Affine(a: real, b: real, c: real, d: real, e: real, f: real)

  /** `cv2.warpAffine(img, m, (width, height))` and `cv2.GaussianBlur(img, (0, 0), r)`:
      the output has the requested size, here the input's; its pixels are whatever the
      foreign computation `sample` gives. */
  function Resample(img: Image, op: Op, sample: (Image, Op, nat, nat) -> Pixel): (r: Image)
    ensures Shape(r) == Shape(img) && Rectangular(r)
  {
    var h := Height(img);
    var w := Width(img);
    var r := Image(seq(h, i requires 0 <= i < h => seq(w, j requires 0 <= j < w => sample(img, op, i, j))));
    assert h > 0 ==> |r.rows[0]| == w;
    r
  }

  /** `cv2.convertScaleAbs` without its rounding: the absolute value, saturated at 255. */
  function SaturateAbs(x: real): (y: real)
    ensures 0.0 <= y <= 255.0
    ensures y == x <==> 0.0 <= x <= 255.0
  {
    var a := if x < 0.0 then -x else x;
    if a > 255.0 then 255.0 else a
  }

  /** `np.clip(x, 0, 255)`. */
  function Clip(x: real): (y: real)
    ensures 0.0 <= y <= 255.0
    ensures y == x <==> 0.0 <= x <= 255.0
    ensures x < 0.0 ==> y == 0.0
    ensures x > 255.0 ==> y == 255.0
  {
    if x < 0.0 then 0.0 else if x > 255.0 then 255.0 else x
  }

  /** `cv2.split`, per-channel `convertScaleAbs` and `cv2.merge((b, g, r))`: each scale
      goes to its own channel. */
  function ScaleChannels(img: Image, sr: real, sg: real, sb: real): (out: Image)
  {
    MapPixels(img, (p: Pixel) => Pixel(SaturateAbs(sb * p.b), SaturateAbs(sg * p.g), SaturateAbs(sr * p.r)))
  }

  /** The channels are not swapped: a pixel's red value in the output depends only on its
      red value in the input, through the red scale, and so on. */
  lemma {:induction false} ScaleChannelsOwnChannel(img: Image, sr: real, sg: real, sb: real, i: nat, j: nat)
    requires i < |img.rows| && j < |img.rows[i]|
    ensures var q := ScaleChannels(img, sr, sg, sb).rows[i][j];
      var p := img.rows[i][j];
      q.r == SaturateAbs(sr * p.r) && q.g == SaturateAbs(sg * p.g) && q.b == SaturateAbs(sb * p.b)
  {
  }

  /** `img * f` on every channel. */
  function ScaleAll(img: Image, f: real): Image
  {
    MapPixels(img, (p: Pixel) => Pixel(f * p.b, f * p.g, f * p.r))
  }
}

=== FILE: json.dfy ===
/** JSON documents as Python's `json` module loads them: objects are insertion-ordered
    dictionaries. A configuration file is its top-level object, as a map from key to value. */
module Json {
  import opened Wrappers

  /** An insertion-ordered dictionary with string keys (a Python 3.7+ `dict`). */
  type Dict<V> = seq<(string, V)>

  datatype Value =
    | Int(i: int)
    | Str(s: string)
    | List(items: seq<Value>)
    | Object(fields: Dict<Value>)

  /** A file holding one JSON object; `None` where the file does not exist. */
  type File = map<string, Value>

  predicate HasKey<V>(d: Dict<V>, k: string) { exists i :: 0 <= i < |d| && d[i].0 == k }

  predicate UniqueKeys<V>(d: Dict<V>) { forall i, j :: 0 <= i < j < |d| ==> d[i].0 != d[j].0 }

  /** `d.get(k)`. */
  function Get<V>(d: Dict<V>, k: string): (r: Option<V>)
    ensures r.Some? <==> HasKey(d, k)
    ensures r.Some? ==> exists i :: 0 <= i < |d| && d[i] == (k, r.value)
  {
    if d == [] then None
    else if d[0].0 == k then Some(d[0].1)
    else
      var r := Get(d[1..], k);
      assert HasKey(d, k) <==> HasKey(d[1..], k) by {
        if HasKey(d[1..], k) {
          var i :| 0 <= i < |d[1..]| && d[1..][i].0 == k;
          assert d[i + 1].0 == k;
        }
        if HasKey(d, k) {
          var i :| 0 <= i < |d| && d[i].0 == k;
          assert i > 0 && d[1..][i - 1].0 == k;
        }
      }
      if r.Some? then
        assert exists i :: 0 <= i < |d| && d[i] == (k, r.value) by {
          var i :| 0 <= i < |d[1..]| && d[1..][i] == (k, r.value);
          assert d[i + 1] == (k, r.value);
        }
        r
      else r
  }

  /** `d[k] = v`: overwrites in place when `k` is present, appends otherwise. */
  function Put<V>(d: Dict<V>, k: string, v: V): (r: Dict<V>)
    ensures |r| == |d| || r == d + [(k, v)]
    ensures forall i :: 0 <= i < |d| ==> r[i].0 == d[i].0
    ensures Get(r, k) == Some(v)
    ensures forall k' :: k' != k ==> Get(r, k') == Get(d, k')
  {
    if d == [] then [(k, v)]
    else if d[0].0 == k then
      var r := [(k, v)] + d[1..];
      GetCons((k, v), d[1..], k);
      forall k' | k' != k ensures Get(r, k') == Get(d, k') {
        GetCons((k, v), d[1..], k');
        GetCons(d[0], d[1..], k');
      }
      r
    else
      var t := Put(d[1..], k, v);
      var r := [d[0]] + t;
      assert d == [d[0]] + d[1..];
      GetCons(d[0], t, k);
      forall k' | k' != k ensures Get(r, k') == Get(d, k') {
        GetCons(d[0], t, k');
        GetCons(d[0], d[1..], k');
      }
      r
  }

  lemma {:induction false} GetCons<V>(x: (string, V), t: Dict<V>, k: string)
    ensures Get([x] + t, k) == if x.0 == k then Some(x.1) else Get(t, k)
  {
    assert ([x] + t)[1..] == t;
  }

  /** Overwriting keeps the dictionary's size exactly when the key was present. */
  lemma {:induction false} PutSize<V>(d: Dict<V>, k: string, v: V)
    ensures HasKey(d, k) ==> |Put(d, k, v)| == |d|
    ensures !HasKey(d, k) ==> Put(d, k, v) == d + [(k, v)]
  {
    if d != [] && d[0].0 != k {
      PutSize(d[1..], k, v);
      assert HasKey(d, k) <==> HasKey(d[1..], k) by {
        if HasKey(d, k) {
          var i :| 0 <= i < |d| && d[i].0 == k;
          assert d[1..][i - 1].0 == k;
        }
        if HasKey(d[1..], k) {
          var i :| 0 <= i < |d[1..]| && d[1..][i].0 == k;
          assert d[i + 1].0 == k;
        }
      }
    }
  }

  /** Keys stay unique under `Put`. */
  lemma {:induction false} PutUnique<V>(d: Dict<V>, k: string, v: V)
    requires UniqueKeys(d)
    ensures UniqueKeys(Put(d, k, v))
  {
    var r := Put(d, k, v);
    PutSize(d, k, v);
    if !HasKey(d, k) {
      forall i, j | 0 <= i < j < |r| ensures r[i].0 != r[j].0 {
        if j == |d| {
          assert r[j].0 == k;
          assert d[i].0 != k;
        }
      }
    }
  }

  /** Python's `len()` of a loaded JSON value. */
  function Len(v: Value): (r: Result<nat>)
    ensures r.Raise? <==> v.Int?
  {
    match v
    case Int(_) => Raise(TypeError)
    case Str(s) => Ok(|s|)
    case List(items) => Ok(|items|)
    case Object(fields) => Ok(|fields|)
  }

  /** `k <= s` for some suffix of `s`: Python's substring test `k in s` on strings. */
  predicate Occurs(k: string, s: string)
    decreases |s|
  {
    k <= s || (s != [] && Occurs(k, s[1..]))
  }

  /** Python's `k in v` for a string `k` and a loaded JSON value: a substring test on a
      string, element equality on a list, a key test on an object; an integer is not
      iterable and raises TypeError. */
  function Contains(v: Value, k: string): (r: Result<bool>)
    ensures r.Raise? <==> v.Int?
    ensures r.Raise? ==> r.error == TypeError
    ensures v.Object? ==> r == Ok(HasKey(v.fields, k))
    ensures v.List? ==> r == Ok(Str(k) in v.items)
  {
    match v
    case Int(_) => Raise(TypeError)
    case Str(s) => Ok(Occurs(k, s))
    case List(items) => Ok(Str(k) in items)
    case Object(fields) => Ok(Get(fields, k).Some?)
  }

  /** `data.get(k, default)` on a top-level object. */
  function FileGet(data: File, k: string, default: Value): Value
  {
    if k in data then data[k] else default
  }

  /** The read-merge-write of `save_to_json`: load the file (an empty object when it is
      missing), replace the single top-level entry `key` and write everything back. */
  function MergeWrite(existing: Option<File>, key: string, v: Value): (r: File)
    ensures key in r && r[key] == v
    ensures existing.Some? ==> forall k :: k != key ==> (k in r <==> k in existing.value)
    ensures existing.Some? ==> forall k :: k != key && k in r ==> r[k] == existing.value[k]
    ensures existing.None? ==> r.Keys == {key}
  {
    var data := if existing.Some? then existing.value else map[];
    data[key := v]
  }

  /** `json.dump(d)` of a whole dictionary as the file's top-level object. */
  function ToFile(d: Dict<Value>): (r: File)
    ensures forall k :: k in r <==> HasKey(d, k)
    ensures forall k :: k in r ==> Get(d, k) == Some(r[k])
  {
    if d == [] then map[]
    else
      var rest := ToFile(d[1..]);
      forall k ensures Get(d, k) == if k == d[0].0 then Some(d[0].1) else Get(d[1..], k) {
        GetCons(d[0], d[1..], k);
        assert [d[0]] + d[1..] == d;
      }
      rest[d[0].0 := d[0].1]
  }
}

=== FILE: layout.dfy ===
/** The dataset tree every builder of the project lays out:
    `data_warehouse/dataset/<object>/{train/good, test/good, test/<anomaly>...}`. */
module Layout {
  import opened FileSystem

  const BaseDir := "data_warehouse"
  const DatasetDir := "dataset"
  const Train := "train"
  const Test := "test"
  const Good := "good"

  /** `clean_folder_name`: every space becomes an underscore, nothing else changes. */
  function CleanFolderName(name: string): (r: string)
    ensures |r| == |name|
    ensures forall i :: 0 <= i < |name| ==> r[i] == (if name[i] == ' ' then '_' else name[i])
  {
    if name == [] then []
    else [if name[0] == ' ' then '_' else name[0]] + CleanFolderName(name[1..])
  }

  /** A cleaned name holds no space. */
  lemma {:induction false} CleanHasNoSpace(name: string)
    ensures ' ' !in CleanFolderName(name)
  {
  }

  /** A name without spaces is already clean. */
  lemma {:induction false} CleanKeepsSpaceless(name: string)
    requires ' ' !in name
    ensures CleanFolderName(name) == name
  {
  }

  /** Cleaning twice is cleaning once. */
  lemma {:induction false} CleanIdempotent(name: string)
    ensures CleanFolderName(CleanFolderName(name)) == CleanFolderName(name)
  {
    CleanHasNoSpace(name);
    CleanKeepsSpaceless(CleanFolderName(name));
  }

  lemma CleanExample()
    ensures CleanFolderName("my folder") == "my_folder"
  {
    CleanedTo("my folder", "my_folder");
  }

  /** A name cleans to the string that has an underscore exactly where it has a space. */
  lemma {:induction false} CleanedTo(name: string, clean: string)
    requires |clean| == |name|
    requires forall i :: 0 <= i < |name| ==> clean[i] == (if name[i] == ' ' then '_' else name[i])
    ensures CleanFolderName(name) == clean
  {
  }

  function CleanAll(names: seq<string>): (r: seq<string>)
    ensures |r| == |names|
    ensures forall i :: 0 <= i < |names| ==> r[i] == CleanFolderName(names[i])
  {
    if names == [] then [] else [CleanFolderName(names[0])] + CleanAll(names[1..])
  }

  /** `os.path.join(<cwd>, "data_warehouse", "dataset", obj)`. */
  function ObjectPath(obj: string): Path
  {
    Join([BaseDir, DatasetDir], obj)
  }

  /** `os.path.join(<object>, "test", anomaly)`. */
  function AnomalyPath(obj: string, anomaly: string): Path
  {
    Join(ObjectPath(obj) + [Test], anomaly)
  }

  function AnomalyPaths(obj: string, anomalies: seq<string>): (r: seq<Path>)
    ensures |r| == |anomalies|
    ensures forall i :: 0 <= i < |anomalies| ==> r[i] == AnomalyPath(obj, anomalies[i])
  {
    if anomalies == [] then []
    else [AnomalyPath(obj, anomalies[0])] + AnomalyPaths(obj, anomalies[1..])
  }

  /** Every name is one ordinary directory level. */
  predicate AllPlain(names: seq<string>)
  {
    forall i :: 0 <= i < |names| ==> PlainName(names[i])
  }

  /** Directories `o/test/<name>`, one per name, in order. */
  predicate UnderTest(o: Path, dirs: seq<Path>, names: seq<string>)
  {
    |dirs| == |names| && forall i :: 0 <= i < |dirs| ==> dirs[i] == o + [Test, names[i]]
  }

  /** Plain anomaly names add one level each under `test`. */
  lemma {:induction false} PlainAnomalyDirs(obj: string, anomalies: seq<string>)
    requires AllPlain(anomalies)
    ensures UnderTest(ObjectPath(obj), AnomalyPaths(obj, anomalies), anomalies)
  {
    var dirs := AnomalyPaths(obj, anomalies);
    forall i | 0 <= i < |dirs| ensures dirs[i] == ObjectPath(obj) + [Test, anomalies[i]] {
      PlainComponents(anomalies[i]);
    }
  }

  /** With plain names the object directory is `dataset/<obj>` and each anomaly's
      directory `test/<anomaly>` under it, one level each. */
  lemma {:induction false} PlainLayout(obj: string, anomalies: seq<string>)
    requires PlainName(obj) && AllPlain(anomalies)
    ensures ObjectPath(obj) == [BaseDir, DatasetDir, obj]
    ensures UnderTest(ObjectPath(obj), AnomalyPaths(obj, anomalies), anomalies)
  {
    PlainComponents(obj);
    PlainAnomalyDirs(obj, anomalies);
  }

  /** The seven directories a build visits before any anomaly, for object directory `o`:
      base, dataset, the object, train, train/good, test, test/good. */
  function Fixed(o: Path): (r: seq<Path>)
    ensures |r| == 7
  {
    [[BaseDir], [BaseDir, DatasetDir], o, o + [Train], o + [Train, Good], o + [Test], o + [Test, Good]]
  }

  /** The directories a build ensures, in the order it visits them: the fixed ones, then
      test/<anomaly> in list order. */
  function BuildPaths(obj: string, anomalies: seq<string>): (r: seq<Path>)
    ensures |r| == 7 + |anomalies|
    ensures forall i :: 0 <= i < |r| ==> |r[i]| > 0
  {
    Fixed(ObjectPath(obj)) + AnomalyPaths(obj, anomalies)
  }

  /** The basenames of the path strings of `names`. */
  function Leaves(names: seq<string>): (r: seq<string>)
    ensures |r| == |names|
    ensures forall i :: 0 <= i < |names| ==> r[i] == Leaf(names[i])
  {
    if names == [] then [] else [Leaf(names[0])] + Leaves(names[1..])
  }

  /** The basename of each visited path string, in visiting order: what the build records
      for every directory it finds missing and creates. */
  function BuildNames(obj: string, anomalies: seq<string>): (r: seq<string>)
    ensures |r| == |BuildPaths(obj, anomalies)|
  {
    [BaseDir, DatasetDir, Leaf(obj), Train, Good, Test, Good] + Leaves(anomalies)
  }

  /** One build: `create_directory` on every directory of the tree, in visiting order, each
      recorded under its basename; the resulting file system and the names recorded. */
  function BuildPass(fs: FS, denied: set<Path>, obj: string, anomalies: seq<string>): (r: (FS, seq<string>))
    ensures fs <= r.0 <= fs + Reach(BuildPaths(obj, anomalies)) && r.0 * denied <= fs
    ensures |r.1| <= 7 + |anomalies|
    ensures PrefixClosed(fs) ==> PrefixClosed(r.0)
  {
    CreateAll(fs, denied, BuildPaths(obj, anomalies), BuildNames(obj, anomalies))
  }

  /** Building again over the result of a build changes nothing and records nothing. */
  lemma {:induction false} PassIdempotent(fs: FS, denied: set<Path>, obj: string, anomalies: seq<string>)
    ensures var fs' := BuildPass(fs, denied, obj, anomalies).0;
      BuildPass(fs', denied, obj, anomalies) == (fs', [])
  {
    CreateAllIdempotent(fs, denied, BuildPaths(obj, anomalies), BuildNames(obj, anomalies));
  }

  /** A build creates only directories of the tree and their ancestors; with one-level
      names only the tree's own directories. */
  lemma {:induction false} PassOnlyTree(fs: FS, denied: set<Path>, obj: string, anomalies: seq<string>)
    requires PrefixClosed(fs)
    ensures var ps := BuildPaths(obj, anomalies);
      var fs' := BuildPass(fs, denied, obj, anomalies).0;
      && (forall q :: q in fs' && q !in fs ==> Covers(ps, q))
      && (PlainName(obj) && AllPlain(anomalies) ==> forall q :: q in fs' && q !in fs ==> q in ps)
  {
    var ps := BuildPaths(obj, anomalies);
    var fs' := BuildPass(fs, denied, obj, anomalies).0;
    forall q | q in fs' && q !in fs ensures Covers(ps, q) {
      ReachIndex(ps, q);
    }
    if PlainName(obj) && AllPlain(anomalies) {
      BuildAncestorsFirst(fs, denied, obj, anomalies);
      CreateAllOnlyListed(fs, denied, ps, BuildNames(obj, anomalies));
    }
  }

  /** The part of a build that runs before the split directories: base, dataset and the
      object directory, each recorded under its basename when created. */
  function ObjectPass(fs: FS, denied: set<Path>, obj: string): (r: (FS, seq<string>))
    ensures fs <= r.0 <= fs + Prefixes(ObjectPath(obj)) && r.0 * denied <= fs
    ensures |r.1| <= 3
  {
    var o := ObjectPath(obj);
    ObjectReach(o);
    CreateAll(fs, denied, [[BaseDir], [BaseDir, DatasetDir], o], [BaseDir, DatasetDir, Leaf(obj)])
  }

  /** Base and dataset are ancestors of any directory under `dataset`. */
  lemma {:induction false} ObjectReach(o: Path)
    requires |o| >= 2 && o[..2] == [BaseDir, DatasetDir]
    ensures Reach([[BaseDir], [BaseDir, DatasetDir], o]) <= Prefixes(o)
  {
    var ps := [[BaseDir], [BaseDir, DatasetDir], o];
    forall q | q in Reach(ps) ensures q in Prefixes(o) {
      ReachIndex(ps, q);
      assert o[..1] == [BaseDir];
    }
  }

  /** On a file system without the tree and with a one-level object name, the first part
      of a build creates and records base, dataset and the object. */
  lemma {:induction false} ObjectPassFresh(fs: FS, denied: set<Path>, obj: string)
    requires PrefixClosed(fs) && Untouched(fs)
    requires forall p :: p in denied ==> |p| == 0 || p[0] != BaseDir
    requires PlainName(obj)
    ensures ObjectPass(fs, denied, obj)
         == (fs + {[BaseDir], [BaseDir, DatasetDir], [BaseDir, DatasetDir, obj]}, [BaseDir, DatasetDir, obj])
  {
    PlainComponents(obj);
    assert ObjectPath(obj) == [BaseDir, DatasetDir, obj];
    ThreeFresh(fs, denied, obj);
  }

  /** Base, dataset and one directory under it, all missing and unrefused, are created and
      recorded in order. */
  lemma {:induction false} ThreeFresh(fs: FS, denied: set<Path>, x: string)
    requires PrefixClosed(fs) && Untouched(fs)
    requires forall p :: p in denied ==> |p| == 0 || p[0] != BaseDir
    ensures CreateAll(fs, denied, [[BaseDir], [BaseDir, DatasetDir], [BaseDir, DatasetDir, x]], [BaseDir, DatasetDir, x])
         == (fs + {[BaseDir], [BaseDir, DatasetDir], [BaseDir, DatasetDir, x]}, [BaseDir, DatasetDir, x])
  {
    assert Parent([BaseDir, DatasetDir]) == [BaseDir] && Parent([BaseDir, DatasetDir, x]) == [BaseDir, DatasetDir];
    ChainFresh(fs, denied, [BaseDir], [BaseDir, DatasetDir], [BaseDir, DatasetDir, x], BaseDir, DatasetDir, x);
  }

  /** A top-level directory, a child and a grandchild, all missing and unrefused, are
      created and recorded in order. */
  lemma {:induction false} ChainFresh(fs: FS, denied: set<Path>, a: Path, b: Path, c: Path, na: string, nb: string, nc: string)
    requires PrefixClosed(fs)
    requires |a| == 1 && |b| == 2 && |c| == 3 && Parent(b) == a && Parent(c) == b
    requires a !in fs && b !in fs && c !in fs && a !in denied && b !in denied && c !in denied
    ensures CreateAll(fs, denied, [a, b, c], [na, nb, nc]) == (fs + {a, b, c}, [na, nb, nc])
  {
    var ps := [a, b, c];
    assert ParentsFirst(fs, ps) by {
      assert ps[..1][0] == a && ps[..2][1] == b;
    }
    CreateAllFresh(fs, denied, ps, [na, nb, nc]);
    var made := set i | 0 <= i < |ps| :: ps[i];
    assert made == {a, b, c} by {
      assert ps[0] in made && ps[1] in made && ps[2] in made;
      forall q | q in made ensures q in {a, b, c} {
        var i :| 0 <= i < |ps| && ps[i] == q;
      }
    }
  }

  /** After a build every directory of the tree exists or was refused on the way. */
  lemma {:induction false} PassSettles(fs: FS, denied: set<Path>, obj: string, anomalies: seq<string>)
    ensures var ps := BuildPaths(obj, anomalies);
      forall i :: 0 <= i < |ps| ==> Settled(BuildPass(fs, denied, obj, anomalies).0, denied, ps[i])
  {
    CreateAllSettles(fs, denied, BuildPaths(obj, anomalies), BuildNames(obj, anomalies));
  }

  /** No level of the path holds a space. */
  predicate Spaceless(p: Path)
  {
    forall k :: 0 <= k < |p| ==> ' ' !in p[k]
  }

  /** Joining a name without spaces onto a path without spaces adds no space. */
  lemma {:induction false} JoinSpaceless(p: Path, name: string)
    requires Spaceless(p) && ' ' !in name
    ensures Spaceless(Join(p, name))
  {
    var j := Join(p, name);
    forall k | 0 <= k < |j| ensures ' ' !in j[k] {
      if k >= |p| {
        ComponentChars(name, ' ');
        assert j[k] in Components(name);
      }
    }
  }

  /** Joining a name with a space adds a level with a space. */
  lemma {:induction false} JoinSpaced(p: Path, name: string)
    requires ' ' in name
    ensures !Spaceless(Join(p, name))
  {
    ComponentChars(name, ' ');
    var c :| c in Components(name) && ' ' in c;
    var i :| 0 <= i < |Components(name)| && Components(name)[i] == c;
    assert Join(p, name)[|p| + i] == c;
  }

  /** Built from names without spaces, no directory of the tree has a space at any level. */
  lemma {:induction false} TreeSpaceless(obj: string, anomalies: seq<string>)
    requires ' ' !in obj && forall i :: 0 <= i < |anomalies| ==> ' ' !in anomalies[i]
    ensures forall i :: 0 <= i < |BuildPaths(obj, anomalies)| ==> Spaceless(BuildPaths(obj, anomalies)[i])
  {
    var ps := BuildPaths(obj, anomalies);
    var o := ObjectPath(obj);
    assert Spaceless([BaseDir]) && Spaceless([BaseDir, DatasetDir]);
    JoinSpaceless([BaseDir, DatasetDir], obj);
    assert Spaceless(o + [Test]);
    forall i | 0 <= i < |ps| ensures Spaceless(ps[i]) {
      if i >= 7 {
        assert ps[i] == AnomalyPath(obj, anomalies[i - 7]);
        JoinSpaceless(o + [Test], anomalies[i - 7]);
      } else {
        assert Spaceless(Fixed(o)[i]);
      }
    }
  }

  /** A path with a space at some level is neither a directory of such a tree nor an
      ancestor of one. */
  lemma {:induction false} SpacedNotCovered(ps: seq<Path>, p: Path)
    requires forall i :: 0 <= i < |ps| ==> Spaceless(ps[i])
    requires !Spaceless(p)
    ensures !Covers(ps, p)
  {
  }

  /** Shape of the tree: above the object only base and dataset; below it `good` under
      both splits, and every other category only under `test`, one per anomaly. */
  lemma {:induction false} LayoutShape(obj: string, anomalies: seq<string>)
    ensures var ps := BuildPaths(obj, anomalies); var o := ObjectPath(obj);
      && o + [Train, Good] in ps
      && o + [Test, Good] in ps
      && (forall a :: a in anomalies ==> AnomalyPath(obj, a) in ps)
      && (forall p :: p in ps ==> InTree(obj, anomalies, p))
  {
    var ps := BuildPaths(obj, anomalies);
    assert ps[4] == ObjectPath(obj) + [Train, Good];
    assert ps[6] == ObjectPath(obj) + [Test, Good];
    TreeHoldsNames(obj, anomalies);
    TreeOnly(obj, anomalies);
  }

  /** `p` is one of the fixed directories of the tree or an anomaly's directory. */
  predicate InTree(obj: string, anomalies: seq<string>, p: Path)
  {
    var o := ObjectPath(obj);
    || p == [BaseDir] || p == [BaseDir, DatasetDir] || p == o
    || p == o + [Train] || p == o + [Test] || p == o + [Train, Good] || p == o + [Test, Good]
    || exists a :: a in anomalies && p == AnomalyPath(obj, a)
  }

  /** Every directory of the tree is one of the fixed ones or an anomaly's directory. */
  lemma {:induction false} TreeOnly(obj: string, anomalies: seq<string>)
    ensures forall p :: p in BuildPaths(obj, anomalies) ==> InTree(obj, anomalies, p)
  {
    var ps := BuildPaths(obj, anomalies);
    forall i | 0 <= i < |ps| ensures InTree(obj, anomalies, ps[i]) {
      TreeAt(obj, anomalies, i);
    }
  }

  /** The directory visited `i`-th is one of the tree's. */
  lemma {:induction false} TreeAt(obj: string, anomalies: seq<string>, i: nat)
    requires i < |BuildPaths(obj, anomalies)|
    ensures InTree(obj, anomalies, BuildPaths(obj, anomalies)[i])
  {
    var o := ObjectPath(obj);
    var ps := Fixed(o) + AnomalyPaths(obj, anomalies);
    if i < 7 {
      assert ps[i] == Fixed(o)[i];
    } else {
      var a := anomalies[i - 7];
      assert ps[i] == AnomalyPath(obj, a);
      assert a in anomalies;
    }
  }

  /** With plain names the tree is exactly the seven fixed directories under
      `dataset/<obj>` and `test/<a>` for each anomaly `a`. */
  lemma {:induction false} PlainTreeShape(obj: string, anomalies: seq<string>)
    requires PlainName(obj) && AllPlain(anomalies)
    ensures forall q :: q in BuildPaths(obj, anomalies) <==>
      q in Fixed([BaseDir, DatasetDir, obj]) || exists a :: a in anomalies && q == [BaseDir, DatasetDir, obj, Test, a]
  {
    var o := [BaseDir, DatasetDir, obj];
    var dirs := AnomalyPaths(obj, anomalies);
    PlainLayout(obj, anomalies);
    assert BuildPaths(obj, anomalies) == Fixed(o) + dirs;
    forall q | q in dirs ensures exists a :: a in anomalies && q == [BaseDir, DatasetDir, obj, Test, a] {
      var i :| 0 <= i < |dirs| && dirs[i] == q;
      assert anomalies[i] in anomalies && q == o + [Test, anomalies[i]];
    }
    forall a | a in anomalies ensures [BaseDir, DatasetDir, obj, Test, a] in dirs {
      var i :| 0 <= i < |anomalies| && anomalies[i] == a;
      assert dirs[i] == o + [Test, a] == [BaseDir, DatasetDir, obj, Test, a];
    }
    forall q ensures q in Fixed(o) + dirs <==> q in Fixed(o) || q in dirs {
    }
  }

  /** No directory of the tree exists yet. */
  predicate Untouched(fs: FS)
  {
    forall p :: p in fs && |p| > 0 ==> p[0] != BaseDir
  }

  /** Under an object directory `dataset/<x>`, every proper ancestor of a visited
      directory is visited before it; in particular each parent is. */
  lemma {:induction false} TreeAncestorsFirst(fs: FS, denied: set<Path>, x: string, dirs: seq<Path>, names: seq<string>)
    requires UnderTest([BaseDir, DatasetDir, x], dirs, names)
    ensures AncestorsSettled(fs, denied, Fixed([BaseDir, DatasetDir, x]) + dirs)
    ensures ParentsFirst(fs, Fixed([BaseDir, DatasetDir, x]) + dirs)
  {
    var o := [BaseDir, DatasetDir, x];
    var ps := Fixed(o) + dirs;
    forall i | 7 <= i < |ps| ensures ps[i] == o + [Test, names[i - 7]] {
      assert ps[i] == dirs[i - 7];
    }
    forall i, k | 0 <= i < |ps| && 1 <= k < |ps[i]|
      ensures Settled(fs, denied, ps[i][..k]) || ps[i][..k] in ps[..i]
    {
      var m := if k <= 3 || i <= 4 then k - 1 else 5;
      assert ps[i][..k] == ps[m];
      assert ps[..i][m] == ps[m];
    }
    forall i | 0 <= i < |ps|
      ensures |ps[i]| == 1 || Parent(ps[i]) in fs || Parent(ps[i]) in ps[..i]
    {
      if i > 0 {
        var m := if i <= 3 then i - 1 else if i == 4 then 3 else if i == 5 then 2 else 5;
        assert Parent(ps[i]) == ps[m];
        assert ps[..i][m] == ps[m];
      }
    }
  }

  /** With plain names every proper ancestor of a visited directory is visited before it;
      in particular each parent is. */
  lemma {:induction false} BuildAncestorsFirst(fs: FS, denied: set<Path>, obj: string, anomalies: seq<string>)
    requires PlainName(obj) && AllPlain(anomalies)
    ensures AncestorsSettled(fs, denied, BuildPaths(obj, anomalies))
    ensures ParentsFirst(fs, BuildPaths(obj, anomalies))
  {
    PlainLayout(obj, anomalies);
    TreeAncestorsFirst(fs, denied, obj, AnomalyPaths(obj, anomalies), anomalies);
  }

  /** On an untouched file system, with plain and distinct anomaly names none of which
      is `good` and a plain object name, the tree's paths are distinct and all absent. */
  lemma {:induction false} BuildPathsFresh(fs: FS, obj: string, anomalies: seq<string>)
    requires Untouched(fs)
    requires PlainName(obj) && AllPlain(anomalies)
    requires forall i, j :: 0 <= i < j < |anomalies| ==> anomalies[i] != anomalies[j]
    requires Good !in anomalies
    ensures var ps := BuildPaths(obj, anomalies);
      && (forall i :: 0 <= i < |ps| ==> ps[i] !in fs)
      && (forall i, j :: 0 <= i < j < |ps| ==> ps[i] != ps[j])
  {
    var ps := BuildPaths(obj, anomalies);
    BuildPathsUnderBase(obj, anomalies);
    forall i | 0 <= i < |ps| ensures ps[i] !in fs {
      assert |ps[i]| > 0 && ps[i][0] == BaseDir;
    }
    BuildPathsDistinct(obj, anomalies);
  }

  /** With a plain object name and plain, distinct anomaly names none of which is `good`,
      the tree's paths are distinct. */
  lemma {:induction false} BuildPathsDistinct(obj: string, anomalies: seq<string>)
    requires PlainName(obj) && AllPlain(anomalies)
    requires forall i, j :: 0 <= i < j < |anomalies| ==> anomalies[i] != anomalies[j]
    requires Good !in anomalies
    ensures var ps := BuildPaths(obj, anomalies);
      forall i, j :: 0 <= i < j < |ps| ==> ps[i] != ps[j]
  {
    PlainLayout(obj, anomalies);
    TreeDistinct(ObjectPath(obj), AnomalyPaths(obj, anomalies), anomalies);
  }

  /** Pairwise distinct elements. */
  predicate Distinct<T(==)>(s: seq<T>)
  {
    forall i, j :: 0 <= i < j < |s| ==> s[i] != s[j]
  }

  /** Two distinct sequences with no element in common make a distinct sequence. */
  lemma {:induction false} DistinctAppend<T>(a: seq<T>, b: seq<T>)
    requires Distinct(a) && Distinct(b)
    requires forall i, j :: 0 <= i < |a| && 0 <= j < |b| ==> a[i] != b[j]
    ensures Distinct(a + b)
  {
    var ab := a + b;
    forall i, j | 0 <= i < j < |ab| ensures ab[i] != ab[j] {
      if j < |a| {
        assert ab[i] == a[i] && ab[j] == a[j];
      } else if i < |a| {
        assert ab[i] == a[i] && ab[j] == b[j - |a|];
      } else {
        assert ab[i] == b[i - |a|] && ab[j] == b[j - |a|];
      }
    }
  }

  /** The four split directories under any object are distinct. */
  lemma {:induction false} SplitsDistinct(o: Path)
    ensures Distinct(Fixed(o)[3..])
  {
    var sp := Fixed(o)[3..];
    assert sp == [o + [Train], o + [Train, Good], o + [Test], o + [Test, Good]];
    forall i, j | 0 <= i < j < 4 ensures sp[i] != sp[j] {
      if |sp[i]| == |sp[j]| {
        assert sp[i][|o|] != sp[j][|o|];
      }
    }
  }

  /** With a three-level object directory all seven fixed directories are distinct. */
  lemma {:induction false} FixedDistinct(o: Path)
    requires |o| == 3
    ensures Distinct(Fixed(o))
  {
    var f := Fixed(o);
    SplitsDistinct(o);
    forall i, j | 0 <= i < j < 7 ensures f[i] != f[j] {
      if j >= 3 && i >= 3 {
        assert f[i] == f[3..][i - 3] && f[j] == f[3..][j - 3];
      } else {
        assert |f[i]| < |f[j]|;
      }
    }
  }

  /** Distinct names make distinct directories under `test`. */
  lemma {:induction false} DirsDistinct(o: Path, dirs: seq<Path>, names: seq<string>)
    requires UnderTest(o, dirs, names) && Distinct(names)
    ensures Distinct(dirs)
  {
    forall i, j | 0 <= i < j < |dirs| ensures dirs[i] != dirs[j] {
      assert dirs[i][|o| + 1] == names[i] && dirs[j][|o| + 1] == names[j];
    }
  }

  /** No directory `test/<name>` with a name other than `good` is a split directory. */
  lemma {:induction false} SplitsNotDirs(o: Path, dirs: seq<Path>, names: seq<string>)
    requires UnderTest(o, dirs, names) && Good !in names
    ensures forall i, j :: 3 <= i < 7 && 0 <= j < |dirs| ==> Fixed(o)[i] != dirs[j]
  {
    var f := Fixed(o);
    forall i, j | 3 <= i < 7 && 0 <= j < |dirs| ensures f[i] != dirs[j] {
      assert dirs[j][|o| + 1] == names[j] && names[j] in names;
      if |f[i]| == |dirs[j]| {
        assert f[i][|o|] != dirs[j][|o|] || f[i][|o| + 1] != dirs[j][|o| + 1];
      }
    }
  }

  /** Below the object, the split directories and the anomalies' directories are
      pairwise distinct. */
  lemma {:induction false} SubtreeDistinct(o: Path, dirs: seq<Path>, names: seq<string>)
    requires UnderTest(o, dirs, names) && Distinct(names) && Good !in names
    ensures Distinct(Fixed(o)[3..] + dirs)
  {
    var f := Fixed(o);
    SplitsDistinct(o);
    DirsDistinct(o, dirs, names);
    SplitsNotDirs(o, dirs, names);
    forall i, j | 0 <= i < 4 && 0 <= j < |dirs| ensures f[3..][i] != dirs[j] {
      assert f[3..][i] == f[i + 3];
    }
    DistinctAppend(f[3..], dirs);
  }

  /** With a three-level object directory the whole tree is pairwise distinct. */
  lemma {:induction false} TreeDistinct(o: Path, dirs: seq<Path>, names: seq<string>)
    requires |o| == 3
    requires UnderTest(o, dirs, names) && Distinct(names) && Good !in names
    ensures Distinct(Fixed(o) + dirs)
  {
    var f := Fixed(o);
    FixedDistinct(o);
    DirsDistinct(o, dirs, names);
    SplitsNotDirs(o, dirs, names);
    forall i, j | 0 <= i < 3 && 0 <= j < |dirs| ensures f[i] != dirs[j] {
      assert |f[i]| <= 3 < |dirs[j]|;
    }
    DistinctAppend(f, dirs);
  }

  /** Plain names are their own basenames. */
  lemma {:induction false} PlainLeaves(names: seq<string>)
    requires AllPlain(names)
    ensures Leaves(names) == names
  {
    var ls := Leaves(names);
    forall i | 0 <= i < |names| ensures ls[i] == names[i] {
      PlainComponents(names[i]);
    }
  }

  /** With plain names the recorded basenames are base, dataset, the object, train, good,
      test, good, then the anomalies themselves. */
  lemma {:induction false} BuildBasenames(obj: string, anomalies: seq<string>)
    requires PlainName(obj) && AllPlain(anomalies)
    ensures BuildNames(obj, anomalies) == [BaseDir, DatasetDir, obj, Train, Good, Test, Good] + anomalies
  {
    PlainComponents(obj);
    PlainLeaves(anomalies);
  }

  /** No path of the tree starts outside the base directory. */
  lemma {:induction false} BuildPathsUnderBase(obj: string, anomalies: seq<string>)
    ensures forall i :: 0 <= i < |BuildPaths(obj, anomalies)| ==> BuildPaths(obj, anomalies)[i][0] == BaseDir
  {
    var ps := BuildPaths(obj, anomalies);
    forall i | 0 <= i < |ps| ensures ps[i][0] == BaseDir {
      if i >= 7 { assert ps[i] == AnomalyPaths(obj, anomalies)[i - 7]; }
    }
  }

  /** On an untouched file system, with plain names, distinct anomalies none of which is
      `good` and no refused directory inside the tree, one pass creates exactly the tree
      and records base, dataset, object, train, good, test, good and then each anomaly. */
  lemma {:induction false} FreshPass(fs: FS, denied: set<Path>, obj: string, anomalies: seq<string>)
    requires PrefixClosed(fs) && Untouched(fs)
    requires forall p :: p in denied ==> |p| == 0 || p[0] != BaseDir
    requires PlainName(obj) && AllPlain(anomalies)
    requires forall i, j :: 0 <= i < j < |anomalies| ==> anomalies[i] != anomalies[j]
    requires Good !in anomalies
    ensures BuildPass(fs, denied, obj, anomalies)
         == (fs + (set p | p in BuildPaths(obj, anomalies)),
             [BaseDir, DatasetDir, obj, Train, Good, Test, Good] + anomalies)
  {
    var ps := BuildPaths(obj, anomalies);
    var ns := BuildNames(obj, anomalies);
    var r := CreateAll(fs, denied, ps, ns);
    assert r.0 == fs + (set i | 0 <= i < |ps| :: ps[i]) && r.1 == ns by {
      BuildPathsFresh(fs, obj, anomalies);
      BuildAncestorsFirst(fs, denied, obj, anomalies);
      BuildPathsUnderBase(obj, anomalies);
      CreateAllFresh(fs, denied, ps, ns);
    }
    IndexedSet(ps);
    BuildBasenames(obj, anomalies);
  }

  /** After a fresh build with plain names the object's directory and each anomaly's
      directory under `test` exist. */
  lemma {:induction false} FreshTreeExists(fs: FS, denied: set<Path>, obj: string, anomalies: seq<string>)
    requires PrefixClosed(fs) && Untouched(fs)
    requires forall p :: p in denied ==> |p| == 0 || p[0] != BaseDir
    requires PlainName(obj) && AllPlain(anomalies)
    requires forall i, j :: 0 <= i < j < |anomalies| ==> anomalies[i] != anomalies[j]
    requires Good !in anomalies
    ensures var fs' := BuildPass(fs, denied, obj, anomalies).0;
      && ObjectPath(obj) in fs'
      && forall a :: a in anomalies ==> ObjectPath(obj) + [Test, a] in fs'
  {
    var ps := BuildPaths(obj, anomalies);
    var fs' := BuildPass(fs, denied, obj, anomalies).0;
    assert forall q :: q in ps ==> q in fs' by {
      FreshPass(fs, denied, obj, anomalies);
    }
    assert ObjectPath(obj) in ps by {
      TreeHoldsNames(obj, anomalies);
    }
    assert forall a :: a in anomalies ==> AnomalyPath(obj, a) in ps by {
      TreeHoldsNames(obj, anomalies);
    }
    forall a | a in anomalies ensures ObjectPath(obj) + [Test, a] in ps {
      var i :| 0 <= i < |anomalies| && anomalies[i] == a;
      PlainAnomaly(obj, a);
    }
  }

  /** A one-level anomaly name is one directory under `test`. */
  lemma {:induction false} PlainAnomaly(obj: string, a: string)
    requires PlainName(a)
    ensures AnomalyPath(obj, a) == ObjectPath(obj) + [Test, a]
  {
    PlainComponents(a);
  }

  /** `os.path.join(dataset, "")` names the dataset directory itself, which exists by the
      time the object is visited: with an empty object name a fresh build puts train, test
      and the anomalies directly under `dataset` and records six names before the
      anomalies, not seven. */
  lemma {:induction false} EmptyObjectPass(fs: FS, denied: set<Path>, anomalies: seq<string>)
    requires PrefixClosed(fs) && Untouched(fs)
    requires forall p :: p in denied ==> |p| == 0 || p[0] != BaseDir
    requires AllPlain(anomalies)
    requires forall i, j :: 0 <= i < j < |anomalies| ==> anomalies[i] != anomalies[j]
    requires Good !in anomalies
    ensures ObjectPath("") == [BaseDir, DatasetDir]
    ensures BuildPass(fs, denied, "", anomalies)
         == (fs + (set p | p in BuildPaths("", anomalies)),
             [BaseDir, DatasetDir, Train, Good, Test, Good] + anomalies)
  {
    EmptyAndDot();
    LevellessObjectPass(fs, denied, "", anomalies);
  }

  /** An object name that adds no level (such as "" or ".") makes the object directory
      `dataset` itself, visited a second time: a fresh build records the six names base,
      dataset, train, good, test, good and then the anomalies. */
  lemma {:induction false} LevellessObjectPass(fs: FS, denied: set<Path>, obj: string, anomalies: seq<string>)
    requires PrefixClosed(fs) && Untouched(fs)
    requires forall p :: p in denied ==> |p| == 0 || p[0] != BaseDir
    requires Components(obj) == [] && AllPlain(anomalies)
    requires forall i, j :: 0 <= i < j < |anomalies| ==> anomalies[i] != anomalies[j]
    requires Good !in anomalies
    ensures ObjectPath(obj) == [BaseDir, DatasetDir]
    ensures BuildPass(fs, denied, obj, anomalies)
         == (fs + (set p | p in BuildPaths(obj, anomalies)),
             [BaseDir, DatasetDir, Train, Good, Test, Good] + anomalies)
  {
    var ps, ns := BuildPaths(obj, anomalies), BuildNames(obj, anomalies);
    assert ObjectPath(obj) == [BaseDir, DatasetDir];
    assert ParentsFirst(fs, ps) by {
      var dirs := AnomalyPaths(obj, anomalies);
      assert ps == Fixed([BaseDir, DatasetDir]) + dirs;
      PlainAnomalyDirs(obj, anomalies);
      LevellessParentsFirst(fs, dirs, anomalies);
    }
    assert forall i :: 0 <= i < |ps| ==> |ps[i]| > 0 && ps[i] !in denied by {
      BuildPathsUnderBase(obj, anomalies);
      forall i | 0 <= i < |ps| ensures |ps[i]| > 0 && ps[i] !in denied {
        assert |ps[i]| > 0 && ps[i][0] == BaseDir;
      }
    }
    CreateAllFirstVisits(fs, denied, ps, ns);
    IndexedSet(ps);
    LevellessObjectVisits(fs, obj, anomalies);
  }

  /** Parents still come first when the object directory is `dataset` itself. */
  lemma {:induction false} LevellessParentsFirst(fs: FS, dirs: seq<Path>, names: seq<string>)
    requires UnderTest([BaseDir, DatasetDir], dirs, names)
    ensures ParentsFirst(fs, Fixed([BaseDir, DatasetDir]) + dirs)
  {
    var o := [BaseDir, DatasetDir];
    var ps := Fixed(o) + dirs;
    forall i | 0 <= i < |ps| ensures |ps[i]| == 1 || Parent(ps[i]) in fs || Parent(ps[i]) in ps[..i] {
      if i >= 7 {
        assert ps[i] == dirs[i - 7] == o + [Test, names[i - 7]];
      }
      if i > 0 {
        var m := if i <= 2 then 0 else if i == 4 then 3 else if i == 3 || i == 5 then 1 else 5;
        assert Parent(ps[i]) == ps[m];
        assert ps[..i][m] == ps[m];
      }
    }
  }

  /** With an object name that adds no level the third visit finds `dataset` present;
      every other visit of a fresh build is a first visit of a missing directory. */
  lemma {:induction false} LevellessObjectVisits(fs: FS, obj: string, anomalies: seq<string>)
    requires Untouched(fs) && Components(obj) == [] && AllPlain(anomalies)
    requires forall i, j :: 0 <= i < j < |anomalies| ==> anomalies[i] != anomalies[j]
    requires Good !in anomalies
    ensures FirstVisits(fs, BuildPaths(obj, anomalies), BuildNames(obj, anomalies))
         == [BaseDir, DatasetDir, Train, Good, Test, Good] + anomalies
  {
    var ns := BuildNames(obj, anomalies);
    var dirs := AnomalyPaths(obj, anomalies);
    assert ObjectPath(obj) == [BaseDir, DatasetDir];
    assert BuildPaths(obj, anomalies) == Fixed([BaseDir, DatasetDir]) + dirs;
    PlainAnomalyDirs(obj, anomalies);
    PlainLeaves(anomalies);
    assert ns[3..] == [Train, Good, Test, Good] + anomalies;
    assert ns[0] == BaseDir && ns[1] == DatasetDir;
    LevellessVisits(fs, dirs, anomalies, ns);
  }

  /** The visits of a tree whose object directory is `dataset` itself: everything but the
      third name is recorded. */
  lemma {:induction false} LevellessVisits(fs: FS, dirs: seq<Path>, names: seq<string>, ns: seq<string>)
    requires Untouched(fs)
    requires UnderTest([BaseDir, DatasetDir], dirs, names) && Distinct(names) && Good !in names
    requires |ns| == 7 + |dirs| && ns[0] == BaseDir && ns[1] == DatasetDir
    requires ns[3..] == [Train, Good, Test, Good] + names
    ensures FirstVisits(fs, Fixed([BaseDir, DatasetDir]) + dirs, ns)
         == [BaseDir, DatasetDir, Train, Good, Test, Good] + names
  {
    var ps := Fixed([BaseDir, DatasetDir]) + dirs;
    var fs2 := fs + {[BaseDir]} + {[BaseDir, DatasetDir]};
    assert ps[0] == [BaseDir] && ps[1] == [BaseDir, DatasetDir] && ps[2] == ps[1];
    SecondVisitRecordsNothing(fs, ps, ns);
    LevellessRestFresh(fs, dirs, names);
    assert ps[3..] == Fixed([BaseDir, DatasetDir])[3..] + dirs;
    FirstVisitsFresh(fs2, ps[3..], ns[3..]);
  }

  /** Two new directories, then the second again: two names are recorded for the three
      visits. */
  lemma {:induction false} SecondVisitRecordsNothing(fs: FS, paths: seq<Path>, names: seq<string>)
    requires |names| == |paths| >= 3
    requires paths[0] !in fs && paths[1] !in fs + {paths[0]} && paths[2] == paths[1]
    ensures FirstVisits(fs, paths, names)
         == [names[0], names[1]] + FirstVisits(fs + {paths[0]} + {paths[1]}, paths[3..], names[3..])
  {
    var fs1 := fs + {paths[0]};
    var fs2 := fs1 + {paths[1]};
    assert FirstVisits(fs, paths, names) == [names[0]] + FirstVisits(fs1, paths[1..], names[1..]);
    assert paths[1..][0] == paths[1] && paths[1..][1..] == paths[2..] && names[1..][1..] == names[2..];
    assert FirstVisits(fs1, paths[1..], names[1..]) == [names[1]] + FirstVisits(fs2, paths[2..], names[2..]);
    assert paths[2..][0] == paths[2] && paths[2..][1..] == paths[3..] && names[2..][1..] == names[3..];
    assert fs2 + {paths[2]} == fs2;
  }

  /** Below `dataset`, the split and anomaly directories are missing from an untouched
      file system even after base and dataset are created, and pairwise distinct. */
  lemma {:induction false} LevellessRestFresh(fs: FS, dirs: seq<Path>, names: seq<string>)
    requires Untouched(fs)
    requires UnderTest([BaseDir, DatasetDir], dirs, names) && Distinct(names) && Good !in names
    ensures var rest := Fixed([BaseDir, DatasetDir])[3..] + dirs;
      && (forall i :: 0 <= i < |rest| ==> rest[i] !in fs + {[BaseDir]} + {[BaseDir, DatasetDir]})
      && Distinct(rest)
  {
    var o := [BaseDir, DatasetDir];
    var rest := Fixed(o)[3..] + dirs;
    SubtreeDistinct(o, dirs, names);
    forall i | 0 <= i < |rest| ensures rest[i] !in fs + {[BaseDir]} + {[BaseDir, DatasetDir]} {
      if i >= 4 {
        assert rest[i] == dirs[i - 4] == o + [Test, names[i - 4]];
      }
      assert |rest[i]| >= 3 && rest[i][0] == BaseDir;
    }
  }


  /** The paths at the indices of a sequence are its members. */
  lemma {:induction false} IndexedSet<T>(s: seq<T>)
    ensures (set i | 0 <= i < |s| :: s[i]) == set x | x in s
  {
  }

  /** The object directory and each anomaly's directory under `test` are in the tree. */
  lemma {:induction false} TreeHoldsNames(obj: string, anomalies: seq<string>)
    ensures ObjectPath(obj) in BuildPaths(obj, anomalies)
    ensures forall a :: a in anomalies ==> AnomalyPath(obj, a) in BuildPaths(obj, anomalies)
  {
    var ps := BuildPaths(obj, anomalies);
    assert ps[2] == ObjectPath(obj);
    forall a | a in anomalies ensures AnomalyPath(obj, a) in ps {
      var i :| 0 <= i < |anomalies| && anomalies[i] == a;
      assert ps[7 + i] == AnomalyPaths(obj, anomalies)[i];
    }
  }
}

=== FILE: legacy_augment.dfy ===
/** The older augmenter (`DataAugmenter` in multicamcomposepro/augment.py): it reads from
    one directory and writes to another, makes every variant from the source image,
    clips the exposure, and computes a random crop that it then drops. */
module LegacyAugment {
  import opened Wrappers
  import opened Sampling
  import opened Imaging
  import opened FileSystem
  import Augment
  import AugmentParams
  import Capture

  /** The constructor's defaults. */
  const DefaultCount := 3
  const DefaultOutputSize: (int, int) := (1024, 1024)

  // ---------------------------------------------------------------- construction

  /** The augmenter's settings; the resolution starts unrecorded. */
  datatype Augmenter = Augmenter(
    inputDir: Path,
    outputDir: Path,
    count: int,
    outputSize: (int, int),
    resolution: Option<(nat, nat)>)

  /** `DataAugmenter(input_dir, output_dir, ...)`: with `create_dir` set, a missing output
      directory is created with `os.makedirs`, whose refusal propagates; the ancestors it
      managed to create before the refusal stay on disk. */
  function NewAugmenter(fs: FS, denied: set<Path>, inputDir: Path, outputDir: Path, count: int,
                        outputSize: (int, int), createDir: bool): (r: (Result<Augmenter>, FS))
    ensures r.0.Ok? ==> r.0.value == Augmenter(inputDir, outputDir, count, outputSize, None)
    ensures fs <= r.1 <= fs + Prefixes(outputDir) && r.1 * denied <= fs
    ensures r.0.Ok? && createDir && |outputDir| > 0 ==> outputDir in r.1
    ensures !createDir || outputDir in fs ==> r == (Ok(Augmenter(inputDir, outputDir, count, outputSize, None)), fs)
    ensures r.0.Raise? <==> createDir && outputDir !in fs && Blocked(fs, denied, outputDir)
    ensures r.0.Raise? ==> r.0.error == OSError
    ensures r.0.Raise? ==> forall k :: 1 <= k <= |outputDir| && !Blocked(fs, denied, outputDir[..k]) ==> outputDir[..k] in r.1
  {
    var a := Augmenter(inputDir, outputDir, count, outputSize, None);
    if createDir && outputDir !in fs then
      var made := MakeDirs(fs, denied, outputDir);
      (if made.1 then Ok(a) else Raise(OSError), made.0)
    else (Ok(a), fs)
  }

  // ---------------------------------------------------------------- samplers

  /** `random_white_balance`'s factors, listed as `[r, g, b]`, each in [0.9, 1.1]. */
  function WhiteBalance(ur: Draw, ug: Draw, ub: Draw): (s: seq<real>)
    ensures |s| == 3
    ensures forall c :: 0 <= c < 3 ==> 0.9 <= s[c] <= 1.1
  {
    UniformBetween(0.9, 1.1, ur);
    UniformBetween(0.9, 1.1, ug);
    UniformBetween(0.9, 1.1, ub);
    [Uniform(0.9, 1.1, ur), Uniform(0.9, 1.1, ug), Uniform(0.9, 1.1, ub)]
  }

  /** The exposure loop keeps drawing while the factor lies in [0.95, 1.05]. */
  predicate InWindow(f: real) { 0.95 <= f <= 1.05 }

  function ExposureDraw(u: Draw): real { Uniform(0.7, 1.2, u) }

  /** A draw ends the loop exactly when it falls below one half or above 0.7. */
  lemma {:induction false} ExposureExit(u: Draw)
    ensures !InWindow(ExposureDraw(u)) <==> u < 0.5 || u > 0.7
  {
    assert ExposureDraw(u) == 0.7 + 0.5 * u;
  }

  /** `random_exposure`'s factor over the given draws: the first that leaves the window;
      `None` when none does. */
  function Exposure(draws: seq<Draw>): (f: Option<real>)
    ensures f.None? <==> forall i :: 0 <= i < |draws| ==> InWindow(ExposureDraw(draws[i]))
    ensures f.Some? ==> !InWindow(f.value) && 0.7 <= f.value < 1.2
    decreases |draws|
  {
    if draws == [] then None
    else
      var f := ExposureDraw(draws[0]);
      if !InWindow(f) then
        assert 0.5 * draws[0] < 0.5;
        Some(f)
      else
        var rest := Exposure(draws[1..]);
        assert forall i :: 1 <= i < |draws| ==> draws[i] == draws[1..][i - 1];
        rest
  }

  /** The factor is the draw at the first index that leaves the window: every earlier
      draw stays in it, so the loop draws again until then. */
  lemma {:induction false} ExposureFirstExit(draws: seq<Draw>, k: nat)
    requires k < |draws| && !InWindow(ExposureDraw(draws[k]))
    requires forall i :: 0 <= i < k ==> InWindow(ExposureDraw(draws[i]))
    ensures Exposure(draws) == Some(ExposureDraw(draws[k]))
    decreases k
  {
    if k > 0 {
      assert InWindow(ExposureDraw(draws[0]));
      assert forall i :: 0 <= i < k - 1 ==> draws[1..][i] == draws[i + 1];
      ExposureFirstExit(draws[1..], k - 1);
    }
  }

  /** `np.clip(x, 0, 255).astype(np.uint8)`: clipped, then truncated to a whole value. */
  function Quantize(x: real): (y: real)
    ensures 0.0 <= y <= 255.0
    ensures y == y.Floor as real
    ensures 0.0 <= x <= 255.0 ==> x - 1.0 < y <= x
    ensures x <= 0.0 ==> y == 0.0
    ensures x >= 255.0 ==> y == 255.0
  {
    Clip(x).Floor as real
  }

  /** The exposed image: every channel scaled by `f` and quantised. */
  function Expose(img: Image, f: real): (r: Image)
    ensures Shape(r) == Shape(img)
    ensures forall i, j :: 0 <= i < |r.rows| && 0 <= j < |r.rows[i]| ==>
      0.0 <= r.rows[i][j].b <= 255.0 && 0.0 <= r.rows[i][j].g <= 255.0 && 0.0 <= r.rows[i][j].r <= 255.0
  {
    MapPixels(img, (p: Pixel) => Pixel(Quantize(f * p.b), Quantize(f * p.g), Quantize(f * p.r)))
  }

  /** `random_rotation`'s angle, in [-3, 3]. */
  function RotationAngle(u: Draw): (angle: real)
    ensures -3.0 <= angle <= 3.0
  {
    UniformBetween(-3.0, 3.0, u);
    Uniform(-3.0, 3.0, u)
  }

  /** `random_gaussian_blur`'s radius, in [0, 2], and 0 only on a zero draw. */
  function BlurRadius(u: Draw): (radius: real)
    ensures 0.0 <= radius <= 2.0
    ensures radius == 0.0 <==> u == 0.0
  {
    UniformBetween(0.0, 2.0, u);
    Uniform(0.0, 2.0, u)
  }

  /** `random_crop`'s corner for an image `w` wide and `h` high: a start within the slack
      plus a jitter in [-4, 5], horizontal first. `random.randint` on an empty range
      raises `ValueError`, which happens exactly when the image is smaller than the
      output size. */
  function CropCorner(w: nat, h: nat, size: (int, int), cx: Draw, jx: Draw, cy: Draw, jy: Draw): (r: Result<(int, int)>)
    ensures r.Raise? <==> w < size.1 || h < size.0
    ensures r.Raise? ==> r.error == ValueError
    ensures r.Ok? ==> -4 <= r.value.0 <= w - size.1 + 5 && -4 <= r.value.1 <= h - size.0 + 5
  {
    if w - size.1 < 0 then Raise(ValueError)
    else
      var x := RandInt(0, w - size.1, cx) + RandInt(-4, 5, jx);
      if h - size.0 < 0 then Raise(ValueError)
      else Ok((x, RandInt(0, h - size.0, cy) + RandInt(-4, 5, jy)))
  }

  // ---------------------------------------------------------------- one variant

  /** The draws one iteration consumes. */
  datatype Draws = Draws(
    wbR: Draw, wbG: Draw, wbB: Draw,
    exposure: seq<Draw>,
    rotation: Draw,
    mirror: Draw,
    blur: Draw,
    cropX: Draw, jitterX: Draw, cropY: Draw, jitterY: Draw)

  /** The values the samplers return, as the log records them. */
  datatype Params = Params(
    whiteBalance: seq<real>,
    exposure: real,
    angle: real,
    mirrored: bool,
    blurRadius: real,
    crop: (int, int))

  predicate Within(p: Params)
  {
    && |p.whiteBalance| == 3
    && (forall c :: 0 <= c < 3 ==> 0.9 <= p.whiteBalance[c] <= 1.1)
    && !InWindow(p.exposure) && 0.7 <= p.exposure < 1.2
    && -3.0 <= p.angle <= 3.0
    && 0.0 < p.blurRadius <= 2.0
  }

  /** What one iteration ends in. */
  type Outcome = Augment.Outcome<Params>

  /** One pass of the loop: white balance, exposure, rotation, mirror, (no) lens
      distortion, blur, (no) texture, crop. A zero blur radius makes `cv2.GaussianBlur`
      raise `cv2.error` before the crop. The crop is computed and dropped: the image
      made is the one before it. */
  function Variant(img: Image, size: (int, int), d: Draws, sample: (Image, Op, nat, nat) -> Pixel): (r: Outcome)
    ensures r.Stuck? <==> Exposure(d.exposure).None?
    ensures r.Failed? <==> Exposure(d.exposure).Some? && (d.blur == 0.0 || Width(img) < size.1 || Height(img) < size.0)
    ensures r.Failed? ==> r.error == if d.blur == 0.0 then CvError else ValueError
    ensures r.Made? ==> Shape(r.image) == Shape(img) && Rectangular(r.image) && Within(r.params)
  {
    var wb := WhiteBalance(d.wbR, d.wbG, d.wbB);
    var balanced := ScaleChannels(img, wb[0], wb[1], wb[2]);
    match Exposure(d.exposure)
    case None => Augment.Stuck
    case Some(f) =>
      var exposed := Expose(balanced, f);
      var angle := RotationAngle(d.rotation);
      var rotated := Resample(exposed, Rotate(angle), sample);
      var mirror := AugmentParams.Mirror(rotated, d.mirror);
      FlipShape(rotated);
      var radius := BlurRadius(d.blur);
      if radius == 0.0 then Augment.Failed(CvError)
      else
        var blurred := Resample(mirror.0, Blur(radius), sample);
        match CropCorner(Width(blurred), Height(blurred), size, d.cropX, d.jitterX, d.cropY, d.jitterY)
        case Raise(e) => Augment.Failed(e)
        case Ok(corner) => Augment.Made(blurred, Params(wb, f, angle, mirror.1, radius, corner))
  }

  /** The iterations over a file's draws, each outcome made by `make` from its own draw;
      the traversal stops at the first outcome that is not an image. */
  function Iterate(draws: seq<Draws>, make: Draws -> Outcome): (r: (seq<(Image, Params)>, Augment.Stop))
    ensures |r.0| <= |draws|
    ensures r.1.Completed? <==> |r.0| == |draws|
    ensures r.1.Raised? ==> make(draws[|r.0|]) == Augment.Failed(r.1.error)
    decreases |draws|
  {
    if draws == [] then ([], Augment.Completed)
    else
      match make(draws[0])
      case Failed(e) => ([], Augment.Raised(e))
      case Stuck => ([], Augment.Diverged)
      case Made(v, p) =>
        var rest := Iterate(draws[1..], make);
        assert rest.1.Raised? ==> draws[1..][|rest.0|] == draws[1 + |rest.0|];
        ([(v, p)] + rest.0, rest.1)
  }

  /** Iteration `k`'s outcome comes from draw `k` alone. */
  lemma {:induction false} IterateAt(draws: seq<Draws>, make: Draws -> Outcome, k: nat)
    requires k < |Iterate(draws, make).0|
    ensures var v := Iterate(draws, make).0[k];
      make(draws[k]) == Augment.Made(v.0, v.1)
    decreases k
  {
    var rest := Iterate(draws[1..], make).0;
    var first := make(draws[0]);
    assert Iterate(draws, make).0 == [(first.image, first.params)] + rest;
    if k > 0 {
      IterateAt(draws[1..], make, k - 1);
      assert draws[1..][k - 1] == draws[k];
    }
  }

  /** One iteration on the source image, as a function of its draws. */
  function Maker(img: Image, size: (int, int), sample: (Image, Op, nat, nat) -> Pixel): Draws -> Outcome
  {
    d => Variant(img, size, d, sample)
  }

  /** The variants one file gets: every one is made from the source image. The
      traversal stops at the first iteration that fails or never ends. */
  function Variants(img: Image, size: (int, int), draws: seq<Draws>, sample: (Image, Op, nat, nat) -> Pixel): (r: (seq<(Image, Params)>, Augment.Stop))
    ensures |r.0| <= |draws|
    ensures r.1.Completed? <==> |r.0| == |draws|
    ensures !r.1.Raised? || r.1.error in {ValueError, CvError}
  {
    Iterate(draws, Maker(img, size, sample))
  }

  /** Variant `k` depends on the source image and on its own draws only. */
  lemma {:induction false} VariantsIndependent(img: Image, size: (int, int), draws: seq<Draws>, sample: (Image, Op, nat, nat) -> Pixel, k: nat)
    requires k < |Variants(img, size, draws, sample).0|
    ensures var v := Variants(img, size, draws, sample).0[k];
      Variant(img, size, draws[k], sample) == Augment.Made(v.0, v.1)
  {
    IterateAt(draws, Maker(img, size, sample), k);
  }

  /** An image smaller than the output size raises on its first iteration, before
      anything of it is written: `ValueError` from the crop, unless a zero blur draw
      raises `cv2.error` first. */
  lemma {:induction false} SmallImageFails(img: Image, size: (int, int), draws: seq<Draws>, sample: (Image, Op, nat, nat) -> Pixel)
    requires |draws| > 0 && Exposure(draws[0].exposure).Some?
    requires Width(img) < size.1 || Height(img) < size.0
    ensures Variants(img, size, draws, sample)
         == ([], Augment.Raised(if draws[0].blur == 0.0 then CvError else ValueError))
  {
  }

  // ---------------------------------------------------------------- augment_images

  /** One `cv2.imwrite`. */
  datatype Write = Write(path: Path, source: string, index: nat, image: Image, params: Params)

  function Writes(vs: seq<(Image, Params)>, filename: string, outDir: Path): (ws: seq<Write>)
    ensures |ws| == |vs|
    ensures forall i :: 0 <= i < |vs| ==> ws[i] == Write(outDir + [Augment.OutName(filename, i)], filename, i, vs[i].0, vs[i].1)
  {
    seq(|vs|, i requires 0 <= i < |vs| => Write(outDir + [Augment.OutName(filename, i)], filename, i, vs[i].0, vs[i].1))
  }

  datatype Run = Run(writes: seq<Write>, resolution: Option<(nat, nat)>, stop: Augment.Stop)

  /** `augment_images`' loop over the remaining files, every one of them processed. The
      first image read records the resolution, reading `.shape` of a missing image when
      none is recorded yet; a later missing image fails in `random_white_balance`, where
      `cv2.split` gives no channels to unpack. */
  function AugmentFiles(a: Augmenter, files: seq<string>, read: Path -> Option<Image>, draws: nat -> Draws,
                        used: nat, resolution: Option<(nat, nat)>, sample: (Image, Op, nat, nat) -> Pixel): (r: Run)
    ensures resolution.Some? ==> r.resolution == resolution
    ensures r.stop == Augment.Raised(AttributeError) ==> r.writes == [] && resolution.None?
    ensures r.stop.Raised? ==> r.stop.error in {AttributeError, ValueError, CvError}
    ensures forall w :: w in r.writes ==> w.source in files && w.path == a.outputDir + [Augment.OutName(w.source, w.index)]
    decreases |files|
  {
    if files == [] then Run([], resolution, Augment.Completed)
    else
      var img := read(a.inputDir + [files[0]]);
      if resolution.None? && img.None? then Run([], None, Augment.Raised(AttributeError))
      else
        var res := if resolution.None? then Some(Shape(img.value)) else resolution;
        var n := Capture.NonNeg(a.count);
        if n == 0 then AugmentFiles(a, files[1..], read, draws, used, res, sample)
        else if img.None? then Run([], res, Augment.Raised(ValueError))
        else
          var v := Variants(img.value, a.outputSize, Augment.Stream(draws, used, n), sample);
          var ws := Writes(v.0, files[0], a.outputDir);
          if !v.1.Completed? then Run(ws, res, v.1)
          else
            var rest := AugmentFiles(a, files[1..], read, draws, used + n, res, sample);
            Run(ws + rest.writes, rest.resolution, rest.stop)
  }

  /** `augment_images(selected_images)`: the selection when it is non-empty, otherwise
      the listing of the input directory. */
  function AugmentImages(a: Augmenter, listing: seq<string>, selected: Option<seq<string>>, read: Path -> Option<Image>,
                         draws: nat -> Draws, sample: (Image, Op, nat, nat) -> Pixel): Run
  {
    var files := if selected.Some? && selected.value != [] then selected.value else listing;
    AugmentFiles(a, files, read, draws, 0, a.resolution, sample)
  }

  /** Nothing is skipped: an earlier output in the input directory is augmented again,
      its name growing a second `_aug_` part. */
  lemma {:induction false} OutputsReaugmented(a: Augmenter, f: string, read: Path -> Option<Image>, draws: nat -> Draws,
                           res: (nat, nat), img: Image, sample: (Image, Op, nat, nat) -> Pixel)
    requires a.count == 1
    requires read(a.inputDir + [Augment.OutName(f, 0)]) == Some(img)
    requires var v := Variant(img, a.outputSize, draws(0), sample); v.Made?
    ensures var r := AugmentFiles(a, [Augment.OutName(f, 0)], read, draws, 0, Some(res), sample);
      |r.writes| == 1 && r.writes[0].path == a.outputDir + [Augment.OutName(Augment.OutName(f, 0), 0)]
      && r.stop.Completed?
  {
    var name := Augment.OutName(f, 0);
    var ds := Augment.Stream(draws, 0, 1);
    assert ds == [draws(0)];
    VariantsOne(img, a.outputSize, draws(0), sample);
    var vs := Variants(img, a.outputSize, ds, sample).0;
    OneFile(a, name, read, draws, res, img, sample, vs);
    assert |Writes(vs, name, a.outputDir)| == 1;
  }

  /** One file whose variants all come out: the run writes exactly those variants. */
  lemma {:induction false} OneFile(a: Augmenter, name: string, read: Path -> Option<Image>, draws: nat -> Draws,
                res: (nat, nat), img: Image, sample: (Image, Op, nat, nat) -> Pixel, vs: seq<(Image, Params)>)
    requires a.count == 1
    requires read(a.inputDir + [name]) == Some(img)
    requires Variants(img, a.outputSize, Augment.Stream(draws, 0, 1), sample) == (vs, Augment.Completed)
    ensures AugmentFiles(a, [name], read, draws, 0, Some(res), sample)
      == Run(Writes(vs, name, a.outputDir), Some(res), Augment.Completed)
  {
    assert [name][1..] == [];
    assert Writes(vs, name, a.outputDir) + [] == Writes(vs, name, a.outputDir);
  }

  /** A single draw that makes an image gives exactly that variant. */
  lemma {:induction false} VariantsOne(img: Image, size: (int, int), d: Draws, sample: (Image, Op, nat, nat) -> Pixel)
    requires Variant(img, size, d, sample).Made?
    ensures var x := Variant(img, size, d, sample);
      Variants(img, size, [d], sample) == ([(x.image, x.params)], Augment.Completed)
  {
    var x := Variant(img, size, d, sample);
    var make := Maker(img, size, sample);
    assert make([d][0]) == x;
    assert [d][1..] == [];
    assert Iterate([d][1..], make) == ([], Augment.Completed);
    assert [(x.image, x.params)] + [] == [(x.image, x.params)];
  }
}

=== FILE: legacy_capture.dfy ===
/** The capture stage of the older revision (multicamcomposepro/camera.py): the same angle
    table and sorting as the newer revision, `num_pics` rounds per folder with no zero
    check, test/good before train/good, every anomaly captured, and one read per action
    from a device opened for that action alone. */
module LegacyCapture {
  import opened Wrappers
  import opened Json
  import opened FileSystem
  import opened Layout
  import opened CameraAngles
  import Capture
  import LegacyIdentifier
  import LegacyWarehouse
  import WarehouseBuilder

  /** Default of `CameraManager.__init__`. */
  const DefaultNumPics: int := 1

  // ---------------------------------------------------------------- schedule

  /** `capture_images(folder)`: `range(num_pics)` rounds, whatever their count. */
  function CaptureImages(folder: Path, numPics: int, slots: seq<Slot>): seq<Capture.Shot>
  {
    Capture.Rounds(folder, slots, Capture.NonNeg(numPics))
  }

  /** The missing zero check makes no difference: the schedule is the newer revision's. */
  lemma {:induction false} CaptureImagesAgree(folder: Path, numPics: int, slots: seq<Slot>)
    ensures CaptureImages(folder, numPics, slots) == Capture.CaptureImages(folder, numPics, slots)
  {
    if numPics == 0 {
      assert Capture.NonNeg(numPics) == 0;
    }
  }

  /** `capture_good_object`: test/good first, then train/good. */
  function CaptureGoodObject(obj: string, slots: seq<Slot>, numPics: int): seq<Capture.Shot>
  {
    CaptureImages(Capture.GoodFolder(obj, Test), numPics, slots)
    + CaptureImages(Capture.GoodFolder(obj, Train), numPics, slots)
  }

  /** `run`: the good object, then every anomaly in list order under its raw name. */
  function RunPlan(obj: string, anomalies: seq<string>, slots: seq<Slot>, numPics: int): seq<Capture.Shot>
  {
    CaptureGoodObject(obj, slots, numPics) + Capture.AnomalyShots(obj, anomalies, slots, numPics)
  }

  /** The layout of the schedule: test/good, train/good, then one block per anomaly, each
      block `num_pics` rounds over the whole table. */
  lemma {:induction false} RunPlanLayout(obj: string, anomalies: seq<string>, slots: seq<Slot>, numPics: int)
    ensures var plan := RunPlan(obj, anomalies, slots, numPics);
      var p := Capture.Mul(Capture.NonNeg(numPics), |slots|);
      && |plan| == p + p + Capture.Mul(|anomalies|, p)
      && plan[..p] == Capture.CaptureImages(Capture.GoodFolder(obj, Test), numPics, slots)
      && plan[p..p + p] == Capture.CaptureImages(Capture.GoodFolder(obj, Train), numPics, slots)
      && plan[p + p..] == Capture.AnomalyShots(obj, anomalies, slots, numPics)
  {
    var a := CaptureImages(Capture.GoodFolder(obj, Test), numPics, slots);
    var b := CaptureImages(Capture.GoodFolder(obj, Train), numPics, slots);
    var rest := Capture.AnomalyShots(obj, anomalies, slots, numPics);
    assert a == Capture.CaptureImages(Capture.GoodFolder(obj, Test), numPics, slots) && |a| == Capture.Mul(Capture.NonNeg(numPics), |slots|) by {
      CaptureImagesAgree(Capture.GoodFolder(obj, Test), numPics, slots);
      Capture.CaptureImagesLen(Capture.GoodFolder(obj, Test), numPics, slots);
    }
    assert b == Capture.CaptureImages(Capture.GoodFolder(obj, Train), numPics, slots) && |b| == Capture.Mul(Capture.NonNeg(numPics), |slots|) by {
      CaptureImagesAgree(Capture.GoodFolder(obj, Train), numPics, slots);
      Capture.CaptureImagesLen(Capture.GoodFolder(obj, Train), numPics, slots);
    }
    Capture.AnomalyShotsLen(obj, anomalies, slots, numPics);
    assert RunPlan(obj, anomalies, slots, numPics) == a + b + rest;
    Capture.Slice3(a, b, rest);
    assert (a + b + rest)[|a| + |b|..] == rest;
  }

  /** Where each action of `run` goes: a good folder or a raw anomaly folder, always with a
      counter below `num_pics`. */
  lemma {:induction false} RunPlanFolders(obj: string, anomalies: seq<string>, slots: seq<Slot>, numPics: int, i: nat)
    requires i < |RunPlan(obj, anomalies, slots, numPics)|
    ensures var s := RunPlan(obj, anomalies, slots, numPics)[i];
      && s.counter < numPics
      && (|| s.folder == Capture.GoodFolder(obj, Test)
          || s.folder == Capture.GoodFolder(obj, Train)
          || exists a :: a in anomalies && s.folder == Capture.AnomalyFolder(obj, a))
  {
    var p := Capture.Mul(Capture.NonNeg(numPics), |slots|);
    var plan := RunPlan(obj, anomalies, slots, numPics);
    RunPlanLayout(obj, anomalies, slots, numPics);
    if i < p {
      assert plan[i] == plan[..p][i];
      Capture.CaptureImagesMembers(Capture.GoodFolder(obj, Test), numPics, slots, i);
    } else if i < p + p {
      assert plan[i] == plan[p..p + p][i - p];
      Capture.CaptureImagesMembers(Capture.GoodFolder(obj, Train), numPics, slots, i - p);
    } else {
      assert plan[i] == plan[p + p..][i - p - p];
      Capture.AnomalyShotsMembers(obj, anomalies, slots, numPics, i - p - p);
    }
  }

  // ---------------------------------------------------------------- one action

  /** `capture_single_image`: nothing for None or "skip"; otherwise the folder is made, a
      device is opened for this action, and one read decides whether the frame is written.
      There is no list of devices to index, so no action can raise. */
  function CaptureSingleImage(shot: Capture.Shot, frameOk: bool): (o: Capture.Outcome)
    ensures !o.Crashed?
    ensures o.Skipped? <==> !shot.slot.Angle?
    ensures o.Saved? <==> shot.slot.Angle? && frameOk
    ensures !o.Skipped? ==> o.dir == shot.folder + [shot.slot.name]
    ensures o.Saved? ==> o.file == shot.folder + [shot.slot.name, Capture.ImageName(shot.counter)]
  {
    match shot.slot
    case Unset => Capture.Skipped
    case Skip => Capture.Skipped
    case Angle(name) =>
      var dir := shot.folder + [name];
      if frameOk then Capture.Saved(dir, dir + [Capture.ImageName(shot.counter)]) else Capture.NoFrame(dir)
  }

  /** Every action in order; `frameOk(s)` says whether the read of action `s` succeeds. */
  function Execute(shots: seq<Capture.Shot>, frameOk: Capture.Shot -> bool): (r: seq<Capture.Outcome>)
    ensures |r| == |shots|
    ensures forall k :: 0 <= k < |r| ==> r[k] == CaptureSingleImage(shots[k], frameOk(shots[k]))
  {
    if shots == [] then [] else [CaptureSingleImage(shots[0], frameOk(shots[0]))] + Execute(shots[1..], frameOk)
  }

  /** Against the newer revision: the older one never stops early, and an action that
      saves in the newer one (camera opened, all three reads good) saves here too when its
      single read succeeds. */
  lemma {:induction false} ExecuteNeverStops(shots: seq<Capture.Shot>, frameOk: Capture.Shot -> bool, numCaptures: nat,
                          newerOk: (Capture.Shot, nat) -> bool, k: nat)
    requires k < |shots|
    requires frameOk(shots[k]) == newerOk(shots[k], 2)
    ensures !Execute(shots, frameOk)[k].Crashed?
    ensures Capture.CaptureSingleImage(shots[k], numCaptures, (j: nat) => newerOk(shots[k], j)).Saved?
      ==> Execute(shots, frameOk)[k].Saved?
  {
  }

  /** The files a run writes: one per action whose slot holds an angle and whose read
      succeeds, at `folder/angle/NNN.png`. */
  lemma {:induction false} SavedFiles(shots: seq<Capture.Shot>, frameOk: Capture.Shot -> bool, k: nat)
    requires k < |shots|
    ensures var o := Execute(shots, frameOk)[k];
      o.Saved? <==> shots[k].slot.Angle? && frameOk(shots[k])
    ensures var o := Execute(shots, frameOk)[k];
      o.Saved? ==> o.file == shots[k].folder + [shots[k].slot.name, Capture.ImageName(shots[k].counter)]
  {
  }

  // ---------------------------------------------------------------- the manager

  /** What `CameraManager` is given as `warehouse`: only `Warehouse` has `object_name`. */
  datatype Holder =
    | FromWarehouse(w: LegacyWarehouse.Warehouse)
    | FromBuilder(b: WarehouseBuilder.Builder)

  function ObjectName(h: Holder): (r: Result<string>)
    ensures h.FromBuilder? <==> r == Raise(AttributeError)
  {
    match h
    case FromWarehouse(w) => Ok(w.objectName)
    case FromBuilder(_) => Raise(AttributeError)
  }

  function Anomalies(h: Holder): seq<string>
  {
    match h
    case FromWarehouse(w) => w.anomalies
    case FromBuilder(b) => b.anomalies
  }

  /** `run`: `capture_good_object` reads `object_name` before anything is captured. */
  function RunCapture(h: Holder, slots: seq<Slot>, numPics: int, frameOk: Capture.Shot -> bool): (r: Capture.Run)
    ensures h.FromBuilder? ==> r == Capture.Run([], Some(AttributeError))
    ensures h.FromWarehouse? ==>
      r.error.None? && r.outcomes == Execute(RunPlan(h.w.objectName, h.w.anomalies, slots, numPics), frameOk)
  {
    match ObjectName(h)
    case Raise(e) => Capture.Run([], Some(e))
    case Ok(obj) => Capture.Run(Execute(RunPlan(obj, Anomalies(h), slots, numPics), frameOk), None)
  }

  /** A builder holds no anomalies, but the run fails before it could use them. */
  lemma {:induction false} BuilderRunFails(slots: seq<Slot>, numPics: int, frameOk: Capture.Shot -> bool, fs: FS, denied: set<Path>,
                        objectName: string, anomalies: seq<string>)
    ensures var b := WarehouseBuilder.Build(WarehouseBuilder.Init(), fs, denied, objectName, anomalies).0;
      && b.anomalies == []
      && RunCapture(FromBuilder(b), slots, numPics, frameOk).error == Some(AttributeError)
  {
  }

  // ---------------------------------------------------------------- the saved mapping

  /** As written, the older identifier writes its mapping as the whole file, and the older
      manager looks it up under "Camera Order": unless an operator typed "Camera Order"
      itself, the manager finds an empty mapping. */
  lemma {:induction false} SavedMappingNotFound(windows: bool, ids: seq<string>)
    requires LegacyIdentifier.LastVisited(windows, ids, "Camera Order").None?
    ensures Capture.LoadCameraMapping(Some(LegacyIdentifier.SaveToJson(LegacyIdentifier.Identify(windows, ids))))
         == Some(Object([]))
  {
    LegacyIdentifier.IdentifyEntry(windows, ids, "Camera Order");
  }

  /** Sorting with an empty mapping leaves every slot `None`. */
  lemma {:induction false} EmptyMappingClearsTable(j: nat)
    ensures Writes(InitialSlots(), []) == Ok([])
    ensures LastWrite([], j) == Unset
  {
  }

  /** As written, with every slot `None` the whole run writes nothing: each action is
      skipped, however the devices behave. */
  lemma {:induction false} ClearedTableSavesNothing(obj: string, anomalies: seq<string>, slots: seq<Slot>, numPics: int,
                                 frameOk: Capture.Shot -> bool, k: nat)
    requires forall j :: 0 <= j < |slots| ==> slots[j] == Unset
    requires k < |RunPlan(obj, anomalies, slots, numPics)|
    ensures Execute(RunPlan(obj, anomalies, slots, numPics), frameOk)[k].Skipped?
  {
    var plan := RunPlan(obj, anomalies, slots, numPics);
    RunPlanSlots(obj, anomalies, slots, numPics, k);
  }

  /** Every action is for a camera of the table, with the slot it holds. */
  lemma {:induction false} RunPlanSlots(obj: string, anomalies: seq<string>, slots: seq<Slot>, numPics: int, i: nat)
    requires i < |RunPlan(obj, anomalies, slots, numPics)|
    ensures var s := RunPlan(obj, anomalies, slots, numPics)[i];
      s.cam < |slots| && s.slot == slots[s.cam]
  {
    var p := Capture.Mul(Capture.NonNeg(numPics), |slots|);
    PlanAt(obj, anomalies, slots, numPics, i);
    if i < p {
      Capture.CaptureImagesMembers(Capture.GoodFolder(obj, Test), numPics, slots, i);
    } else if i < p + p {
      Capture.CaptureImagesMembers(Capture.GoodFolder(obj, Train), numPics, slots, i - p);
    } else {
      Capture.AnomalyShotsSlots(obj, anomalies, slots, numPics, i - p - p);
    }
  }

  /** Action `i` of `run`, read off its part of the schedule. */
  lemma {:induction false} PlanAt(obj: string, anomalies: seq<string>, slots: seq<Slot>, numPics: int, i: nat)
    requires i < |RunPlan(obj, anomalies, slots, numPics)|
    ensures var p := Capture.Mul(Capture.NonNeg(numPics), |slots|);
      && |Capture.CaptureImages(Capture.GoodFolder(obj, Test), numPics, slots)| == p
      && |Capture.CaptureImages(Capture.GoodFolder(obj, Train), numPics, slots)| == p
      && (i < p ==> RunPlan(obj, anomalies, slots, numPics)[i] == Capture.CaptureImages(Capture.GoodFolder(obj, Test), numPics, slots)[i])
      && (p <= i < p + p ==> RunPlan(obj, anomalies, slots, numPics)[i] == Capture.CaptureImages(Capture.GoodFolder(obj, Train), numPics, slots)[i - p])
      && (p + p <= i ==> (&& i - p - p < |Capture.AnomalyShots(obj, anomalies, slots, numPics)|
                         && RunPlan(obj, anomalies, slots, numPics)[i] == Capture.AnomalyShots(obj, anomalies, slots, numPics)[i - p - p]))
  {
    var p := Capture.Mul(Capture.NonNeg(numPics), |slots|);
    var plan := RunPlan(obj, anomalies, slots, numPics);
    RunPlanLayout(obj, anomalies, slots, numPics);
    if i < p {
      assert plan[i] == plan[..p][i];
    } else if i < p + p {
      assert plan[i] == plan[p..p + p][i - p];
    } else {
      assert plan[i] == plan[p + p..][i - p - p];
    }
  }

  /** The evidently intended save: the mapping under "Camera Order", as the manager reads
      it (and as the newer revision writes it). */
  function CorrectedSaveToJson(mapping: Dict<Value>): File
  {
    map["Camera Order" := Object(mapping)]
  }

  /** With the corrected save, the manager sorts with exactly the mapping the identifier
      built, whatever was typed. */
  lemma {:induction false} CorrectedMappingFound(windows: bool, ids: seq<string>)
    ensures Capture.LoadCameraMapping(Some(CorrectedSaveToJson(LegacyIdentifier.Identify(windows, ids))))
         == Some(Object(LegacyIdentifier.Identify(windows, ids)))
  {
  }
}

=== FILE: legacy_identifier.dfy ===
/** `CameraIdentifier` of the older revision (multicamcomposepro/camera_identifier.py): a
    first-failure search for the number of cameras, a pass over the indices that skips one
    platform-dependent index and stores each identifier against the index minus one, and a
    save that writes the mapping as the whole file. */
module LegacyIdentifier {
  import opened Wrappers
  import opened Json
  import CameraConfig

  /** `max_tested` of `get_camera_count`. */
  const MaxTested: nat := 6

  // ---------------------------------------------------------------- camera count

  /** `get_camera_count`: the first index below 6 that does not open, or 6. */
  method GetCameraCount(opens: nat -> bool) returns (count: nat)
    ensures count <= MaxTested
    ensures forall i :: 0 <= i < count ==> opens(i)
    ensures count < MaxTested ==> !opens(count)
  {
    var i := 0;
    while i < MaxTested
      invariant i <= MaxTested
      invariant forall j :: 0 <= j < i ==> opens(j)
    {
      if !opens(i) {
        return i;
      }
      i := i + 1;
    }
    return MaxTested;
  }

  /** The search result as a function: the length of the run of opening indices from 0,
      capped at 6. */
  function FirstFailure(opens: nat -> bool, from: nat): (c: nat)
    requires from <= MaxTested
    ensures from <= c <= MaxTested
    decreases MaxTested - from
  {
    if from == MaxTested || !opens(from) then from else FirstFailure(opens, from + 1)
  }

  /** The three facts `GetCameraCount` ensures pin the count down: it is the first failure. */
  lemma {:induction false} CountIsFirstFailure(opens: nat -> bool, from: nat, count: nat)
    requires from <= count <= MaxTested
    requires forall i :: from <= i < count ==> opens(i)
    requires count < MaxTested ==> !opens(count)
    ensures FirstFailure(opens, from) == count
    decreases MaxTested - from
  {
    if from < count {
      CountIsFirstFailure(opens, from + 1, count);
    }
  }

  // ---------------------------------------------------------------- identification

  /** Index 0 is passed over on Windows, index 1 everywhere else. */
  predicate Passed(windows: bool, i: nat)
  {
    (windows && i == 0) || (!windows && i == 1)
  }

  /** One index of `identify_all_cameras`: `mapping[identifier] = i - 1` unless passed over. */
  function Step(m: Dict<Value>, windows: bool, i: nat, id: string): Dict<Value>
  {
    if Passed(windows, i) then m else Put(m, id, Int(i - 1))
  }

  /** The mapping after indices `0 .. |ids| - 1`, with `ids[i]` typed for index `i` (what is
      typed at a passed-over index is never asked for). */
  function Identify(windows: bool, ids: seq<string>): Dict<Value>
    decreases |ids|
  {
    if ids == [] then []
    else
      var i := |ids| - 1;
      Step(Identify(windows, ids[..i]), windows, i, ids[i])
  }

  /** The last visited index at which `k` was typed, if any. */
  function LastVisited(windows: bool, ids: seq<string>, k: string): (r: Option<nat>)
    ensures r.Some? ==> r.value < |ids| && ids[r.value] == k && !Passed(windows, r.value)
    ensures r.Some? ==> forall j :: r.value < j < |ids| ==> ids[j] != k || Passed(windows, j)
    ensures r.None? ==> forall j :: 0 <= j < |ids| ==> ids[j] != k || Passed(windows, j)
    decreases |ids|
  {
    if ids == [] then None
    else
      var i := |ids| - 1;
      if ids[i] == k && !Passed(windows, i) then Some(i) else LastVisited(windows, ids[..i], k)
  }

  /** What the mapping holds for an identifier last typed at visited index `i`, if any. */
  function Stored(last: Option<nat>): Option<Value>
  {
    if last.Some? then Some(Int(last.value - 1)) else None
  }

  /** One index of the fold, seen from one key. */
  lemma {:induction false} IdentifyStep(windows: bool, ids: seq<string>, k: string)
    requires ids != []
    ensures var i := |ids| - 1;
      Get(Identify(windows, ids), k) ==
        if !Passed(windows, i) && ids[i] == k then Some(Int(i - 1)) else Get(Identify(windows, ids[..i]), k)
  {
  }

  lemma {:induction false} LastVisitedStep(windows: bool, ids: seq<string>, k: string)
    requires ids != []
    ensures var i := |ids| - 1;
      LastVisited(windows, ids, k) ==
        if !Passed(windows, i) && ids[i] == k then Some(i) else LastVisited(windows, ids[..i], k)
  {
  }

  /** Every entry against the reference: an identifier maps to the last visited index it
      was typed at, minus one; one never typed at a visited index is absent. */
  lemma {:induction false} IdentifyEntry(windows: bool, ids: seq<string>, k: string)
    ensures Get(Identify(windows, ids), k) == Stored(LastVisited(windows, ids, k))
    decreases |ids|
  {
    if ids != [] {
      IdentifyEntry(windows, ids[..|ids| - 1], k);
      IdentifyStep(windows, ids, k);
      LastVisitedStep(windows, ids, k);
    }
  }

  /** Keys are unique: a duplicate identifier overwrites its entry. */
  lemma {:induction false} IdentifyUnique(windows: bool, ids: seq<string>)
    ensures UniqueKeys(Identify(windows, ids))
    decreases |ids|
  {
    if ids != [] {
      var i := |ids| - 1;
      IdentifyUnique(windows, ids[..i]);
      if !Passed(windows, i) {
        PutUnique(Identify(windows, ids[..i]), ids[i], Int(i - 1));
      }
    }
  }

  /** A value the pass over `n` indices can store: on Windows 0 up to `n - 2`; elsewhere
      -1 (index 0) or 1 up to `n - 2`, never 0. */
  predicate Storable(windows: bool, n: nat, v: Value)
  {
    v.Int? && -1 <= v.i <= n - 2 && (windows ==> v.i >= 0) && (!windows ==> v.i != 0)
  }

  /** Every stored value is storable. */
  lemma {:induction false} IdentifyValues(windows: bool, ids: seq<string>)
    ensures forall e :: e in Identify(windows, ids) ==> Storable(windows, |ids|, e.1)
    decreases |ids|
  {
    if ids != [] {
      var i := |ids| - 1;
      IdentifyValues(windows, ids[..i]);
      StepValues(Identify(windows, ids[..i]), windows, i, ids[i]);
    }
  }

  lemma {:induction false} StepValues(m: Dict<Value>, windows: bool, i: nat, id: string)
    requires forall e :: e in m ==> Storable(windows, i, e.1)
    ensures forall e :: e in Step(m, windows, i, id) ==> Storable(windows, i + 1, e.1)
  {
    if !Passed(windows, i) {
      PutEntry(m, id, Int(i - 1));
    }
  }

  /** An entry of `Put(d, k, v)` is `(k, v)` or an entry of `d`. */
  lemma {:induction false} PutEntry<V>(d: Dict<V>, k: string, v: V)
    ensures forall e :: e in Put(d, k, v) ==> e == (k, v) || e in d
    decreases |d|
  {
    if d != [] && d[0].0 != k {
      PutEntry(d[1..], k, v);
      assert Put(d, k, v) == [d[0]] + Put(d[1..], k, v);
    }
  }

  lemma {:induction false} TypedPrefix(windows: bool, typed: nat -> string, n: nat)
    ensures Identify(windows, CameraConfig.Typed(typed, n + 1)) == Step(Identify(windows, CameraConfig.Typed(typed, n)), windows, n, typed(n))
  {
    assert CameraConfig.Typed(typed, n + 1)[..n] == CameraConfig.Typed(typed, n);
  }

  /** `identify_all_cameras` with the count search folded in: `typed(i)` is what the
      operator enters for index `i`. */
  method IdentifyAllCameras(windows: bool, opens: nat -> bool, typed: nat -> string)
    returns (count: nat, mapping: Dict<Value>)
    ensures count == FirstFailure(opens, 0)
    ensures mapping == Identify(windows, CameraConfig.Typed(typed, count))
  {
    count := GetCameraCount(opens);
    CountIsFirstFailure(opens, 0, count);
    mapping := [];
    var i := 0;
    while i < count
      invariant 0 <= i <= count
      invariant mapping == Identify(windows, CameraConfig.Typed(typed, i))
    {
      TypedPrefix(windows, typed, i);
      mapping := Step(mapping, windows, i, typed(i));
      i := i + 1;
    }
  }

  // ---------------------------------------------------------------- saving

  /** `save_to_json`: the mapping is the whole file; nothing else survives. */
  function SaveToJson(mapping: Dict<Value>): (r: File)
    ensures forall k :: k in r <==> HasKey(mapping, k)
    ensures forall k :: k in r ==> Get(mapping, k) == Some(r[k])
  {
    ToFile(mapping)
  }
}

=== FILE: legacy_warehouse.dfy ===
/** `Warehouse` of the older revision, multicamcomposepro/utils.py: the same tree and
    name cleaning as the newer class, with its own summary wording and no printing. */
module LegacyWarehouse {
  import opened FileSystem
  import opened Layout
  import Text

  datatype Warehouse = Warehouse(
    createdDirs: seq<string>,
    createdSubDirs: seq<string>,
    createdNestedSubDirs: seq<string>,
    objectName: string,
    anomalies: seq<string>)

  const DefaultAnomalies := ["Default1", "Default2", "Default3"]

  function Init(): (w: Warehouse)
    ensures w.createdDirs == [] && w.createdSubDirs == [] && w.createdNestedSubDirs == []
    ensures w.anomalies == []
  {
    Warehouse([], [], [], "", [])
  }

  /** `build(object_name, anomalies)`: cleaned names in the paths, the raw list kept in
      `anomalies`, the basename of each directory actually created appended to
      `created_dirs`; a failing creation is reported and skipped. */
  function Build(w: Warehouse, fs: FS, denied: set<Path>, objectName: string, anomalies: seq<string>)
    : (r: (Warehouse, FS))
    ensures r.0.objectName == CleanFolderName(objectName)
    ensures r.0.anomalies == anomalies
    ensures r.0.createdSubDirs == w.createdSubDirs && r.0.createdNestedSubDirs == w.createdNestedSubDirs
    ensures |w.createdDirs| <= |r.0.createdDirs| <= |w.createdDirs| + 7 + |anomalies|
    ensures r.0.createdDirs[..|w.createdDirs|] == w.createdDirs
    ensures fs <= r.1 && r.1 * denied <= fs
  {
    var name := CleanFolderName(objectName);
    var pass := BuildPass(fs, denied, name, CleanAll(anomalies));
    (w.(createdDirs := w.createdDirs + pass.1, objectName := name, anomalies := anomalies), pass.0)
  }

  function NothingCreated(objectName: string): string
  {
    "Directory " + objectName + " already exist! Nothing has been created."
  }

  /** `__str__`. */
  function Summary(w: Warehouse): string
  {
    (if w.createdDirs != [] then
       "Created the following directories: " + Text.JoinComma(w.createdDirs) + " in " + w.objectName + " \n"
     else "")
    + (if w.createdSubDirs != [] then
         "Created the following subdirectories for object " + w.objectName + ": " + Text.JoinComma(w.createdSubDirs)
       else "")
    + (if w.createdNestedSubDirs != [] then
         "With nested subdirectories: " + Text.JoinComma(w.createdNestedSubDirs)
       else if w.createdDirs == [] && w.createdSubDirs == [] then NothingCreated(w.objectName)
       else "")
  }

  /** With the never-filled lists empty, "already exist" is reported exactly when nothing
      was recorded. */
  lemma {:induction false} SummaryNothingCreated(w: Warehouse)
    requires w.createdSubDirs == [] && w.createdNestedSubDirs == []
    ensures Summary(w) == NothingCreated(w.objectName) <==> w.createdDirs == []
  {
    if w.createdDirs != [] {
      assert Summary(w)[0] == 'C';
      assert NothingCreated(w.objectName)[0] == 'D';
    }
  }

  /** On an untouched file system, with a one-level cleaned object name and distinct
      space-free, one-level anomaly names other than `good` (the default Default1..3 are
      such), a build creates and records base, dataset, object, train, good, test, good
      and each anomaly: 7 + |anomalies| names. */
  lemma {:induction false} BuildFresh(w: Warehouse, fs: FS, objectName: string, anomalies: seq<string>)
    requires PrefixClosed(fs) && Untouched(fs)
    requires PlainName(CleanFolderName(objectName))
    requires forall i :: 0 <= i < |anomalies| ==> ' ' !in anomalies[i] && PlainName(anomalies[i]) && anomalies[i] != Good
    requires forall i, j :: 0 <= i < j < |anomalies| ==> anomalies[i] != anomalies[j]
    ensures var r := Build(w, fs, {}, objectName, anomalies);
      && r.0.createdDirs == w.createdDirs + ([BaseDir, DatasetDir, CleanFolderName(objectName), Train, Good, Test, Good] + anomalies)
      && r.0.anomalies == anomalies
  {
    forall i | 0 <= i < |anomalies| ensures CleanFolderName(anomalies[i]) == anomalies[i] {
      CleanKeepsSpaceless(anomalies[i]);
    }
    assert CleanAll(anomalies) == anomalies;
    FreshPass(fs, {}, CleanFolderName(objectName), anomalies);
  }

  /** The default anomaly names are space-free, one level each, distinct and not `good`. */
  lemma DefaultsClean()
    ensures forall i :: 0 <= i < |DefaultAnomalies| ==>
      ' ' !in DefaultAnomalies[i] && PlainName(DefaultAnomalies[i]) && DefaultAnomalies[i] != Good
    ensures forall i, j :: 0 <= i < j < |DefaultAnomalies| ==> DefaultAnomalies[i] != DefaultAnomalies[j]
  {
  }

  /** A failure is skipped, not recorded, and the build goes on: whatever is refused, a
      second build creates nothing more and records nothing more. */
  lemma {:induction false} BuildIdempotent(w: Warehouse, fs: FS, denied: set<Path>, objectName: string, anomalies: seq<string>)
    ensures var r1 := Build(w, fs, denied, objectName, anomalies);
      Build(r1.0, r1.1, denied, objectName, anomalies) == r1
  {
    PassIdempotent(fs, denied, CleanFolderName(objectName), CleanAll(anomalies));
    var r1 := Build(w, fs, denied, objectName, anomalies);
    assert r1.0.createdDirs + [] == r1.0.createdDirs;
  }

  /** A fresh warehouse built over an existing tree reports "already exist". */
  lemma {:induction false} RebuildReportsNothing(w: Warehouse, fs: FS, denied: set<Path>, objectName: string, anomalies: seq<string>)
    ensures var fs1 := Build(w, fs, denied, objectName, anomalies).1;
      Summary(Build(Init(), fs1, denied, objectName, anomalies).0) == NothingCreated(CleanFolderName(objectName))
  {
    PassIdempotent(fs, denied, CleanFolderName(objectName), CleanAll(anomalies));
    var fs1 := Build(w, fs, denied, objectName, anomalies).1;
    SummaryNothingCreated(Build(Init(), fs1, denied, objectName, anomalies).0);
  }
}

=== FILE: pipeline.dfy ===
/** How the stages of the newer revision fit together through the configuration file
    and the warehouse: what `CameraManager` reads back from what `CameraIdentifier` and
    `CameraConfigurator` wrote, and where the capture run puts its images relative to
    the tree `Warehouse.build` created. */
module Pipeline {
  import opened Wrappers
  import opened Json
  import opened FileSystem
  import opened Layout
  import opened CameraAngles
  import CameraConfig
  import Capture
  import Warehouse

  // ---------------------------------------------------------------- file round trips

  /** The mapping `CameraManager` loads is the one the identifier saved, whatever else
      the file held. */
  lemma {:induction false} MappingRoundTrip(existing: Option<File>, mapping: Dict<Value>)
    ensures Capture.LoadCameraMapping(Some(CameraConfig.SaveCameraOrder(existing, mapping))) == Some(Object(mapping))
  {
  }

  /** The camera count `CameraManager` loads after identification: one per distinct
      named camera, plus one for the whole "skip" bucket. */
  lemma {:induction false} IdentifiedCameraCount(existing: Option<File>, ids: seq<string>)
    requires existing.None? || FileGet(existing.value, "CameraSettings", Object([])).Object?
    ensures var r := Capture.LoadCameraConfig(Some(CameraConfig.SaveCameraOrder(existing, CameraConfig.Identify(ids))));
      && r.Ok? && r.value.Some?
      && r.value.value.numCameras
         == |CameraConfig.Named(ids)| + (if CameraConfig.SkipIndices(ids) == [] then 0 else 1)
  {
    CameraConfig.IdentifySize(ids);
  }

  /** The settings `CameraManager` loads are the ones the configurator saved; the zoom,
      which the configurator never writes, defaults to 0. */
  lemma {:induction false} SettingsRoundTrip(existing: Option<File>, s: CameraConfig.Settings)
    requires existing.None? || !FileGet(existing.value, "Camera Order", Object([])).Int?
    ensures var r := Capture.LoadCameraConfig(Some(CameraConfig.SaveCameraSettings(existing, s)));
      && r.Ok? && r.value.Some?
      && r.value.value.exposure == Int(s.exposure)
      && r.value.value.colorTemp == Int(s.colorTemp)
      && r.value.value.zoom == Int(0)
  {
    var fields := CameraConfig.SettingsValue(s).fields;
    assert Get(fields, "Camera Exposure") == Some(Int(s.exposure));
    assert Get(fields, "Camera Color Temperature") == Some(Int(s.colorTemp));
    assert Get(fields, "Camera Zoom") == None;
  }

  // ---------------------------------------------------------------- camera count finding

  /** The cameras an index value refers to: `i + 1` for a non-negative index. */
  function IndexSpan(v: Value): nat
  {
    if v.Int? && v.i >= 0 then v.i + 1 else 0
  }

  function ListSpan(items: seq<Value>): (n: nat)
    ensures forall k :: 0 <= k < |items| ==> IndexSpan(items[k]) <= n
  {
    if items == [] then 0
    else
      var rest := ListSpan(items[1..]);
      assert forall k :: 1 <= k < |items| ==> items[k] == items[1..][k - 1];
      if IndexSpan(items[0]) > rest then IndexSpan(items[0]) else rest
  }

  /** The cameras one entry of "Camera Order" refers to; a list counts every index in it. */
  function EntrySpan(v: Value): nat
  {
    if v.List? then ListSpan(v.items) else IndexSpan(v)
  }

  /** The corrected camera count: enough cameras for the highest index the mapping
      refers to, so that a "skip" bucket of several cameras counts each of them. */
  function CorrectedCameraCount(order: Dict<Value>): (n: nat)
    ensures forall q :: 0 <= q < |order| ==> EntrySpan(order[q].1) <= n
  {
    if order == [] then 0
    else
      var rest := CorrectedCameraCount(order[1..]);
      assert forall q :: 1 <= q < |order| ==> order[q] == order[1..][q - 1];
      if EntrySpan(order[0].1) > rest then EntrySpan(order[0].1) else rest
  }

  lemma {:induction false} CountAtMost(order: Dict<Value>, b: nat)
    requires forall q :: 0 <= q < |order| ==> EntrySpan(order[q].1) <= b
    ensures CorrectedCameraCount(order) <= b
    decreases |order|
  {
    if order != [] {
      CountAtMost(order[1..], b);
    }
  }

  lemma {:induction false} ListSpanAtMost(items: seq<Value>, b: nat)
    requires forall k :: 0 <= k < |items| ==> IndexSpan(items[k]) <= b
    ensures ListSpan(items) <= b
    decreases |items|
  {
    if items != [] {
      ListSpanAtMost(items[1..], b);
    }
  }

  /** The skipped indices are visited indices. */
  lemma {:induction false} SkipIndicesBelow(ids: seq<string>)
    ensures forall k :: 0 <= k < |CameraConfig.SkipIndices(ids)| ==>
      CameraConfig.SkipIndices(ids)[k].Int? && 0 <= CameraConfig.SkipIndices(ids)[k].i < |ids|
    decreases |ids|
  {
    if ids != [] {
      SkipIndicesBelow(ids[..|ids| - 1]);
    }
  }

  /** An entry of a dictionary with unique keys is what `get` returns for its key. */
  lemma {:induction false} EntryIsGet<V>(d: Dict<V>, q: nat)
    requires UniqueKeys(d) && q < |d|
    ensures Get(d, d[q].0) == Some(d[q].1)
  {
    var r := Get(d, d[q].0);
    assert HasKey(d, d[q].0);
    var i :| 0 <= i < |d| && d[i] == (d[q].0, r.value);
  }

  /** Every value the identifier stores is an index (or a list of indices) below the
      number of cameras it visited. */
  lemma {:induction false} IdentifyValuesBelow(ids: seq<string>, q: nat)
    requires q < |CameraConfig.Identify(ids)|
    ensures var v := CameraConfig.Identify(ids)[q].1;
      || (v.Int? && 0 <= v.i < |ids|)
      || (v.List? && forall k :: 0 <= k < |v.items| ==> v.items[k].Int? && 0 <= v.items[k].i < |ids|)
  {
    var m := CameraConfig.Identify(ids);
    CameraConfig.IdentifyUnique(ids);
    CameraConfig.IdentifySpec(ids);
    SkipIndicesBelow(ids);
    EntryIsGet(m, q);
    var k := m[q].0;
    if k != "skip" {
      assert k in ids && !CameraConfig.IsSkip(k);
    }
  }

  /** The corrected count is exactly the number of cameras the identifier visited. */
  lemma {:induction false} CorrectedCountIsVisited(ids: seq<string>)
    ensures CorrectedCameraCount(CameraConfig.Identify(ids)) == |ids|
  {
    var m := CameraConfig.Identify(ids);
    forall q | 0 <= q < |m| ensures EntrySpan(m[q].1) <= |ids| {
      IdentifyValuesBelow(ids, q);
      var v := m[q].1;
      if v.List? {
        ListSpanAtMost(v.items, |ids|);
      }
    }
    CountAtMost(m, |ids|);
    if ids != [] {
      var last := |ids| - 1;
      CameraConfig.IdentifySpec(ids);
      if CameraConfig.IsSkip(ids[last]) {
        var skips := CameraConfig.SkipIndices(ids);
        assert skips == CameraConfig.SkipIndices(ids[..last]) + [Int(last)];
        assert HasKey(m, "skip");
        var q :| 0 <= q < |m| && m[q] == ("skip", List(skips));
        assert IndexSpan(skips[|skips| - 1]) == |ids|;
        assert EntrySpan(m[q].1) >= |ids|;
      } else {
        CameraConfig.SkipKey();
        assert ids[last] != "skip";
        assert CameraConfig.LastIndex(ids, ids[last]) == last;
        assert HasKey(m, ids[last]);
        var q :| 0 <= q < |m| && m[q] == (ids[last], Int(last));
        assert EntrySpan(m[q].1) == |ids|;
      }
    }
  }

  /** Every write the sort makes from values below `b` lands on a slot below `b`. */
  lemma {:induction false} ItemWritesBelow(items: seq<Value>, n: nat, b: nat)
    requires b <= n
    requires forall k :: 0 <= k < |items| ==> items[k].Int? && 0 <= items[k].i < b
    requires ItemWrites(items, n).Ok?
    ensures forall k :: 0 <= k < |ItemWrites(items, n).value| ==> ItemWrites(items, n).value[k].0 < b
    decreases |items|
  {
    if items != [] {
      ItemWritesBelow(items[..|items| - 1], n, b);
    }
  }

  lemma {:induction false} WritesBelow(angles: seq<Slot>, entries: Dict<Value>, b: nat)
    requires b <= |angles|
    requires forall q :: 0 <= q < |entries| ==>
      var v := entries[q].1;
      || (v.Int? && 0 <= v.i < b)
      || (v.List? && forall k :: 0 <= k < |v.items| ==> v.items[k].Int? && 0 <= v.items[k].i < b)
    requires Writes(angles, entries).Ok?
    ensures forall k :: 0 <= k < |Writes(angles, entries).value| ==> Writes(angles, entries).value[k].0 < b
    decreases |entries|
  {
    if entries != [] {
      var pre := entries[..|entries| - 1];
      var last := entries[|entries| - 1];
      WritesBelow(angles, pre, b);
      if last.0 == "skip" && last.1.List? {
        ItemWritesBelow(last.1.items, |angles|, b);
      }
    }
  }

  /** With the corrected count, a slot that holds an angle always has an opened camera. */
  lemma {:induction false} CorrectedSlotsCovered(ids: seq<string>, j: nat)
    requires |ids| <= |AngleTable|
    requires Writes(InitialSlots(), CameraConfig.Identify(ids)).Ok?
    requires LastWrite(Writes(InitialSlots(), CameraConfig.Identify(ids)).value, j).Angle?
    ensures j < CorrectedCameraCount(CameraConfig.Identify(ids))
  {
    var m := CameraConfig.Identify(ids);
    var ws := Writes(InitialSlots(), m).value;
    CorrectedCountIsVisited(ids);
    forall q | 0 <= q < |m|
      ensures var v := m[q].1;
        || (v.Int? && 0 <= v.i < |ids|)
        || (v.List? && forall k :: 0 <= k < |v.items| ==> v.items[k].Int? && 0 <= v.items[k].i < |ids|)
    {
      IdentifyValuesBelow(ids, q);
    }
    WritesBelow(InitialSlots(), m, |ids|);
    if j >= |ids| {
      LastWriteUnwritten(ws, j);
    }
  }

  /** The run with the corrected count: once the sort succeeded, no action of the plan
      reaches past the opened cameras, so every action runs and none raises. */
  lemma {:induction false} CorrectedRunCompletes(ids: seq<string>, slots: seq<Slot>, obj: string, anomalies: seq<string>,
                              train: int, test: int, frameOk: (Capture.Shot, nat) -> bool)
    requires |ids| <= |AngleTable|
    requires Writes(InitialSlots(), CameraConfig.Identify(ids)).Ok?
    requires |slots| == |AngleTable|
    requires forall j :: 0 <= j < |slots| ==> slots[j] == LastWrite(Writes(InitialSlots(), CameraConfig.Identify(ids)).value, j)
    ensures var plan := Capture.RunPlan(obj, anomalies, slots, train, test);
      var outs := Capture.Execute(plan, CorrectedCameraCount(CameraConfig.Identify(ids)), frameOk);
      |outs| == |plan| && forall k :: 0 <= k < |outs| ==> !outs[k].Crashed?
  {
    var plan := Capture.RunPlan(obj, anomalies, slots, train, test);
    var count := CorrectedCameraCount(CameraConfig.Identify(ids));
    forall k | 0 <= k < |plan| && plan[k].slot.Angle?
      ensures plan[k].cam < count
    {
      Capture.RunPlanSlots(obj, anomalies, slots, train, test, k);
      CorrectedSlotsCovered(ids, plan[k].cam);
    }
    Capture.ExecuteCompletes(plan, count, frameOk);
  }

  /** The mapping typed as "skip", "skip", "0" for cameras 0, 1 and 2. */
  function TwoSkipsThenNamed(): Dict<Value> { CameraConfig.Identify(["skip", "skip", "0"]) }

  lemma {:induction false} AddSkipEmpty(i: nat)
    ensures CameraConfig.AddSkip([], i) == [("skip", List([Int(i)]))]
  {
    var empty: Dict<Value> := [];
    var none: seq<Value> := [];
    assert CameraConfig.Bucket(empty) == none;
    assert none + [Int(i)] == [Int(i)];
  }

  lemma {:induction false} AddSkipSingle(xs: seq<Value>, i: nat)
    ensures CameraConfig.AddSkip([("skip", List(xs))], i) == [("skip", List(xs + [Int(i)]))]
  {
    assert CameraConfig.Bucket([("skip", List(xs))]) == xs;
  }

  lemma {:induction false} PutSecond(k0: string, v0: Value, k: string, v: Value)
    requires k0 != k
    ensures Put([(k0, v0)], k, v) == [(k0, v0), (k, v)]
  {
  }

  lemma TwoSkipsThenNamedValue()
    ensures TwoSkipsThenNamed() == [("skip", List([Int(0), Int(1)])), ("0", Int(2))]
  {
    SkipSkipNamed("skip", "0");
  }

  lemma {:induction false} SkipSkipNamed(s: string, n: string)
    requires s == "skip" && n == "0"
    ensures CameraConfig.Identify([s, s, n]) == [("skip", List([Int(0), Int(1)])), (n, Int(2))]
  {
    CameraConfig.SkipKey();
    IdentifyThree(s, s, n);
    var m1: Dict<Value> := [("skip", List([Int(0)]))];
    var m2: Dict<Value> := [("skip", List([Int(0), Int(1)]))];
    assert CameraConfig.Step([], 0, s) == m1 by {
      AddSkipEmpty(0);
    }
    assert CameraConfig.Step(m1, 1, s) == m2 by {
      AddSkipSingle([Int(0)], 1);
      PairConcat(Int(0), Int(1));
    }
    assert CameraConfig.Step(m2, 2, n) == [("skip", List([Int(0), Int(1)])), (n, Int(2))] by {
      assert !CameraConfig.IsSkip(n);
      PutSecond("skip", List([Int(0), Int(1)]), n, Int(2));
    }
  }

  lemma {:induction false} PairConcat<T>(x: T, y: T)
    ensures [x] + [y] == [x, y]
  {
  }

  /** The mapping for three identifiers, one step per camera. */
  lemma {:induction false} IdentifyThree(a: string, b: string, c: string)
    ensures CameraConfig.Identify([a, b, c])
         == CameraConfig.Step(CameraConfig.Step(CameraConfig.Step([], 0, a), 1, b), 2, c)
  {
    var empty: seq<string> := [];
    IdentifySnoc(empty, a);
    IdentifySnoc([a], b);
    IdentifySnoc([a, b], c);
    assert empty + [a] == [a] && [a] + [b] == [a, b] && [a, b] + [c] == [a, b, c];
  }

  lemma {:induction false} IdentifySnoc(ids: seq<string>, x: string)
    ensures CameraConfig.Identify(ids + [x]) == CameraConfig.Step(CameraConfig.Identify(ids), |ids|, x)
  {
    assert (ids + [x])[..|ids|] == ids;
  }

  lemma SkipItemsWrites()
    ensures ItemWrites([Int(0), Int(1)], 11) == Ok([(0, Skip), (1, Skip)])
  {
    var items := [Int(0), Int(1)];
    var item0 := [Int(0)];
    assert items[..1] == item0;
    assert item0[..0] == [];
    var noWrites: seq<(nat, Slot)> := [];
    assert ItemWrites(item0[..0], 11) == Ok(noWrites);
    assert Target(Int(0), 11) == Ok(0);
    assert noWrites + [(0, Skip)] == [(0, Skip)];
    assert ItemWrites(item0, 11) == Ok([(0, Skip)]);
    assert Target(Int(1), 11) == Ok(1);
    assert [(0, Skip)] + [(1, Skip)] == [(0, Skip), (1, Skip)];
  }

  lemma SkipEntryWrites()
    ensures Writes(InitialSlots(), [("skip", List([Int(0), Int(1)]))]) == Ok([(0, Skip), (1, Skip)])
  {
    var angles := InitialSlots();
    assert |angles| == 11;
    var first: Dict<Value> := [("skip", List([Int(0), Int(1)]))];
    assert first[..0] == [];
    var noWrites: seq<(nat, Slot)> := [];
    assert Writes(angles, first[..0]) == Ok(noWrites);
    SkipItemsWrites();
    assert EntryWrites(angles, "skip", List([Int(0), Int(1)])) == Ok([(0, Skip), (1, Skip)]);
    assert noWrites + [(0, Skip), (1, Skip)] == [(0, Skip), (1, Skip)];
  }

  lemma NamedEntryWrites()
    ensures EntryWrites(InitialSlots(), "0", Int(2)) == Ok([(2, Angle("cam_0_left"))])
  {
    assert Text.ParseInt("0") == Ok(0) by {
      assert Text.Strip("0") == "0";
    }
  }

  lemma WritesOfTwoSkips()
    ensures Writes(InitialSlots(), [("skip", List([Int(0), Int(1)])), ("0", Int(2))])
         == Ok([(0, Skip), (1, Skip), (2, Angle("cam_0_left"))])
  {
    var m: Dict<Value> := [("skip", List([Int(0), Int(1)])), ("0", Int(2))];
    assert m[..1] == [("skip", List([Int(0), Int(1)]))];
    assert m[|m| - 1] == ("0", Int(2));
    SkipEntryWrites();
    NamedEntryWrites();
    assert [(0, Skip), (1, Skip)] + [(2, Angle("cam_0_left"))] == [(0, Skip), (1, Skip), (2, Angle("cam_0_left"))];
  }

  /** As written, two skipped cameras count as one: three cameras were identified, the
      loaded count is 2, and camera 2 holds an angle. */
  lemma SkipBucketCountedOnce()
    ensures TwoSkipsThenNamed() == [("skip", List([Int(0), Int(1)])), ("0", Int(2))]
    ensures Capture.LoadCameraConfig(Some(CameraConfig.SaveCameraOrder(None, TwoSkipsThenNamed())))
         == Ok(Some(Capture.CameraSettings(Int(0), Int(0), Int(0), 2)))
    ensures Writes(InitialSlots(), TwoSkipsThenNamed()) == Ok([(0, Skip), (1, Skip), (2, Angle("cam_0_left"))])
    ensures CorrectedCameraCount(TwoSkipsThenNamed()) == 3
  {
    TwoSkipsThenNamedValue();
    WritesOfTwoSkips();
    TwoSkipsCount();
    OrderOnlyLoads(TwoSkipsThenNamed());
  }

  /** A file holding only a saved camera order loads with zero settings and one camera
      per key of the mapping. */
  lemma OrderOnlyLoads(m: Dict<Value>)
    ensures Capture.LoadCameraConfig(Some(CameraConfig.SaveCameraOrder(None, m)))
         == Ok(Some(Capture.CameraSettings(Int(0), Int(0), Int(0), |m|)))
  {
    var f := CameraConfig.SaveCameraOrder(None, m);
    assert "CameraSettings" !in f;
    assert FileGet(f, "Camera Order", Object([])) == Object(m);
  }

  lemma TwoSkipsCount()
    ensures CorrectedCameraCount([("skip", List([Int(0), Int(1)])), ("0", Int(2))]) == 3
  {
    var m: Dict<Value> := [("skip", List([Int(0), Int(1)])), ("0", Int(2))];
    var items := [Int(0), Int(1)];
    ListSpanAtMost(items, 2);
    assert EntrySpan(m[0].1) <= 3;
    assert EntrySpan(m[1].1) == 3;
    CountAtMost(m, 3);
  }

  /** As written, the run of that configuration raises `IndexError` as soon as it reaches
      camera 2, whatever the device does: `self.captures` holds only two cameras. */
  lemma {:induction false} SkipBucketRunCrashes(slots: seq<Slot>, obj: string, anomalies: seq<string>, train: int, test: int,
                             frameOk: (Capture.Shot, nat) -> bool)
    requires |slots| == |AngleTable|
    requires forall j :: 0 <= j < |slots| ==>
      slots[j] == LastWrite([(0, Skip), (1, Skip), (2, Angle("cam_0_left"))], j)
    requires train > 0
    ensures Capture.RunCapture(Some(Capture.CameraSettings(Int(0), Int(0), Int(0), 2)), obj, anomalies, slots,
                               train, test, frameOk).error == Some(IndexError)
  {
    var plan := Capture.RunPlan(obj, anomalies, slots, train, test);
    Capture.RunPlanLayout(obj, anomalies, slots, train, test);
    Capture.CaptureImagesShape(Capture.GoodFolder(obj, Train), train, slots);
    var t := Capture.Mul(Capture.NonNeg(train), |slots|);
    assert Capture.Pos(0, 2, |slots|) == 2;
    Capture.MulMono(1, Capture.NonNeg(train), |slots|);
    assert plan[..t][2] == Capture.Shot(Capture.GoodFolder(obj, Train), 2, slots[2], 0);
    assert slots[2] == Angle("cam_0_left");
    Capture.ExecuteCrashes(plan, 2, frameOk, 2);
  }

  // ---------------------------------------------------------------- anomaly folders

  /** A cleaned anomaly name is never a name holding a space, and `good` holds none. */
  lemma {:induction false} SpacedNameNotCleaned(a: string, anomalies: seq<string>)
    requires ' ' in a
    ensures a !in CleanAll(anomalies) && a != Good
  {
    if a in CleanAll(anomalies) {
      var i :| 0 <= i < |anomalies| && CleanAll(anomalies)[i] == a;
      CleanHasNoSpace(anomalies[i]);
    }
    assert ' ' !in Good;
  }

  /** A folder `test/<a>` with a space in `a` is neither one of the directories a build
      of space-free names visits nor an ancestor of one. */
  lemma {:induction false} SpacedFolderNotListed(name: string, anomalies: seq<string>, a: string)
    requires ' ' in a && ' ' !in name
    ensures !Covers(BuildPaths(name, CleanAll(anomalies)), Capture.AnomalyFolder(name, a))
  {
    var cleaned := CleanAll(anomalies);
    forall i | 0 <= i < |cleaned| ensures ' ' !in cleaned[i] {
      CleanHasNoSpace(anomalies[i]);
    }
    TreeSpaceless(name, cleaned);
    JoinSpaced(ObjectPath(name) + [Test], a);
    SpacedNotCovered(BuildPaths(name, cleaned), Capture.AnomalyFolder(name, a));
  }

  /** As written, `run` joins the raw anomaly name under `test/`, while `build` created the
      cleaned name: on a file system without the tree, whatever the build was refused,
      the folder of an anomaly whose name holds a space does not exist after the build. */
  lemma {:induction false} RawAnomalyFolderNotBuilt(w: Warehouse.Warehouse, fs: FS, denied: set<Path>, objectName: string,
                                 anomalies: seq<string>, a: string)
    requires PrefixClosed(fs) && Untouched(fs)
    requires ' ' in a
    ensures var r := Warehouse.Build(w, fs, denied, objectName, anomalies);
      Capture.AnomalyFolder(r.0.objectName, a) !in r.1
  {
    var r := Warehouse.Build(w, fs, denied, objectName, anomalies);
    var name := CleanFolderName(objectName);
    var cleaned := CleanAll(anomalies);
    var p := Capture.AnomalyFolder(name, a);
    assert p !in fs by {
      assert p[0] == BaseDir;
    }
    assert r.1 == BuildPass(fs, denied, name, cleaned).0;
    PassOnlyTree(fs, denied, name, cleaned);
    CleanHasNoSpace(objectName);
    SpacedFolderNotListed(name, anomalies, a);
  }

  /** With a camera slot and `test_anomaly_images` positive, the run visits the folder
      of every anomaly it is given. */
  lemma {:induction false} AnomalyFolderVisited(obj: string, anomalies: seq<string>, slots: seq<Slot>, train: int, test: int, j: nat)
    requires j < |anomalies|
    requires |slots| > 0 && test > 0
    ensures var plan := Capture.RunPlan(obj, anomalies, slots, train, test);
      exists i :: 0 <= i < |plan| && plan[i].folder == Capture.AnomalyFolder(obj, anomalies[j])
  {
    var plan := Capture.RunPlan(obj, anomalies, slots, train, test);
    var block := Capture.CaptureImages(Capture.AnomalyFolder(obj, anomalies[j]), test, slots);
    var start := Capture.BlockAt(train, test, |slots|, j);
    Capture.RunPlanBlock(obj, anomalies, slots, train, test, j);
    assert plan[start..Capture.BlockEnd(train, test, |slots|, j)] == block;
    assert |block| > 0 by {
      Capture.CaptureImagesLen(Capture.AnomalyFolder(obj, anomalies[j]), test, slots);
      Capture.MulMono(1, test, |slots|);
    }
    Capture.CaptureImagesMembers(Capture.AnomalyFolder(obj, anomalies[j]), test, slots, 0);
    assert plan[start] == block[0];
  }

  /** As written, such an anomaly's block of the run is not empty: with at least one
      camera slot and `test_anomaly_images` positive, some action of the run goes to the
      folder the build did not create. */
  lemma {:induction false} RawAnomalyShotOutsideTree(w: Warehouse.Warehouse, fs: FS, denied: set<Path>, objectName: string,
                                  anomalies: seq<string>, slots: seq<Slot>, train: int, test: int, j: nat)
    requires PrefixClosed(fs) && Untouched(fs)
    requires j < |anomalies| && ' ' in anomalies[j]
    requires |slots| > 0 && test > 0
    ensures var r := Warehouse.Build(w, fs, denied, objectName, anomalies);
      var plan := Capture.RunPlan(r.0.objectName, r.0.anomalies, slots, train, test);
      exists i :: 0 <= i < |plan| && plan[i].folder !in r.1
  {
    var r := Warehouse.Build(w, fs, denied, objectName, anomalies);
    AnomalyFolderVisited(r.0.objectName, anomalies, slots, train, test, j);
    RawAnomalyFolderNotBuilt(w, fs, denied, objectName, anomalies, anomalies[j]);
  }

  /** The evidently intended schedule: the warehouse's object name with the cleaned
      anomaly names, the folders `build` created. */
  function CorrectedRunPlan(w: Warehouse.Warehouse, slots: seq<Slot>, train: int, test: int): seq<Capture.Shot>
  {
    Capture.RunPlan(w.objectName, CleanAll(w.anomalies), slots, train, test)
  }

  /** With the corrected schedule, every action goes to a folder that exists once a build
      that nothing refused has run, whatever already existed. */
  lemma {:induction false} CorrectedFoldersBuilt(w: Warehouse.Warehouse, fs: FS, objectName: string, anomalies: seq<string>,
                              slots: seq<Slot>, train: int, test: int, i: nat)
    requires i < |CorrectedRunPlan(Warehouse.Build(w, fs, {}, objectName, anomalies).0, slots, train, test)|
    ensures var r := Warehouse.Build(w, fs, {}, objectName, anomalies);
      CorrectedRunPlan(r.0, slots, train, test)[i].folder in r.1
  {
    var r := Warehouse.Build(w, fs, {}, objectName, anomalies);
    var name := r.0.objectName;
    var cleaned := CleanAll(anomalies);
    var ps := BuildPaths(name, cleaned);
    assert r.1 == BuildPass(fs, {}, name, cleaned).0;
    PassSettles(fs, {}, name, cleaned);
    LayoutShape(name, cleaned);
    Capture.RunPlanFolders(name, cleaned, slots, train, test, i);
    var folder := CorrectedRunPlan(r.0, slots, train, test)[i].folder;
    assert folder in ps;
    var k :| 0 <= k < |ps| && ps[k] == folder;
    assert !Blocked(r.1, {}, ps[k]);
    WholePrefix(ps[k]);
  }
}

=== FILE: sampling.dfy ===
/** Random draws as inputs. A draw `u` is what Python's `random.random()` or numpy's
    `np.random.rand()` returned, in [0, 1); the samplers built on it are exact real
    arithmetic, without floating-point rounding. */
module Sampling {

  predicate Unit(u: real) { 0.0 <= u < 1.0 }

  /** One value returned by the generator. */
  type Draw = u: real | Unit(u) witness 0.0

  function Abs(x: real): (a: real)
    ensures a >= 0.0 && (a == x || a == -x)
  {
    if x < 0.0 then -x else x
  }

  function Min(a: real, b: real): real { if a <= b then a else b }

  function Max(a: real, b: real): real { if a <= b then b else a }

  /** `x` lies between the two ends, in whichever order they are given. */
  predicate Between(x: real, a: real, b: real) { Min(a, b) <= x <= Max(a, b) }

  /** `random.uniform(a, b)` and `np.random.uniform(a, b)`: `a + (b - a) * u`. */
  function Uniform(a: real, b: real, u: real): real { a + (b - a) * u }

  /** A uniform draw lies between its two ends, even when `a > b`. */
  lemma {:induction false} UniformBetween(a: real, b: real, u: real)
    requires Unit(u)
    ensures Between(Uniform(a, b, u), a, b)
  {
    var d := b - a;
    assert Uniform(a, b, u) == a + d * u;
    if a <= b {
      ScaleUnit(d, u);
    } else {
      ScaleUnit(-d, u);
      assert d * u == -((-d) * u);
    }
  }

  /** Scaling a non-negative length by a unit draw stays within the length. */
  lemma {:induction false} ScaleUnit(d: real, u: real)
    requires d >= 0.0 && Unit(u)
    ensures 0.0 <= d * u <= d
  {
    assert d * (1.0 - u) >= 0.0;
  }

  /** `random.randint(a, b)`: an integer of the closed range; an empty range raises. */
  function RandInt(a: int, b: int, u: real): (r: int)
    requires a <= b && Unit(u)
    ensures a <= r <= b
  {
    var span := (b - a + 1) as real;
    var k := (span * u).Floor;
    assert 0.0 <= span * u < span;
    a + k
  }
}

=== FILE: text.dfy ===
/** String helpers with Python's meaning: substring test, decimal rendering, `int()`,
    ASCII lower-casing and the `{:03d}` format. */
module Text {
  import opened Wrappers

  predicate IsDigit(c: char) { '0' <= c <= '9' }

  predicate AllDigits(s: string) { forall i :: 0 <= i < |s| ==> IsDigit(s[i]) }

  /** Python's `sub in s`. */
  predicate Contains(s: string, sub: string)
    decreases |s|
  {
    (|sub| <= |s| && s[..|sub|] == sub) || (|s| > 0 && Contains(s[1..], sub))
  }

  /** A string that embeds `sub` contains it, wherever it sits. */
  lemma {:induction false} ContainsInfix(pre: string, sub: string, post: string)
    ensures Contains(pre + sub + post, sub)
  {
    var s := pre + sub + post;
    if pre == [] {
      assert s[..|sub|] == sub;
    } else {
      assert s[1..] == pre[1..] + sub + post;
      ContainsInfix(pre[1..], sub, post);
    }
  }

  /** Containment of a string implies containment of every piece of it. */
  lemma {:induction false} ContainsPiece(s: string, a: string, b: string, c: string)
    requires Contains(s, a + b + c)
    ensures Contains(s, b)
    decreases |s|
  {
    var w := a + b + c;
    if |w| <= |s| && s[..|w|] == w {
      assert s == a + b + (c + s[|w|..]);
      ContainsInfix(a, b, c + s[|w|..]);
    } else {
      ContainsPiece(s[1..], a, b, c);
      assert s == s[..1] + s[1..];
      ContainsShift(s[..1], s[1..], b);
    }
  }

  /** Prepending text keeps every substring. */
  lemma {:induction false} ContainsShift(pre: string, s: string, sub: string)
    requires Contains(s, sub)
    ensures Contains(pre + s, sub)
    decreases |pre|
  {
    if pre != [] {
      ContainsShift(pre[1..], s, sub);
      assert (pre + s)[1..] == pre[1..] + s;
      assert Contains((pre + s)[1..], sub);
    } else {
      assert pre + s == s;
    }
  }

  /** The empty string and a string without `c` do not contain `[c]`. */
  lemma {:induction false} NotContainsChar(s: string, c: char)
    requires c !in s
    ensures !Contains(s, [c])
    decreases |s|
  {
    if |s| > 0 {
      assert s[0] != c;
      NotContainsChar(s[1..], c);
    }
  }

  function DigitChar(d: nat): (c: char)
    requires d < 10
    ensures IsDigit(c)
  {
    ('0' as int + d) as char
  }

  function DigitValue(c: char): (d: nat)
    requires IsDigit(c)
    ensures d < 10
  {
    (c as int - '0' as int)
  }

  /** Python's `str(n)` for a natural number. */
  function NatToString(n: nat): (s: string)
    ensures 1 <= |s|
    ensures AllDigits(s)
    decreases n
  {
    if n < 10 then [DigitChar(n)] else NatToString(n / 10) + [DigitChar(n % 10)]
  }

  /** The number a string of decimal digits denotes (leading zeros allowed). */
  function DecimalValue(s: string): nat
    requires AllDigits(s)
    decreases |s|
  {
    if s == [] then 0 else 10 * DecimalValue(s[..|s| - 1]) + DigitValue(s[|s| - 1])
  }

  /** Reading back a rendered number gives the number. */
  lemma {:induction false} DecimalRoundTrip(n: nat)
    ensures DecimalValue(NatToString(n)) == n
    decreases n
  {
    if n >= 10 {
      var s := NatToString(n);
      assert s[..|s| - 1] == NatToString(n / 10);
      DecimalRoundTrip(n / 10);
    }
  }

  /** Distinct numbers render to distinct strings. */
  lemma {:induction false} NatToStringInjective(m: nat, n: nat)
    requires NatToString(m) == NatToString(n)
    ensures m == n
  {
    DecimalRoundTrip(m);
    DecimalRoundTrip(n);
  }

  function Zeros(k: nat): (z: string)
    ensures |z| == k && AllDigits(z)
  {
    if k == 0 then [] else "0" + Zeros(k - 1)
  }

  /** Leading zeros do not change the value of a digit string. */
  lemma {:induction false} LeadingZeros(k: nat, s: string)
    requires AllDigits(s)
    ensures DecimalValue(Zeros(k) + s) == DecimalValue(s)
    decreases |s|
  {
    if s == [] {
      assert Zeros(k) + s == Zeros(k);
      ZerosValue(k);
    } else {
      var t := Zeros(k) + s;
      assert t[..|t| - 1] == Zeros(k) + s[..|s| - 1];
      LeadingZeros(k, s[..|s| - 1]);
    }
  }

  lemma {:induction false} ZerosValue(k: nat)
    ensures DecimalValue(Zeros(k)) == 0
  {
    if k > 0 {
      var z := Zeros(k);
      assert z[..|z| - 1] == Zeros(k - 1) by {
        assert z == "0" + Zeros(k - 1);
        ZerosSnoc(k - 1);
      }
      ZerosValue(k - 1);
    }
  }

  lemma {:induction false} ZerosSnoc(k: nat)
    ensures "0" + Zeros(k) == Zeros(k) + "0"
  {
    if k > 0 {
      ZerosSnoc(k - 1);
    }
  }

  /** Python's `f"{n:03d}"` for a natural number: at least three digits, zero-padded. */
  function Pad3(n: nat): (s: string)
    ensures AllDigits(s)
    ensures DecimalValue(s) == n
    ensures n < 1000 ==> |s| == 3
    ensures n >= 1000 ==> s == NatToString(n)
  {
    var d := NatToString(n);
    DecimalRoundTrip(n);
    LeadingZeros(if |d| < 3 then 3 - |d| else 0, d);
    if n < 1000 then
      assert |d| <= 3 by { ShortRendering(n); }
      Zeros(3 - |d|) + d
    else
      assert |d| >= 4 by { LongRendering(n); }
      d
  }

  lemma {:induction false} ShortRendering(n: nat)
    requires n < 1000
    ensures |NatToString(n)| <= 3
  {
    if n >= 10 {
      ShortRendering(n / 10);
      if n < 100 {
        assert |NatToString(n / 10)| == 1;
      }
    }
  }

  lemma {:induction false} LongRendering(n: nat)
    requires n >= 1000
    ensures |NatToString(n)| >= 4
  {
    if n / 10 >= 1000 {
      LongRendering(n / 10);
    } else {
      assert NatToString(n / 10) == NatToString(n / 100) + [DigitChar(n / 10 % 10)];
      assert NatToString(n / 100) == NatToString(n / 1000) + [DigitChar(n / 100 % 10)];
    }
  }

  /** Distinct counters give distinct padded names. */
  lemma {:induction false} Pad3Injective(m: nat, n: nat)
    requires Pad3(m) == Pad3(n)
    ensures m == n
  {
  }

  /** Python's `str.lower()` restricted to ASCII letters. */
  function Lower(s: string): (r: string)
    ensures |r| == |s|
    ensures forall i :: 0 <= i < |s| ==>
      r[i] == (if 'A' <= s[i] <= 'Z' then (s[i] as int + 32) as char else s[i])
  {
    if s == [] then []
    else [if 'A' <= s[0] <= 'Z' then (s[0] as int + 32) as char else s[0]] + Lower(s[1..])
  }

  /** Python's `str.isspace()`: the ASCII controls tab to carriage return, the four
      separators 0x1C to 0x1F, the space, and the Unicode spaces and line separators. */
  predicate IsSpace(c: char)
  {
    var n := c as int;
    || 9 <= n <= 13 || 28 <= n <= 32 || n == 0x85 || n == 0xA0 || n == 0x1680
    || 0x2000 <= n <= 0x200A || n == 0x2028 || n == 0x2029 || n == 0x202F || n == 0x205F || n == 0x3000
  }

  /** The digits of a decimal literal as `int()` accepts them: one or more digits, with a
      single underscore allowed between two digits. */
  predicate Grouped(t: string)
  {
    && |t| > 0 && IsDigit(t[0]) && IsDigit(t[|t| - 1])
    && (forall i :: 0 <= i < |t| ==> IsDigit(t[i]) || t[i] == '_')
    && (forall i :: 0 < i < |t| ==> t[i] == '_' ==> t[i - 1] != '_')
  }

  /** The digits of a literal with its underscores dropped. */
  function Ungroup(t: string): (r: string)
    ensures |r| <= |t|
    ensures (forall i :: 0 <= i < |t| ==> IsDigit(t[i]) || t[i] == '_') ==> AllDigits(r)
    ensures |t| > 0 && t[0] != '_' ==> |r| > 0 && r[0] == t[0]
    decreases |t|
  {
    if t == [] then []
    else (if t[0] == '_' then [] else [t[0]]) + Ungroup(t[1..])
  }

  /** Python's `int(s)` with base 10: surrounding whitespace, an optional sign, then one
      or more digits grouped by single underscores; anything else raises `ValueError`.
      A string with no digit in it is never a number, and only a string holding a minus
      sign gives a negative one. */
  function ParseInt(s: string): (r: Result<int>)
    ensures (forall i :: 0 <= i < |s| ==> !IsDigit(s[i])) ==> r.Raise?
    ensures r.Ok? && r.value < 0 ==> '-' in s
  {
    var t := Strip(s);
    var r := ParseLiteral(t);
    assert r.Ok? ==> exists i :: 0 <= i < |t| && IsDigit(t[i]);
    assert r.Ok? && r.value < 0 ==> t[0] == '-';
    r
  }

  /** `int()` on text with no surrounding whitespace: an optional sign, then the digits. */
  function ParseLiteral(t: string): (r: Result<int>)
    ensures r.Ok? ==> exists i :: 0 <= i < |t| && IsDigit(t[i])
    ensures r.Ok? && r.value < 0 ==> t[0] == '-'
  {
    if |t| > 0 && (t[0] == '-' || t[0] == '+') then
      var r := ParseDigits(t[1..], t[0] == '-');
      assert r.Ok? ==> IsDigit(t[1..][0]);
      r
    else ParseDigits(t, false)
  }

  /** The digits of a literal, negated when a minus sign came before them. */
  function ParseDigits(body: string, negative: bool): (r: Result<int>)
    ensures r.Ok? <==> Grouped(body)
    ensures r.Ok? ==> IsDigit(body[0]) && (r.value < 0 ==> negative)
  {
    if Grouped(body) then
      GroupedDigits(body);
      var v := DecimalValue(Ungroup(body));
      Ok(if negative then 0 - v as int else v)
    else Raise(ValueError)
  }

  lemma {:induction false} GroupedDigits(body: string)
    requires Grouped(body)
    ensures AllDigits(Ungroup(body)) && IsDigit(body[0])
  {
  }

  /** `str.strip()`: the whitespace at both ends removed, and nothing else. */
  function Strip(s: string): (t: string)
    ensures |t| <= |s|
    ensures forall i :: 0 <= i < |t| ==> t[i] in s
    ensures |t| > 0 ==> !IsSpace(t[0]) && !IsSpace(t[|t| - 1])
    decreases |s|
  {
    if |s| > 0 && IsSpace(s[0]) then Strip(s[1..])
    else if |s| > 0 && IsSpace(s[|s| - 1]) then Strip(s[..|s| - 1])
    else s
  }

  /** Whitespace added after a string does not change what `strip` keeps. */
  lemma {:induction false} StripTrailing(x: string, c: char)
    requires IsSpace(c)
    ensures Strip(x + [c]) == Strip(x)
    decreases |x|
  {
    if |x| > 0 && IsSpace(x[0]) {
      assert (x + [c])[1..] == x[1..] + [c];
      StripTrailing(x[1..], c);
    } else {
      assert (x + [c])[..|x + [c]| - 1] == x;
    }
  }

  /** `int()` ignores whitespace around its argument. */
  lemma {:induction false} ParseIgnoresSpace(s: string, c: char)
    requires IsSpace(c)
    ensures ParseInt([c] + s + [c]) == ParseInt(s)
  {
    assert Strip([c] + s + [c]) == Strip(s) by {
      assert ([c] + s + [c])[1..] == s + [c];
      StripTrailing(s, c);
    }
  }

  /** Text with no whitespace at either end is its own `strip()`. */
  lemma {:induction false} StripClean(t: string)
    requires |t| > 0 && !IsSpace(t[0]) && !IsSpace(t[|t| - 1])
    ensures Strip(t) == t
  {
  }

  /** `int(str(n))` returns `n`. */
  lemma {:induction false} ParseRendered(n: nat)
    ensures ParseInt(NatToString(n)) == Ok(n)
  {
    var d := NatToString(n);
    DecimalRoundTrip(n);
    StripClean(d);
    DigitsGrouped(d);
    UngroupDigits(d);
    assert ParseLiteral(d) == ParseDigits(d, false);
  }

  /** `int("-" + str(n))` returns `-n`. */
  lemma {:induction false} ParseNegative(n: nat)
    ensures ParseInt("-" + NatToString(n)) == Ok(0 - n as int)
  {
    var d := NatToString(n);
    var t := "-" + d;
    assert Strip(t) == t by {
      StripClean(t);
    }
    assert ParseLiteral(t) == ParseDigits(d, true) by {
      assert t[0] == '-' && t[1..] == d;
    }
    assert ParseDigits(d, true) == Ok(0 - n as int) by {
      DecimalRoundTrip(n);
      PlainDigits(d, true);
    }
  }

  /** Plain digits parse to their decimal value, negated after a minus sign. */
  lemma {:induction false} PlainDigits(d: string, negative: bool)
    requires AllDigits(d) && |d| > 0
    ensures ParseDigits(d, negative) == Ok(if negative then 0 - DecimalValue(d) as int else DecimalValue(d))
  {
    DigitsGrouped(d);
    assert DecimalValue(Ungroup(d)) == DecimalValue(d) by {
      UngroupDigits(d);
    }
  }

  /** Plain digits have no underscore to drop. */
  lemma {:induction false} UngroupDigits(d: string)
    requires AllDigits(d)
    ensures Ungroup(d) == d
    decreases |d|
  {
    if d != [] {
      assert !IsDigit('_');
      UngroupDigits(d[1..]);
      assert d == [d[0]] + d[1..];
    }
  }

  /** Plain digits are a literal. */
  lemma {:induction false} DigitsGrouped(d: string)
    requires AllDigits(d) && |d| > 0
    ensures Grouped(d)
  {
  }

  /** A single underscore groups digits. */
  lemma {:induction false} UnderscoreGroups()
    ensures ParseInt("1_0") == Ok(10)
  {
    StripClean("1_0");
    assert Grouped("1_0");
    assert Ungroup("1_0") == "10";
    assert DecimalValue("10") == 10 by {
      assert "10"[..1] == "1" && "1"[..0] == "";
    }
    assert ParseLiteral("1_0") == ParseDigits("1_0", false);
  }

  /** An underscore may not lead, trail or follow another. */
  lemma {:induction false} UnderscoreMisplaced()
    ensures ParseInt("_1").Raise? && ParseInt("1_").Raise? && ParseInt("1__0").Raise?
  {
    assert ParseInt("_1").Raise? by {
      StripClean("_1");
      assert !IsDigit("_1"[0]);
    }
    assert ParseInt("1_").Raise? by {
      StripClean("1_");
      assert !IsDigit("1_"[1]);
    }
    assert ParseInt("1__0").Raise? by {
      StripClean("1__0");
      assert "1__0"[2] == '_' && "1__0"[1] == '_';
    }
  }

  /** The separator controls 0x1C to 0x1F count as whitespace. */
  lemma {:induction false} SeparatorIsSpace()
    ensures ParseInt("5" + [28 as char]) == Ok(5)
  {
    StripTrailing("5", 28 as char);
    StripClean("5");
    DigitsGrouped("5");
    UngroupDigits("5");
    assert ParseLiteral("5") == ParseDigits("5", false);
  }

  /** Python's `", ".join(items)`. */
  function JoinComma(items: seq<string>): string
  {
    if items == [] then ""
    else if |items| == 1 then items[0]
    else items[0] + ", " + JoinComma(items[1..])
  }
}

=== FILE: video_cropper.dfy ===
/** The rectangle-drag state machine of `VideoCropper` (tests/mask_test.py): a mouse
    callback that records where a drag started and where it currently ends. */
module VideoCropper {

  /** OpenCV's mouse event codes. */
  const MouseMove := 0
  const LButtonDown := 1
  const LButtonUp := 4

  datatype Point = Point(x: int, y: int)

  datatype Cropper = Cropper(start: Point, end: Point, drawing: bool)

  /** One callback invocation: the event code and the pointer position. */
  datatype Event = Event(code: int, at: Point)

  /** `VideoCropper()`: both corners at (-1, -1), not drawing. */
  function Init(): (c: Cropper)
    ensures c.start == c.end == Point(-1, -1) && !c.drawing
  {
    Cropper(Point(-1, -1), Point(-1, -1), false)
  }

  /** `draw_rectangle(event, x, y, ...)`. */
  function Handle(c: Cropper, e: Event): (r: Cropper)
    ensures e.code == LButtonDown ==> r == Cropper(e.at, c.end, true)
    ensures e.code == MouseMove ==> r == (if c.drawing then c.(end := e.at) else c)
    ensures e.code == LButtonUp ==> r == Cropper(c.start, e.at, false)
    ensures e.code !in {LButtonDown, MouseMove, LButtonUp} ==> r == c
  {
    if e.code == LButtonDown then c.(drawing := true, start := e.at)
    else if e.code == MouseMove then (if c.drawing then c.(end := e.at) else c)
    else if e.code == LButtonUp then c.(drawing := false, end := e.at)
    else c
  }

  /** The state after the callbacks, in order. */
  function Replay(c: Cropper, events: seq<Event>): Cropper
    decreases |events|
  {
    if events == [] then c else Handle(Replay(c, events[..|events| - 1]), events[|events| - 1])
  }

  /** After a button-down at `k` with no later button-down, the drag starts where that
      event happened. */
  lemma {:induction false} StartIsLastPress(c: Cropper, events: seq<Event>, k: nat)
    requires k < |events| && events[k].code == LButtonDown
    requires forall j :: k < j < |events| ==> events[j].code != LButtonDown
    ensures Replay(c, events).start == events[k].at
    decreases |events|
  {
    var n := |events| - 1;
    assert events[..n] + [events[n]] == events;
    if k < n {
      StartIsLastPress(c, events[..n], k);
    }
  }

  /** Without a button-down, the start corner never moves. */
  lemma {:induction false} StartKeptWithoutPress(c: Cropper, events: seq<Event>)
    requires forall j :: 0 <= j < |events| ==> events[j].code != LButtonDown
    ensures Replay(c, events).start == c.start
    decreases |events|
  {
    if events != [] {
      StartKeptWithoutPress(c, events[..|events| - 1]);
    }
  }

  /** Whether a drag is in progress is decided by the last button event: a press starts
      it and a release ends it; moves and other events leave it alone. */
  lemma {:induction false} DrawingFollowsLastButton(c: Cropper, events: seq<Event>, k: nat)
    requires k < |events| && events[k].code in {LButtonDown, LButtonUp}
    requires forall j :: k < j < |events| ==> events[j].code !in {LButtonDown, LButtonUp}
    ensures Replay(c, events).drawing <==> events[k].code == LButtonDown
    decreases |events|
  {
    var n := |events| - 1;
    if k < n {
      DrawingFollowsLastButton(c, events[..n], k);
    }
  }

  /** Once released, moves leave the end corner where the release happened. */
  lemma {:induction false} EndFixedAfterRelease(c: Cropper, events: seq<Event>, k: nat)
    requires k < |events| && events[k].code == LButtonUp
    requires forall j :: k < j < |events| ==> events[j].code !in {LButtonDown, LButtonUp}
    ensures Replay(c, events).end == events[k].at && !Replay(c, events).drawing
    decreases |events|
  {
    var n := |events| - 1;
    if k < n {
      EndFixedAfterRelease(c, events[..n], k);
    }
  }

  /** During a drag, the end corner follows the pointer. */
  lemma {:induction false} DragTracksPointer(c: Cropper, events: seq<Event>, at: Point)
    requires Replay(c, events).drawing
    ensures Replay(c, events + [Event(MouseMove, at)]) == Replay(c, events).(end := at)
    ensures Replay(c, events + [Event(MouseMove, at)]).drawing
  {
    assert (events + [Event(MouseMove, at)])[..|events|] == events;
  }
}

=== FILE: warehouse.dfy ===
/** `Warehouse` of src/multicamcomposepro/utils.py: builds the dataset tree with
    create-if-absent semantics and reports what it created. */
module Warehouse {
  import opened FileSystem
  import opened Layout
  import opened Wrappers
  import Text

  /** The object's fields. `createdSubDirs` and `createdNestedSubDirs` exist but no
      operation ever appends to them. */
  datatype Warehouse = Warehouse(
    createdDirs: seq<string>,
    createdSubDirs: seq<string>,
    createdNestedSubDirs: seq<string>,
    objectName: string,
    anomalies: seq<string>)

  const DefaultObjectName := "default2_object"
  const DefaultAnomalies := ["Default1", "Default2", "Default3"]

  /** `Warehouse()`. */
  function Init(): (w: Warehouse)
    ensures w.createdDirs == [] && w.createdSubDirs == [] && w.createdNestedSubDirs == []
    ensures w.objectName == "" && w.anomalies == []
  {
    Warehouse([], [], [], "", [])
  }

  /** `build(object_name, anomalies)`: the object name and every nested name are cleaned
      before the paths are built, the raw anomaly list is kept for the capture stage,
      and `created_dirs` gains the basename of every directory actually created. */
  function Build(w: Warehouse, fs: FS, denied: set<Path>, objectName: string, anomalies: seq<string>)
    : (r: (Warehouse, FS))
    ensures r.0.objectName == CleanFolderName(objectName)
    ensures r.0.anomalies == anomalies
    ensures r.0.createdSubDirs == w.createdSubDirs && r.0.createdNestedSubDirs == w.createdNestedSubDirs
    ensures |w.createdDirs| <= |r.0.createdDirs| <= |w.createdDirs| + 7 + |anomalies|
    ensures r.0.createdDirs[..|w.createdDirs|] == w.createdDirs
    ensures fs <= r.1 && r.1 * denied <= fs
    ensures PrefixClosed(fs) ==> PrefixClosed(r.1)
  {
    var name := CleanFolderName(objectName);
    var pass := BuildPass(fs, denied, name, CleanAll(anomalies));
    (w.(createdDirs := w.createdDirs + pass.1, objectName := name, anomalies := anomalies), pass.0)
  }

  /** `build(object_name, None)`: base, dataset and the object directory are ensured, then
      `["good"] + None` raises `TypeError` before any split directory is visited. The
      result is the state the exception leaves behind and the error. */
  function BuildWithoutAnomalies(w: Warehouse, fs: FS, denied: set<Path>, objectName: string)
    : (r: (Warehouse, FS, PyError))
    ensures r.2 == TypeError
    ensures r.0.objectName == CleanFolderName(objectName)
    ensures r.0.createdSubDirs == w.createdSubDirs && r.0.createdNestedSubDirs == w.createdNestedSubDirs
    ensures |w.createdDirs| <= |r.0.createdDirs| <= |w.createdDirs| + 3
    ensures r.0.createdDirs[..|w.createdDirs|] == w.createdDirs
    ensures fs <= r.1 <= fs + Prefixes(ObjectPath(CleanFolderName(objectName))) && r.1 * denied <= fs
  {
    var name := CleanFolderName(objectName);
    var pass := ObjectPass(fs, denied, name);
    (w.(createdDirs := w.createdDirs + pass.1, objectName := name), pass.0, TypeError)
  }

  /** The message `__str__` gives when nothing was created. */
  function NothingCreated(objectName: string): string
  {
    "Directory " + objectName + " already exist! Nothing has been created."
  }

  /** `__str__`. */
  function Summary(w: Warehouse): string
  {
    (if w.createdDirs != [] then
       "Created directories: " + Text.JoinComma(w.createdDirs) + " in " + w.objectName + " \n"
     else "")
    + (if w.createdSubDirs != [] then
         "Created subdirectories for object " + w.objectName + ": " + Text.JoinComma(w.createdSubDirs)
       else "")
    + (if w.createdNestedSubDirs != [] then
         "With nested subdirectories: " + Text.JoinComma(w.createdNestedSubDirs)
       else if w.createdDirs == [] && w.createdSubDirs == [] then NothingCreated(w.objectName)
       else "")
  }

  /** With the two never-filled lists empty, the summary is the "already exist" message
      exactly when no directory was recorded. */
  lemma {:induction false} SummaryNothingCreated(w: Warehouse)
    requires w.createdSubDirs == [] && w.createdNestedSubDirs == []
    ensures Summary(w) == NothingCreated(w.objectName) <==> w.createdDirs == []
  {
    if w.createdDirs != [] {
      assert Summary(w)[0] == 'C';
      assert NothingCreated(w.objectName)[0] == 'D';
    }
  }

  /** On a file system without the tree, with a cleaned object name and cleaned anomaly
      names that are each one directory level, distinct, and other than `good`, a build
      creates exactly 7 + |anomalies| directories (base, dataset, object, train,
      train/good, test, test/good and one per anomaly) and records each. */
  lemma {:induction false} BuildFresh(w: Warehouse, fs: FS, denied: set<Path>, objectName: string, anomalies: seq<string>)
    requires PrefixClosed(fs) && Untouched(fs)
    requires forall p :: p in denied ==> |p| == 0 || p[0] != BaseDir
    requires PlainName(CleanFolderName(objectName)) && AllPlain(CleanAll(anomalies))
    requires forall i, j :: 0 <= i < j < |anomalies| ==> CleanFolderName(anomalies[i]) != CleanFolderName(anomalies[j])
    requires forall i :: 0 <= i < |anomalies| ==> CleanFolderName(anomalies[i]) != Good
    ensures var r := Build(w, fs, denied, objectName, anomalies);
      var name := CleanFolderName(objectName);
      && |r.0.createdDirs| == |w.createdDirs| + 7 + |anomalies|
      && r.0.createdDirs == w.createdDirs + ([BaseDir, DatasetDir, name, Train, Good, Test, Good] + CleanAll(anomalies))
      && r.1 == fs + set p | p in BuildPaths(name, CleanAll(anomalies))
  {
    var cleaned := CleanAll(anomalies);
    assert Good !in cleaned;
    FreshPass(fs, denied, CleanFolderName(objectName), cleaned);
  }

  /** An object name that adds no directory level (`""`, `"."`) makes the object directory
      the dataset directory itself: a fresh build records six names before the anomalies,
      base, dataset, train, good, test, good. */
  lemma {:induction false} BuildLevellessObject(w: Warehouse, fs: FS, denied: set<Path>, objectName: string, anomalies: seq<string>)
    requires PrefixClosed(fs) && Untouched(fs)
    requires forall p :: p in denied ==> |p| == 0 || p[0] != BaseDir
    requires Components(CleanFolderName(objectName)) == [] && AllPlain(CleanAll(anomalies))
    requires forall i, j :: 0 <= i < j < |anomalies| ==> CleanFolderName(anomalies[i]) != CleanFolderName(anomalies[j])
    requires forall i :: 0 <= i < |anomalies| ==> CleanFolderName(anomalies[i]) != Good
    ensures var r := Build(w, fs, denied, objectName, anomalies);
      && |r.0.createdDirs| == |w.createdDirs| + 6 + |anomalies|
      && r.0.createdDirs == w.createdDirs + ([BaseDir, DatasetDir, Train, Good, Test, Good] + CleanAll(anomalies))
  {
    var cleaned := CleanAll(anomalies);
    assert Good !in cleaned;
    LevellessObjectPass(fs, denied, CleanFolderName(objectName), cleaned);
  }

  /** With `anomalies=None` on a file system without the tree and a one-level object
      name, the three directories down to the object are created and recorded before
      `TypeError` is raised. */
  lemma {:induction false} BuildWithoutAnomaliesFresh(w: Warehouse, fs: FS, denied: set<Path>, objectName: string)
    requires PrefixClosed(fs) && Untouched(fs)
    requires forall p :: p in denied ==> |p| == 0 || p[0] != BaseDir
    requires PlainName(CleanFolderName(objectName))
    ensures var r := BuildWithoutAnomalies(w, fs, denied, objectName);
      var name := CleanFolderName(objectName);
      && r.0.createdDirs == w.createdDirs + [BaseDir, DatasetDir, name]
      && r.1 == fs + {[BaseDir], [BaseDir, DatasetDir], [BaseDir, DatasetDir, name]}
      && r.2 == TypeError
  {
    ObjectPassFresh(fs, denied, CleanFolderName(objectName));
  }

  /** The unit test's scenario: an object and two distinct space-free, one-level anomaly
      names (`test_object`, `test_anomaly_1`, `test_anomaly_2`) on an empty file system
      make nine directories. */
  lemma {:induction false} BuildTwoAnomalies(objectName: string, a1: string, a2: string)
    requires PlainName(CleanFolderName(objectName))
    requires ' ' !in a1 && ' ' !in a2 && PlainName(a1) && PlainName(a2)
    requires a1 != a2 && a1 != Good && a2 != Good
    ensures |Build(Init(), {}, {}, objectName, [a1, a2]).0.createdDirs| == 9
  {
    CleanKeepsSpaceless(a1);
    CleanKeepsSpaceless(a2);
    assert CleanAll([a1, a2]) == [a1, a2];
    BuildFresh(Init(), {}, {}, objectName, [a1, a2]);
  }

  /** A second build with the same arguments creates and records nothing. */
  lemma {:induction false} BuildIdempotent(w: Warehouse, fs: FS, denied: set<Path>, objectName: string, anomalies: seq<string>)
    ensures var r1 := Build(w, fs, denied, objectName, anomalies);
      Build(r1.0, r1.1, denied, objectName, anomalies) == r1
  {
    PassIdempotent(fs, denied, CleanFolderName(objectName), CleanAll(anomalies));
    var r1 := Build(w, fs, denied, objectName, anomalies);
    assert r1.0.createdDirs + [] == r1.0.createdDirs;
  }

  /** A fresh warehouse built over an existing tree reports "already exist". */
  lemma {:induction false} RebuildReportsNothing(w: Warehouse, fs: FS, denied: set<Path>, objectName: string, anomalies: seq<string>)
    ensures var fs1 := Build(w, fs, denied, objectName, anomalies).1;
      Summary(Build(Init(), fs1, denied, objectName, anomalies).0) == NothingCreated(CleanFolderName(objectName))
  {
    PassIdempotent(fs, denied, CleanFolderName(objectName), CleanAll(anomalies));
    var fs1 := Build(w, fs, denied, objectName, anomalies).1;
    SummaryNothingCreated(Build(Init(), fs1, denied, objectName, anomalies).0);
  }

  /** Whatever the names, the file system and the failures, a build creates only the
      tree's directories and their ancestors; with one-level names, only the fixed
      directories under `dataset/<object>` and `test/<a>` for a cleaned anomaly `a`. */
  lemma {:induction false} BuildCreatesOnlyTree(w: Warehouse, fs: FS, denied: set<Path>, objectName: string, anomalies: seq<string>)
    requires PrefixClosed(fs)
    ensures var name := CleanFolderName(objectName);
      var ps := BuildPaths(name, CleanAll(anomalies));
      var fs' := Build(w, fs, denied, objectName, anomalies).1;
      && (forall q :: q in fs' && q !in fs ==> Covers(ps, q))
      && (PlainName(name) && AllPlain(CleanAll(anomalies)) ==>
            forall q :: q in fs' && q !in fs ==>
              q in Fixed([BaseDir, DatasetDir, name])
              || exists a :: a in CleanAll(anomalies) && q == [BaseDir, DatasetDir, name, Test, a])
  {
    var name := CleanFolderName(objectName);
    var cleaned := CleanAll(anomalies);
    assert Build(w, fs, denied, objectName, anomalies).1 == BuildPass(fs, denied, name, cleaned).0;
    PassOnlyTree(fs, denied, name, cleaned);
    if PlainName(name) && AllPlain(cleaned) {
      PlainTreeShape(name, cleaned);
    }
  }
}

=== FILE: warehouse_builder.dfy ===
/** `WarehouseBuilder` of multicamcomposepro/create_warehouse_directories.py: the same
    tree, with names used verbatim, and a printed summary. */
module WarehouseBuilder {
  import opened FileSystem
  import opened Layout
  import Text

  /** The builder's fields; `anomalies` is initialised and never assigned again, and the two
      sub-directory lists are never appended. */
  datatype Builder = Builder(
    createdDirs: seq<string>,
    createdSubDirs: seq<string>,
    createdNestedSubDirs: seq<string>,
    anomalies: seq<string>)

  const DefaultObjectName := "object"

  function Init(): (b: Builder)
    ensures b.createdDirs == [] && b.createdSubDirs == [] && b.createdNestedSubDirs == [] && b.anomalies == []
  {
    Builder([], [], [], [])
  }

  /** The line printed when nothing was created. */
  function NothingCreated(objectName: string): string
  {
    "No folders created for object: " + objectName + ", because they already exist!"
  }

  /** `print_summary(object_name)`: the lines it prints. */
  function PrintSummary(b: Builder, objectName: string): seq<string>
  {
    (if b.createdDirs != [] then ["Created the following directories: " + Text.JoinComma(b.createdDirs)] else [])
    + (if b.createdSubDirs != [] then
         ["Created the following subdirectories for object " + objectName + ": " + Text.JoinComma(b.createdSubDirs)]
       else [])
    + (if b.createdNestedSubDirs != [] then ["With nested subdirectories: " + Text.JoinComma(b.createdNestedSubDirs)]
       else if b.createdDirs == [] && b.createdSubDirs == [] then [NothingCreated(objectName)]
       else [])
  }

  /** `build(object_name, anomalies)`: the tree with the names exactly as given, then the
      summary; the result carries the updated builder, file system and printed lines. */
  function Build(b: Builder, fs: FS, denied: set<Path>, objectName: string, anomalies: seq<string>)
    : (r: (Builder, FS, seq<string>))
    ensures r.0.anomalies == b.anomalies
    ensures r.0.createdSubDirs == b.createdSubDirs && r.0.createdNestedSubDirs == b.createdNestedSubDirs
    ensures |b.createdDirs| <= |r.0.createdDirs| <= |b.createdDirs| + 7 + |anomalies|
    ensures r.0.createdDirs[..|b.createdDirs|] == b.createdDirs
    ensures fs <= r.1 && r.1 * denied <= fs
    ensures r.2 == PrintSummary(r.0, objectName)
  {
    var pass := BuildPass(fs, denied, objectName, anomalies);
    var b' := b.(createdDirs := b.createdDirs + pass.1);
    (b', pass.0, PrintSummary(b', objectName))
  }

  /** The "already exist" line is printed exactly when `created_dirs` is empty. */
  lemma {:induction false} SummaryNothingCreated(b: Builder, objectName: string)
    requires b.createdSubDirs == [] && b.createdNestedSubDirs == []
    ensures NothingCreated(objectName) in PrintSummary(b, objectName) <==> b.createdDirs == []
  {
    if b.createdDirs != [] {
      var line := "Created the following directories: " + Text.JoinComma(b.createdDirs);
      assert PrintSummary(b, objectName) == [line];
      assert line[0] == 'C' && NothingCreated(objectName)[0] == 'N';
    }
  }

  /** On an untouched file system, with a one-level object name and distinct one-level
      anomaly names other than `good`, a build creates 7 + |anomalies| directories named
      exactly as given (spaces kept). */
  lemma {:induction false} BuildFresh(b: Builder, fs: FS, objectName: string, anomalies: seq<string>)
    requires PrefixClosed(fs) && Untouched(fs)
    requires PlainName(objectName) && AllPlain(anomalies)
    requires forall i, j :: 0 <= i < j < |anomalies| ==> anomalies[i] != anomalies[j]
    requires Good !in anomalies
    ensures var r := Build(b, fs, {}, objectName, anomalies);
      && r.0.createdDirs == b.createdDirs + ([BaseDir, DatasetDir, objectName, Train, Good, Test, Good] + anomalies)
      && ObjectPath(objectName) == [BaseDir, DatasetDir, objectName] && ObjectPath(objectName) in r.1
      && (forall a :: a in anomalies ==> ObjectPath(objectName) + [Test, a] in r.1)
  {
    var r := Build(b, fs, {}, objectName, anomalies);
    assert r.0.createdDirs == b.createdDirs + ([BaseDir, DatasetDir, objectName, Train, Good, Test, Good] + anomalies) by {
      FreshPass(fs, {}, objectName, anomalies);
    }
    assert ObjectPath(objectName) in r.1
        && forall a :: a in anomalies ==> ObjectPath(objectName) + [Test, a] in r.1 by {
      FreshTreeExists(fs, {}, objectName, anomalies);
    }
    assert ObjectPath(objectName) == [BaseDir, DatasetDir, objectName] by {
      PlainLayout(objectName, anomalies);
    }
  }

  /** A second build creates nothing and, on a fresh builder, prints only "already exist". */
  lemma {:induction false} RebuildPrintsNothingCreated(b: Builder, fs: FS, denied: set<Path>, objectName: string, anomalies: seq<string>)
    ensures var fs1 := Build(b, fs, denied, objectName, anomalies).1;
      var r2 := Build(Init(), fs1, denied, objectName, anomalies);
      r2.1 == fs1 && r2.2 == [NothingCreated(objectName)]
  {
    PassIdempotent(fs, denied, objectName, anomalies);
  }
}

=== FILE: wrappers.dfy ===
/** Failure-carrying values shared by every module of the model. */
module Wrappers {

  /** A value that may be absent; Python's `None` on one side. */
  datatype Option<+T> = None | Some(value: T)

  /** The Python exceptions the modelled code can raise. */
  datatype PyError =
    | IndexError
    | ValueError
    | TypeError
    | AttributeError
    | FileNotFoundError
    | OSError            // a directory creation refused by the operating system
    | CvError            // `cv2.error`: an OpenCV call rejected its arguments

  /** A computation that either returns a value or raises a Python exception. */
  datatype Result<+T> = Ok(value: T) | Raise(error: PyError)
}
